=== FILE: README.md ===
# SmartRoute, modelled in Dafny

SmartRoute plans a field worker's day. The user keeps a list of client visits
(tasks) in the browser. Each task has an address, coordinates, a client level
(standard or VIP) and working and lunch hours. The front end draws the
driving route through the user's position and the tasks on a map, and asks
the back end to order the visits.

The back end validates the request. It builds travel-time and distance
matrices from an OSRM routing server (cached, with retries and a fallback),
then builds the route greedily. From the current client it moves to the
reachable, open client with the best score. The score is a neural network's
attention score divided by the traffic-adjusted travel time. When no client
is open it waits 15 minutes. The answer (ordered stops with arrival and
departure times) is written back into the task list, and the drawer shows
the day's totals.

This project models that core as pure functions over immutable data, one
module per source unit:

- Front end:
  - `TasksStore` and `MapsStore`: the two stores and their local-storage copies.
  - `TaskDialog`: the task form.
  - `DrawerMenu`: the drawer.
  - `MultiRoute`: the map-route hook.
  - `MapView`: the map screen and its geolocation.
  - `MenuTrigger`: the totals card.
  - `Geocoder`: the geocoder helpers.
- Back end:
  - `Routes`: request validation and the endpoint.
  - `Scheduler`: the greedy optimizer.
  - `Traffic`: the traffic multipliers.
  - `Osrm`: the routing-server client and its cache.
- Shared:
  - `JsNumber`: JavaScript's `Number()` and `String()` on finite decimals and NaN.
  - `Text`, `Clock`, `StableSort`, `Wrappers`, `Domain`, `Arith`: common ground.

The model follows the code as written, including behaviour that is probably
not what the authors meant. Each of the following is stated and proved as
the code behaves:

- **Annotation one stop behind.** `sortTasksByOptimized` sorts the tasks by
  their route order. It then annotates task `p` with route stop `p`. Stop 0
  is the start point, so every task receives the times of the stop before
  it (`TasksStore.AnnotationIsOneStopBehind`).
- **Stale request after completing a task.** Completing a task re-runs the
  analysis with the request built at the last render. That request still
  lists the completed task and the old start position
  (`DrawerMenu.RestartUsesPreviousRender`).
- **Editing the first task appends a copy.** The task dialog's
  `if (taskIndex)` treats index 0 as "no index"
  (`TaskDialog.EditingFirstTaskAppends`).
- **Late events from replaced routes still apply.** The map hook never
  detaches its event handlers, so a late event from a replaced route still
  changes the hook's state (`MultiRoute.StaleFailStillApplies`,
  `MultiRoute.StaleSuccessStillApplies`).
- **The geolocation callback keeps the first render's values.** The
  callback sees the values from the first render only
  (`MapView.FirstFixShowsMap`).
- **The optimizer never gives up.** Its "no client left" exit cannot be
  reached while a client is unvisited, so a client that is never open makes
  it wait 15 minutes at a time without end (`Scheduler.NeverStops`,
  `Scheduler.WaitsForeverForClosedNode`). A well-formed request with such a
  client, other than the route's first node, gets no answer
  (`Routes.NeverOpenClientNoReply`). The model's clock has no upper
  bound, whereas Python's `datetime` stops at year 9999 (see
  "## Left out").
- **A start time sent as null or empty is a server error.** It passes
  validation and then fails inside the optimizer, so the answer is 500
  (`Routes.NullStartTimeIsServerError`). A start time left out of the body
  takes the schema's default "09:00" and is neither refused nor a server
  error (`Routes.OmittedStartTimeStartsAtNine`).
- **The time pattern accepts a trailing line feed.** "HH:MM\n" matches the
  pattern, and `int()` parses it (`Routes.AcceptedTimeParses`).
- **A zero total hides the distance.** A total distance of 0 shows as
  "- -", while the duration still shows (`MenuTrigger.ZeroTotalsShowDurationOnly`).
- **Negative durations.** A negative duration shows both hours and minutes
  as negative (`MenuTrigger.NegativeDurationBothNegative`).

Time on the back end is a whole number of minutes. The clock runs on past
midnight, and a client's opening hours are checked against the time of day
(the clock modulo 1440). The following become parameters of the model:

- the routing server's answers;
- the neural network's score;
- the base travel time between two nodes at a given hour;
- the wall clock;
- fresh ids.

## Model

| member | source | states |
|---|---|---|
| MapsStore.Init | frontend/src/stores/maps/mapsStore.ts:5-18 | On load the position and address are the stored ones, or null when nothing is stored; memory and storage agree |
| MapsStore.SetUserPosition | frontend/src/stores/maps/mapsStore.ts:9-12 | Sets the position in memory and storage; the address is untouched; agreement with storage is kept |
| MapsStore.SetUserAddress | frontend/src/stores/maps/mapsStore.ts:14-17 | Sets the address in memory and storage; the position is untouched; agreement with storage is kept |
| MapsStore.SettersCommute | frontend/src/stores/maps/mapsStore.ts:9-17 | Setting position then address gives the same store as address then position |
| MapsStore.ReloadAfterSet | frontend/src/stores/maps/mapsStore.ts:6-17 | A page reload after both setters shows the values that were set |
| TasksStore.Init | frontend/src/stores/tasks/tasksStore.ts:8-105 | On load tasks, start time and day are the stored ones (tasks empty when none are stored); no totals; memory agrees with storage |
| TasksStore.WriteTasks | frontend/src/stores/tasks/tasksStore.ts:14-15 | Writing a list sets it in memory and storage and changes nothing else |
| TasksStore.AddTask | frontend/src/stores/tasks/tasksStore.ts:11-16 | The task is appended at the end, earlier tasks keep their places, storage holds the new list |
| TasksStore.EditTask | frontend/src/stores/tasks/tasksStore.ts:17-22 | An index inside the list replaces exactly that task; the index equal to the length appends; a negative index leaves the list as it was |
| TasksStore.SpliceStart | frontend/src/stores/tasks/tasksStore.ts:25 | `splice`'s start: a negative index counts from the end, clamped to 0 and to the length |
| TasksStore.DeleteTask | frontend/src/stores/tasks/tasksStore.ts:23-28 | The task at the splice start is removed and the rest shift down in order; an index beyond the list removes nothing; storage holds the new list |
| TasksStore.AddThenDelete | frontend/src/stores/tasks/tasksStore.ts:11-28 | Deleting the task just added (by its index) restores the list and its stored copy |
| TasksStore.AddThenDeleteLast | frontend/src/stores/tasks/tasksStore.ts:11-28 | Deleting index -1 after an add restores the list |
| TasksStore.EditWithSame | frontend/src/stores/tasks/tasksStore.ts:17-22 | Editing a task with itself leaves the list unchanged |
| TasksStore.NumberCell | frontend/src/stores/tasks/tasksStore.ts:48-51 | A missing coordinate column becomes NaN (`Number(undefined)`) |
| TasksStore.LevelOf | frontend/src/stores/tasks/tasksStore.ts:52-56 | The level is standard exactly when the lower-cased, trimmed cell is "standart" or "standard"; everything else is VIP |
| TasksStore.LevelNameRoundTrip | frontend/src/stores/tasks/tasksStore.ts:52-56 | A level's name, upper-cased and padded with spaces, reads back as that level |
| TasksStore.TrimPadding | frontend/src/stores/tasks/tasksStore.ts:53-54 | `trim` removes space padding around a word that starts and ends with a non-space |
| TasksStore.RowTask | frontend/src/stores/tasks/tasksStore.ts:44-61 | A CSV row becomes a task named by its 1-based row number, with a fresh id, the row's level and coordinates, and no timing |
| TasksStore.RowTasks | frontend/src/stores/tasks/tasksStore.ts:43-64 | One task per row, in row order |
| TasksStore.AddTasksFromCsv | frontend/src/stores/tasks/tasksStore.ts:29-73 | It throws exactly on a parse failure, parse errors or a row without a level column, and then the store is unchanged; otherwise the rows' tasks are appended after the existing ones and stored |
| TasksStore.CsvNames | frontend/src/stores/tasks/tasksStore.ts:46 | The imported tasks are named by their row number within the file, from 1, whatever the existing list holds |
| TasksStore.LastStopAt | frontend/src/stores/tasks/tasksStore.ts:77 | The address-to-order map keeps the last stop with a given address; no stop means no entry |
| TasksStore.SortKeys | frontend/src/stores/tasks/tasksStore.ts:79-80 | Each task's sort key is its address's order in the route, or 0 when the address is not in the route |
| TasksStore.Annotate | frontend/src/stores/tasks/tasksStore.ts:84-86 | Annotating sets arrival, departure and travel time from the stop and keeps every other field |
| TasksStore.Strip | frontend/src/stores/tasks/tasksStore.ts:84-86 | A task without its route annotation |
| TasksStore.AnnotateShared | frontend/src/stores/tasks/tasksStore.ts:83-87 | Annotating the first `m` sorted positions changes exactly the tasks they point to, in the shared task objects, and no others |
| TasksStore.SortTasksByOptimized | frontend/src/stores/tasks/tasksStore.ts:75-90 | It throws exactly when the route has fewer stops than there are tasks (the store keeps its order, storage is untouched, task contents are unchanged except for annotation); otherwise sorted position `p` holds the `p`-th task of the stable order, annotated with stop `p`, and is stored |
| TasksStore.SortedByRouteOrder | frontend/src/stores/tasks/tasksStore.ts:78-82 | After the sort, route orders never decrease along the list |
| TasksStore.Stripped | frontend/src/stores/tasks/tasksStore.ts:83-87 | The list without any annotation, position by position |
| TasksStore.SortIsPermutation | frontend/src/stores/tasks/tasksStore.ts:76-88 | The sorted list holds the same tasks as before, each as often as before (up to its annotation) |
| TasksStore.SortIsStable | frontend/src/stores/tasks/tasksStore.ts:78-82 | Tasks with equal keys keep their original relative order |
| TasksStore.RouteKeys | frontend/src/stores/tasks/tasksStore.ts:77-82 | When the route is the start point followed by every task once, the keys are distinct and run from 2 to the number of tasks + 1 |
| TasksStore.AnnotationIsOneStopBehind | frontend/src/stores/tasks/tasksStore.ts:77-87 | For such a route, task `p` of the sorted list is stop `p + 1` of the route but carries the times of stop `p` |
| TasksStore.SetStartTime | frontend/src/stores/tasks/tasksStore.ts:93-96 | Sets the start time in memory and storage, nothing else |
| TasksStore.SetStartDay | frontend/src/stores/tasks/tasksStore.ts:99-102 | Sets the start day in memory and storage, nothing else |
| TasksStore.SetTotalProperties | frontend/src/stores/tasks/tasksStore.ts:107 | Sets both totals in memory only; tasks, times and storage are untouched |
| TasksStore.ResetTotalsIdempotent | frontend/src/stores/tasks/tasksStore.ts:107 | Clearing the totals twice is clearing them once |
| TasksStore.ReloadShowsStoredState | frontend/src/stores/tasks/tasksStore.ts:9-98 | A reload of a store that agrees with storage shows the same tasks, start time and day |
| StableSort.Sorted | frontend/src/stores/tasks/tasksStore.ts:78-82 | `Array.prototype.sort` with a key comparator (stable): the result is a permutation of the indices, ascending by key, equal keys in original order |
| StableSort.SortedIsTheStableOrder | frontend/src/stores/tasks/tasksStore.ts:78-82 | There is exactly one stable order, so any correct stable sort gives the same result |
| StableSort.GatherIsPermutation | frontend/src/stores/tasks/tasksStore.ts:78-82 | Reading a list in an order that names every index exactly once gives the same multiset of elements |
| StableSort.SortedKeys | frontend/src/stores/tasks/tasksStore.ts:78-82 | Keys along the sorted indices never decrease, and equal keys keep index order |
| TaskDialog.IsoTimeMinutes | frontend/src/components/widgets/DrawerMenu/components/TaskDialog/TaskDialog.tsx:67-70 | `new Date('1970-01-01T'+t+':00Z')`: a parsed time lies between 00:00 and 24:00 |
| TaskDialog.IsoTimeRoundTrip | frontend/src/components/widgets/DrawerMenu/components/TaskDialog/TaskDialog.tsx:67-70 | Every "HH:MM" time of day parses back to its minutes |
| TaskDialog.IsFormValid | frontend/src/components/widgets/DrawerMenu/components/TaskDialog/TaskDialog.tsx:64-85 | A valid form has name, address and all four times filled in |
| TaskDialog.ValidIsStrictChain | frontend/src/components/widgets/DrawerMenu/components/TaskDialog/TaskDialog.tsx:64-85 | Valid exactly when name and address are set, all four times parse, and work start < lunch start < lunch end < work end |
| TaskDialog.UnparsedTimeInvalid | frontend/src/components/widgets/DrawerMenu/components/TaskDialog/TaskDialog.tsx:67-83 | Any time that does not parse (NaN) makes the form invalid |
| TaskDialog.InitialTimesValid | frontend/src/components/widgets/DrawerMenu/components/TaskDialog/TaskDialog.tsx:19-27 | The default hours 09:00, 13:00, 14:00, 18:00 with a name and address are a valid form |
| TaskDialog.CanSubmit | frontend/src/components/widgets/DrawerMenu/components/TaskDialog/TaskDialog.tsx:197 | Saving is enabled exactly when the form is valid and no geocoding is in flight |
| TaskDialog.SavedTask | frontend/src/components/widgets/DrawerMenu/components/TaskDialog/TaskDialog.tsx:47-51 | The saved task is the form's fields with the geocoded position and a fresh id, and no route timing |
| TaskDialog.OnGeocoded | frontend/src/components/widgets/DrawerMenu/components/TaskDialog/TaskDialog.tsx:41-61 | No position: nothing changes; an index from 1 up replaces that task only; no index or index 0 appends; only the task list changes |
| TaskDialog.EditingFirstTaskAppends | frontend/src/components/widgets/DrawerMenu/components/TaskDialog/TaskDialog.tsx:53-54 | Saving the first task appends a copy and leaves the original in place |
| TaskDialog.EditKeepsEnteredFields | frontend/src/components/widgets/DrawerMenu/components/TaskDialog/TaskDialog.tsx:87-104 | Saving an unchanged edit form for any other task keeps its fields but drops its timing and replaces its id |
| DrawerMenu.ViewOf | frontend/src/components/widgets/DrawerMenu/DrawerMenu.tsx:34-39 | A render reads the store's tasks and user position |
| DrawerMenu.ClientOf | frontend/src/components/widgets/DrawerMenu/DrawerMenu.tsx:46-55 | A task becomes a client with its address and coordinates and id `String(index + 1)` |
| DrawerMenu.Clients | frontend/src/components/widgets/DrawerMenu/DrawerMenu.tsx:45-56 | One client per task, in task order |
| DrawerMenu.ClientIdsDistinct | frontend/src/components/widgets/DrawerMenu/DrawerMenu.tsx:55 | The client ids in a request are pairwise distinct |
| DrawerMenu.BuildRequest | frontend/src/components/widgets/DrawerMenu/DrawerMenu.tsx:43-65 | A request is built exactly when a user position is set (otherwise the `!` read throws), from the tasks, start point, start time and day |
| DrawerMenu.CanSave | frontend/src/components/widgets/DrawerMenu/DrawerMenu.tsx:107 | Saving is allowed exactly when start address, start position, day and time are all set, and then the request can be built |
| DrawerMenu.FilledViewSubmits | frontend/src/components/widgets/DrawerMenu/DrawerMenu.tsx:58-205 | With address, position, day and time set and nothing pending, "Calculate" sends the request built from the tasks |
| DrawerMenu.CanSaveRequestComplete | frontend/src/components/widgets/DrawerMenu/DrawerMenu.tsx:58-64 | With everything `canSave` asks for, the request has no null start address, time or day |
| DrawerMenu.HasTask | frontend/src/components/widgets/DrawerMenu/DrawerMenu.tsx:109 | "Has a task" needs both totals, and a zero total counts as none |
| DrawerMenu.OnSuccess | frontend/src/components/widgets/DrawerMenu/DrawerMenu.tsx:66-70 | The answer is applied to the task list; the totals are set unless applying the route threw; the maps store is untouched |
| DrawerMenu.OnError | frontend/src/components/widgets/DrawerMenu/DrawerMenu.tsx:71-74 | An analysis error changes neither store |
| DrawerMenu.SuccessShowsDone | frontend/src/components/widgets/DrawerMenu/DrawerMenu.tsx:66-70 | A successful analysis with non-zero totals makes the "done" button appear |
| DrawerMenu.HandleDoneTask | frontend/src/components/widgets/DrawerMenu/DrawerMenu.tsx:83-105 | The first task is removed, its place and address become the user's, the start time becomes the clock; with two or more tasks the analysis restarts with the last render's request, with one the totals are cleared; with none it throws |
| DrawerMenu.DoneRemovesFirst | frontend/src/components/widgets/DrawerMenu/DrawerMenu.tsx:84-86 | Completing a task removes exactly the first task, in memory and storage |
| DrawerMenu.DonePreservesSync | frontend/src/components/widgets/DrawerMenu/DrawerMenu.tsx:83-105 | Completing a task keeps both stores in step with storage |
| DrawerMenu.RestartUsesPreviousRender | frontend/src/components/widgets/DrawerMenu/DrawerMenu.tsx:95-101 | The restarted request still lists the completed task and carries the old position and start time |
| DrawerMenu.TaskClick | frontend/src/components/widgets/DrawerMenu/DrawerMenu.tsx:77-81 | Clicking a task opens it for editing exactly when no analysis is pending |
| DrawerMenu.DeleteClick | frontend/src/components/widgets/DrawerMenu/DrawerMenu.tsx:172-177 | The delete button removes the task, and is disabled while an analysis is pending |
| DrawerMenu.SubmitClick | frontend/src/components/widgets/DrawerMenu/DrawerMenu.tsx:202-205 | "Calculate" sends a request exactly when saving is allowed and nothing is pending |
| DrawerMenu.PendingBlocksActions | frontend/src/components/widgets/DrawerMenu/DrawerMenu.tsx:77-205 | While pending, opening, deleting and re-submitting do nothing |
| MultiRoute.ReferencePoints | frontend/src/lib/hooks/useYandexMultiRoute.ts:57 | Points are handed to the map latitude first, in order |
| MultiRoute.Results | frontend/src/lib/hooks/useYandexMultiRoute.ts:94 | `Math.max(1, alternatives)` |
| MultiRoute.Detach | frontend/src/lib/hooks/useYandexMultiRoute.ts:78-81 | The current route is taken off the map and forgotten; nothing else changes |
| MultiRoute.LegsOf | frontend/src/lib/hooks/useYandexMultiRoute.ts:115-127 | One leg per path, numbered by position, with the path's distance and durations |
| MultiRoute.Step | frontend/src/lib/hooks/useYandexMultiRoute.ts:59-147 | Effect without map or API: no change. Fewer than two points: route removed, state cleared. Otherwise a new route replaces the old one and loading starts. Success without an active route reports an error. Success with one sets totals and legs. Failure reports an error. Cleanup removes the route. |
| MultiRoute.StepOwnsMap | frontend/src/lib/hooks/useYandexMultiRoute.ts:59-147 | Every event keeps "the map shows exactly the hook's current route" |
| MultiRoute.RunOwnsMap | frontend/src/lib/hooks/useYandexMultiRoute.ts:59-147 | Along any sequence of events at most one route is on the map |
| MultiRoute.InitialOwnsMap | frontend/src/lib/hooks/useYandexMultiRoute.ts:49-54 | The hook starts with nothing on the map |
| MultiRoute.StaleFailStillApplies | frontend/src/lib/hooks/useYandexMultiRoute.ts:132-136 | A failure from a replaced route ends the new route's loading state with an error |
| MultiRoute.StaleSuccessStillApplies | frontend/src/lib/hooks/useYandexMultiRoute.ts:103-129 | A success from a replaced route overwrites the totals and legs shown |
| MultiRoute.CleanupThenEffect | frontend/src/lib/hooks/useYandexMultiRoute.ts:138-146 | Cleanup followed by the next effect leaves exactly the new route on the map |
| MapView.RoutePoints | frontend/src/components/widgets/MapView/MapView.tsx:24-28 | The route runs through the user's position (when set) and then every task's coordinates in order |
| MapView.RouteDrawnWhen | frontend/src/components/widgets/MapView/MapView.tsx:24-28 | A route is drawn exactly when there are two tasks, or one task and a user position |
| MapView.RouteStartsAtUser | frontend/src/components/widgets/MapView/MapView.tsx:40-45 | With a user position the route object starts at it, ends at the last task, and uses driving mode, traffic avoidance and one result |
| MapView.Mount | frontend/src/components/widgets/MapView/MapView.tsx:20-22 | On mount there is no default position and no error; the maps store is as loaded |
| MapView.FirstClosure | frontend/src/lib/hooks/useGeolocation.ts:13-35 | The geolocation callback keeps the values of the render that started it |
| MapView.OnGeolocated | frontend/src/components/widgets/MapView/MapView.tsx:30-38 | A fix sets the default position if the callback saw none, and sets the user position only if the callback saw it unset |
| MapView.OnGeoError | frontend/src/lib/hooks/useGeolocation.ts:28-32 | A refusal records the error and changes nothing else |
| MapView.ScreenOf | frontend/src/components/widgets/MapView/MapView.tsx:47-85 | Spinner exactly while there is neither position nor error; the error screen exactly on an error; otherwise the map centred on the default position |
| MapView.FirstFixShowsMap | frontend/src/components/widgets/MapView/MapView.tsx:30-68 | The first fix shows the map at the fix, keeps a stored user position and otherwise stores the fix |
| MapView.ErrorShowsErrorInfo | frontend/src/components/widgets/MapView/MapView.tsx:47-59 | The spinner shows first; a geolocation error then shows the error screen and leaves the maps store as loaded |
| MenuTrigger.Trunc | frontend/src/components/widgets/MenuTrigger/MenuTrigger.tsx:17-18 | Truncation toward zero, as JavaScript's `%` and the floor of the quotient combine |
| MenuTrigger.Rem60 | frontend/src/components/widgets/MenuTrigger/MenuTrigger.tsx:18 | JavaScript's `% 60`: the remainder takes the dividend's sign |
| MenuTrigger.HoursMinutes | frontend/src/components/widgets/MenuTrigger/MenuTrigger.tsx:17-18 | The hours are the whole hours at or below the duration; the minutes lie in 0..59 for a non-negative duration and in −60..0 for a negative one |
| MenuTrigger.HoursMinutesSplit | frontend/src/components/widgets/MenuTrigger/MenuTrigger.tsx:14-21 | For a non-negative duration, hours × 60 + minutes is the whole minutes, minutes below 60 |
| MenuTrigger.NegativeDurationBothNegative | frontend/src/components/widgets/MenuTrigger/MenuTrigger.tsx:17-18 | −30 minutes shows as −1 h −30 min |
| MenuTrigger.DurationLabel | frontend/src/components/widgets/MenuTrigger/MenuTrigger.tsx:14-21 | No duration gives no label; otherwise "H ч M мин" from the split |
| MenuTrigger.DistanceShown | frontend/src/components/widgets/MenuTrigger/MenuTrigger.tsx:29 | The distance shows exactly when it is truthy, so 0 is hidden |
| MenuTrigger.DurationText | frontend/src/components/widgets/MenuTrigger/MenuTrigger.tsx:34 | The placeholder shows exactly when there is no duration |
| MenuTrigger.ZeroTotalsShowDurationOnly | frontend/src/components/widgets/MenuTrigger/MenuTrigger.tsx:29-34 | Zero totals hide the distance but show "0 ч 0 мин" |
| Geocoder.FirstMember | frontend/src/lib/services/geocoderHelpers.ts:10 | No answer gives nothing; a missing response, collection or member list throws; an empty list gives nothing |
| Geocoder.PositionString | frontend/src/lib/services/geocoderHelpers.ts:10 | The first member's `Point.pos`; a member without object or point throws |
| Geocoder.CoordsFromAnswer | frontend/src/lib/services/geocoderHelpers.ts:5-21 | An empty or missing position gives null; otherwise the longitude is `Number` of the first space-separated part and the latitude of the second (NaN when absent) |
| Geocoder.ReverseQuery | frontend/src/lib/services/geocoderHelpers.ts:26 | The reverse query is "lon lat", space-separated |
| Geocoder.AddressFromAnswer | frontend/src/lib/services/geocoderHelpers.ts:23-36 | The first member's geocoder-metadata text, or null when it is missing or empty; no member gives null; missing intermediate objects throw |
| Geocoder.AddressReadsBack | frontend/src/lib/services/geocoderHelpers.ts:23-36 | An answer carrying a non-empty address text reads back as exactly that text; an empty or missing one as null |
| Geocoder.AnswerWithPos | frontend/src/lib/services/geocoderHelpers.ts:10 | An answer whose first member has the given position |
| Geocoder.ShowHasNoSpace | frontend/src/lib/services/geocoderHelpers.ts:26 | A number's text never contains a space |
| Geocoder.QueryRoundTrip | frontend/src/lib/services/geocoderHelpers.ts:14-26 | Coordinates written as a reverse query read back, through the forward reader, as the same coordinates |
| Geocoder.PositionReadsBack | frontend/src/lib/services/geocoderHelpers.ts:14-18 | "lon lat" reads back as those two numbers |
| Geocoder.NoSpaceMeansNaNLatitude | frontend/src/lib/services/geocoderHelpers.ts:14-18 | A position without a space gives a NaN latitude |
| JsNumber.ShowRoundTrip | frontend/src/lib/services/geocoderHelpers.ts:16-26 | `Number(String(x))` is `x` for every finite decimal and NaN |
| Text.CapitalizeIgnoresCase | app/services/traffic_service.py:50 | `capitalize` gives the same key for a day name and its lower-case form |
| Text.Split | frontend/src/lib/services/geocoderHelpers.ts:14 | `split`: the parts contain no separator and joined back give the text |
| Routes.Status | backend/app/routers/routes.py:29-134 | 200 for an analysis, 400 for a rejection, 500 for a server error, 422 for a body that does not fit the schema; a handler that never answers has no status |
| Routes.HourOf | backend/app/routers/routes.py:45 | An accepted time's hour is below 24 |
| Routes.MinuteOf | backend/app/routers/routes.py:45 | An accepted time's minute is below 60 |
| Routes.PyIntOfDigitsNewline | backend/app/services/ml_route_optimizer.py:183 | `int()` of two digits and a line feed is the digits' value |
| Routes.ClockOfTwoParts | backend/app/services/ml_route_optimizer.py:181-186 | Two parts that `int()` reads as an hour and a minute give that time of day |
| Routes.StartClockOfParts | backend/app/services/ml_route_optimizer.py:181-186 | A start time splitting at ':' into hour and minute text starts the clock there |
| Routes.AcceptedTimeParses | backend/app/routers/routes.py:44-49 | Every time the pattern accepts ("HH:MM", with or without a final line feed) starts the optimizer's clock at its hour and minute |
| Routes.ClientProblem | backend/app/routers/routes.py:60-77 | A client is rejected exactly when latitude is outside ±90, longitude outside ±180, or the level is neither vip nor standard in any case |
| Routes.FirstBadClient | backend/app/routers/routes.py:60-77 | No rejection exactly when every client is fine; otherwise the rejection is the first bad client's |
| Routes.Validate | backend/app/routers/routes.py:30-77 | The checks run in order: no clients, then more than 50, then a given start time off the pattern, then a given day that is no weekday name, then the first bad client |
| Routes.ValidateAcceptsWellFormed | backend/app/routers/routes.py:30-77 | A request passes exactly when it has 1 to 50 clients, a given start time matches the pattern, a given day is a weekday name in any case, and every client is fine |
| Routes.ClientRejectionIsFirst | backend/app/routers/routes.py:37-77 | A client rejection means the count, time and day checks passed |
| Routes.ValidatedDayIsWeekday | backend/app/routers/routes.py:51-57 | After validation, a given day is a lower-case weekday for the optimizer |
| Routes.ValidatedLevelsService | backend/app/routers/routes.py:73-77 | After validation, standard clients get 15 minutes of service and all others 25 |
| Routes.NodeOf | backend/app/routers/routes.py:80-93 | A client becomes a node with its fields, and id `client_<index>` when it has none |
| Routes.NodesOf | backend/app/routers/routes.py:80-93 | One node per client, in order |
| Routes.Analyze | backend/app/routers/routes.py:29-134 | A rejection exactly when validation fails; a server error exactly when it passes but the start time cannot be read; an analysis has exactly one stop per client plus one for the start point, and it is the optimizer's final plan (every node once, each arrival inside its node's hours, totals summed over the route); no answer only after validation passed and the clock was read |
| Routes.AnalysisMoreFuel | backend/app/routers/routes.py:109-134 | An analysis, once given, is the same for any larger loop cutoff |
| Routes.NeverOpenClientNoReply | backend/app/routers/routes.py:109-134 | A well-formed request with a client whose working hours are empty gets no answer, for every cutoff, unless that client is the route's first node |
| Routes.DecodeClient | app/schemas/route.py:14-26 | A client body fits the schema exactly when no defaulted text field is null; left-out fields take level "standard", hours 09:00–18:00, lunch 13:00–14:00 and no id |
| Routes.Decode | app/schemas/route.py:43-48 | A body fits exactly when every client fits; clients in order, a left-out start time becomes "09:00", a left-out day none, null stays none |
| Routes.Handle | app/schemas/route.py:14-48 | A body that does not fit the schema gets 422; otherwise the handler runs on the decoded request |
| Routes.OmittedClientFieldsTakeDefaults | app/schemas/route.py:21-26 | A client that leaves out every defaulted field gets the schema's defaults |
| Routes.OmittedStartTimeStartsAtNine | app/schemas/route.py:47 | A left-out start time is "09:00", and a well-formed request without one is neither refused nor a server error: it gets its analysis or no answer |
| Routes.NullStartTimeIsServerError | backend/app/routers/routes.py:109-134 | A well-formed request whose start time is sent as null or empty gets 500 |
| Routes.WellFormedWithTimeIsNeverRefused | backend/app/routers/routes.py:29-134 | A well-formed request with a start time is neither refused nor a server error: it gets its analysis or no answer |
| Scheduler.StartNode | backend/app/services/ml_route_optimizer.py:156-168 | The start point becomes node "START" of level "start" with its address and coordinates |
| Scheduler.Nodes | backend/app/services/ml_route_optimizer.py:155-168 | With a start point, it is node 0 ahead of the clients; without, the clients alone |
| Scheduler.StartNodeOpen | backend/app/services/ml_route_optimizer.py:161-165 | The start node is open at every minute before 23:59 and never from 23:59 on |
| Scheduler.VisitDuration | backend/app/services/ml_route_optimizer.py:68-81 | 25 minutes exactly for "vip" in any case, 15 otherwise |
| Scheduler.HourField | backend/app/services/ml_route_optimizer.py:95 | `%H` reads one or two digits with value below 24 |
| Scheduler.MinuteField | backend/app/services/ml_route_optimizer.py:95 | `%M` reads one or two digits with value below 60 |
| Scheduler.ParseClock | backend/app/services/ml_route_optimizer.py:95 | A parsed "%H:%M" time is a time of day, and the text contains ':' |
| Scheduler.TwoDigitFields | backend/app/services/ml_route_optimizer.py:95 | Two digits in range are read by `%H` and `%M` as their value |
| Scheduler.ParseClockRoundTrip | backend/app/services/ml_route_optimizer.py:95 | Every "HH:MM" time of day parses back to itself |
| Scheduler.ParseTimeSafe | backend/app/services/ml_route_optimizer.py:83-97 | The parsed time when the text parses, the default otherwise |
| Scheduler.DefaultsAreTheirText | backend/app/services/ml_route_optimizer.py:110-125 | The default hours are the times their texts "09:00", "18:00", "13:00", "14:00" denote |
| Scheduler.WindowOf | backend/app/services/ml_route_optimizer.py:110-125 | Each of a client's four times is its parsed value, or its default when it does not parse |
| Scheduler.CanVisitTwoIntervals | backend/app/services/ml_route_optimizer.py:127-130 | With lunch inside working hours, a client can be visited exactly before lunch or after it, within working hours |
| Scheduler.VisitOf | backend/app/services/ml_route_optimizer.py:110-130 | A node's visit: its window and its service minutes |
| Scheduler.VisitsOf | backend/app/services/ml_route_optimizer.py:171-172 | One visit per node, in order |
| Scheduler.Hour | backend/app/services/ml_route_optimizer.py:228 | The traffic hour is an hour of the day |
| Scheduler.DayOfWeek | backend/app/services/ml_route_optimizer.py:189-192 | The requested day lower-cased, or today's name when no day is given |
| Scheduler.DayOfWeekReadsRequestedDay | backend/app/services/ml_route_optimizer.py:189-192 | The traffic multiplier for the lower-cased day is the one for the requested day |
| Scheduler.AdjustedTravel | backend/app/services/ml_route_optimizer.py:227-232 | The traffic factor is scaled by 0.65, so any multiplier below 1/0.65 shortens the trip |
| Scheduler.Scan | backend/app/services/ml_route_optimizer.py:216-258 | The scan finds a reachable node with the highest score (the lowest index on ties), or none when no node is reachable; it reports a closed node exactly when one exists |
| Scheduler.Step | backend/app/services/ml_route_optimizer.py:207-303 | A move extends the route by one node; a wait only advances the clock by 15 minutes |
| Scheduler.StepSpec | backend/app/services/ml_route_optimizer.py:207-303 | Stops exactly when all nodes are visited. Waits exactly when no node is reachable and some node is closed. A move goes to the best-scoring reachable node and records its arrival, departure, travel and distance in the totals. |
| Scheduler.Loop | backend/app/services/ml_route_optimizer.py:207 | The route is never empty; no more passes are left than were given |
| Scheduler.LoopFinishes | backend/app/services/ml_route_optimizer.py:207-303 | With passes left, the loop has put every node on the route: only the cutoff ends it early |
| Scheduler.LoopMoreFuel | backend/app/services/ml_route_optimizer.py:207-303 | Once every node is on the route, more passes give the same plan |
| Scheduler.NeverOpenNeverVisited | backend/app/services/ml_route_optimizer.py:219-266 | A node other than the first whose working hours are empty never joins the route, so the route stays short of all nodes |
| Scheduler.SpentSnoc | backend/app/services/ml_route_optimizer.py:280-281 | The totals grow by each new leg's travel, service and distance |
| Scheduler.RouteSnoc | backend/app/services/ml_route_optimizer.py:272-273 | Appending an unvisited node keeps the route duplicate-free and starting at node 0 |
| Scheduler.Initial | backend/app/services/ml_route_optimizer.py:197-204 | The route starts at node 0 at the start time |
| Scheduler.InitialValid | backend/app/services/ml_route_optimizer.py:197-204 | The initial plan is consistent |
| Scheduler.EntriesSnoc | backend/app/services/ml_route_optimizer.py:285-291 | Appending an open visit that starts after the previous departure keeps every entry's timing |
| Scheduler.MovedValid | backend/app/services/ml_route_optimizer.py:271-291 | A move keeps the plan consistent: distinct nodes from 0, each visit inside its window, departure after service, totals matching the entries |
| Scheduler.StepValid | backend/app/services/ml_route_optimizer.py:207-291 | Every move and every wait keeps the plan consistent |
| Scheduler.LoopKeeps | backend/app/services/ml_route_optimizer.py:207-303 | Any property kept by every step holds after the whole loop |
| Scheduler.LoopValid | backend/app/services/ml_route_optimizer.py:207-303 | The loop's result is a consistent plan |
| Scheduler.NeverStops | backend/app/services/ml_route_optimizer.py:261-269 | While a node is unvisited the loop never takes its "nobody left" exit |
| Scheduler.WaitsForeverForClosedNode | backend/app/services/ml_route_optimizer.py:261-266 | When every unvisited node is never open, the loop only waits: the route stays, the clock advances 15 minutes per pass, and every pass is used |
| Scheduler.StopOf | backend/app/services/ml_route_optimizer.py:307-318 | Route entry `k` becomes stop `k + 1` with its node's address, service minutes and travel time |
| Scheduler.Stops | backend/app/services/ml_route_optimizer.py:306-318 | One stop per entry, in order |
| Scheduler.FirstStop | backend/app/services/ml_route_optimizer.py:204 | The first stop is order 1 at node 0, no travel, arriving and leaving at the start time |
| Scheduler.PlanStops | backend/app/services/ml_route_optimizer.py:306-318 | A consistent plan's stops are numbered 1, 2, …, stop k is the route's k-th node with that visit's times, no node appears twice, and the first is node 0 at the start time |
| Scheduler.PyStripStart | backend/app/services/ml_route_optimizer.py:182-183 | `int()` strips leading white space |
| Scheduler.PyStripEnd | backend/app/services/ml_route_optimizer.py:182-183 | `int()` strips trailing white space |
| Scheduler.PyInt | backend/app/services/ml_route_optimizer.py:182-183 | `int()` of a non-empty digit string is its value |
| Scheduler.PyIntUnderscore | backend/app/services/ml_route_optimizer.py:182-183 | `int()` accepts one underscore between digits and reads the digits alone (PEP 515), e.g. `int("1_0") == 10` |
| Scheduler.PyIntDoubleUnderscore | backend/app/services/ml_route_optimizer.py:182-183 | Two underscores in a row are not an integer literal, so `int("1__0")` fails |
| Scheduler.ClockOfParts | backend/app/services/ml_route_optimizer.py:181-186 | Fewer than two parts fail; a result is a time of day |
| Scheduler.StartClock | backend/app/services/ml_route_optimizer.py:181-186 | A missing or empty start time fails; a result is a time of day |
| Scheduler.Optimize | backend/app/services/ml_route_optimizer.py:132-328 | An unreadable start time fails. No nodes fail. An analysis has exactly one stop per node, numbered from 1, and with a start point the first stop is the start point at the start time with no travel. `Unfinished` only when every pass was used. |
| Scheduler.OptimizeAnswers | backend/app/services/ml_route_optimizer.py:197-328 | An analysis is the loop's final plan: the route holds every node exactly once, each stop after the first arrives inside its node's working hours and no earlier than the previous departure, the stops follow the route, and the total distance and duration are the sums over the visits |
| Scheduler.FullRouteCovers | backend/app/services/ml_route_optimizer.py:207-266 | A duplicate-free route as long as the node list holds every node |
| Scheduler.Run | backend/app/services/ml_route_optimizer.py:197-328 | An analysis exactly when the loop put every node on the route; the analysis is that plan's answer: every node exactly once, each arrival inside the node's hours, stops in route order numbered from 1, and the totals the sums of the visits' distances and of their travel plus service time |
| Scheduler.OptimizeMoreFuel | backend/app/services/ml_route_optimizer.py:207-328 | An analysis, once given, is the same for any larger cutoff |
| Scheduler.NeverOpenNeverAnswered | backend/app/services/ml_route_optimizer.py:207-266 | With a node other than the first whose working hours are empty, no cutoff gives an analysis |
| Traffic.GetOrEmpty | app/services/traffic_service.py:53 | `dict.get(key, {})` |
| Traffic.Load | app/services/traffic_service.py:25-36 | A missing or unparsable file gives an empty table |
| Traffic.DayData | app/services/traffic_service.py:76-87 | The capitalised day's data, or empty |
| Traffic.Multiplier | app/services/traffic_service.py:38-66 | A falsy day entry gives 1.0 |
| Traffic.NoHoursIsNeutral | app/services/traffic_service.py:53-57 | A day object without "hours" gives 1.0, whatever else it holds |
| Traffic.StoredAverageIsUsed | app/services/traffic_service.py:59-66 | For any day object with an "hours" object, a number stored as the hour's average is the multiplier, whatever else the objects hold |
| Traffic.MissingHourIsNeutral | app/services/traffic_service.py:60-66 | For any day object with an "hours" object, an hour missing from it gives 1.0 |
| Traffic.MissingAverageIsNeutral | app/services/traffic_service.py:63-66 | For any day object with an "hours" object, an hour object without "average" gives 1.0 |
| Traffic.FailedLoadIsNeutral | app/services/traffic_service.py:25-57 | After a failed load every multiplier is 1.0 |
| Traffic.DayCaseIgnored | app/services/traffic_service.py:50 | The day's letter case does not matter |
| Traffic.MultiplierReadsDayData | app/services/traffic_service.py:50-66 | The multiplier depends only on the day's data |
| Osrm.Convert | app/services/osrm_service.py:121-123 | Seconds become minutes and metres kilometres |
| Osrm.Attempts | app/services/osrm_service.py:110-141 | The first usable answer within the attempts is converted, after exactly the failed attempts before it; if none is usable, all attempts are spent |
| Osrm.GetRouteData | app/services/osrm_service.py:73-150 | A cached pair is answered from the cache with no request. Otherwise it sends exactly the attempts up to the first usable answer, and that answer (or the 10 min / 5 km fallback when all `retries` fail) is cached under the pair and returned. Other entries are untouched. |
| Osrm.DurationAndDistanceShareEntry | app/services/osrm_service.py:25-71 | After the duration of a pair is fetched, fetching its distance sends no request and reads the same entry |
| Osrm.ClearCache | app/services/osrm_service.py:204-206 | Clearing empties the cache |
| Osrm.CacheSizeGrowsByMisses | app/services/osrm_service.py:73-210 | A miss adds one entry, a hit none; a cleared cache has size 0 |
| Osrm.BuildRow | app/services/osrm_service.py:165-174 | A matrix row is 0 on the diagonal and the cached value of each other pair; with every pair cached nothing is sent |
| Osrm.BuildMatrix | app/services/osrm_service.py:152-176 | The n×n matrix is 0 on the diagonal and reads every other pair from the cache; at most retries × n² requests |
| Osrm.BuildMatrices | app/services/osrm_service.py:152-202 | Both matrices read the same cache, so time and distance of a pair come from one answer |
| Clock.Format | backend/app/services/ml_route_optimizer.py:314-315 | `strftime("%H:%M")`: two-digit hour below 24, ':' and two-digit minute, denoting the time |

## Left out

- HTTP, local storage I/O, the map API, React rendering, `console` output, `print` logging and `asyncio` sleeps: the stores keep a `disk` copy; the routing server's answers, the network score, base travel times, the wall clock and fresh ids are parameters.
- The neural network (`backend/app/ml/route_model.py`, model loading and its `FileNotFoundError` path) is not part of this model; its attention score is the parameter `score`.
- Floating point: travel times are whole minutes (`nat`), distances and totals are exact reals. Rounding to two decimals in the answer, `round(…, 5)` of the OSRM cache key (the key is the exact coordinate pair), `1e-5` in the score, and NaN arithmetic beyond comparisons are not modelled.
- Scheduler.Step: the traffic multiplier is folded into the travel parameter `travel(i, j, hour)`. `Scheduler.AdjustedTravel` and `Scheduler.DayOfWeekReadsRequestedDay` state the 0.65 factor and the day lookup separately.
- Scheduler.Loop: the `while` loop is cut off after `fuel` passes, because `optimize_route`'s loop has no bound (it can wait forever, see `Scheduler.WaitsForeverForClosedNode`). A run cut off before every node is on the route is `Unfinished` and the handler gives `NoReply`. An analysis never depends on the cutoff (`Scheduler.OptimizeMoreFuel`).
- Routes.NeverOpenClientNoReply: the model's clock is an unbounded count of minutes. In Python, `current_time += timedelta(minutes=15)` raises OverflowError once the datetime passes year 9999, after roughly 280 million waits, and `analyze_route` turns that into a 500. `NoReply` therefore stands for a run that does not end in any practical time, not for a run that never ends.
- Routes.WellFormedWithTimeIsNeverRefused: a status of 200 is not promised for every well-formed request, because the optimizer never returns when a client is never open (`Routes.NeverOpenClientNoReply`). The model promises an analysis or no answer.
- Scheduler.Optimize: a `TypeError` from malformed traffic data is not threaded into the optimizer.
- Routes.Decode: only the fields with a default are modelled as possibly missing or null. A body missing a required field (a client's address or coordinates, the client list) or holding a value of the wrong type also gets 422 from the framework, but is not modelled, and neither is Pydantic's coercion of numbers and strings.
- Traffic.Multiplier: the table holds numbers and objects only; JSON strings, lists, booleans and null inside it are not modelled.
- Routes.Analyze: the error messages' wording is not modelled. The `/stats` endpoint, a fixed stub, is left out.
- Regular expressions and `int()` see ASCII digits only. Unicode digits matched by `\d` and accepted by `int()` are not modelled. Underscores between digits are modelled (`Scheduler.PyIntUnderscore`), and `lower()` and `capitalize()` are ASCII-only.
- JsNumber: `Number()` of exponent, hexadecimal, `Infinity` and signed-zero forms is NaN in the model, and `String()` of non-canonical or exponent-notation values is not modelled. Only finite decimals and NaN are numbers.
- TasksStore.EditTask: an index beyond the list's length (which makes a sparse array in JavaScript) is excluded by its precondition. No caller passes one.
- TasksStore.RowTask: CSV cells of the text columns that are missing from a row (JavaScript `undefined`) are read as empty text. Papa Parse's own parsing is a parameter (rows, error count, or a parse failure).
- JSON round trips through local storage (NaN coordinates become `null` after a reload) are not modelled; the stored copy is the value itself.
- MapView: a browser without geolocation sets the error 'unsupported' and then throws at `navigator.geolocation.getCurrentPosition`. Only the refused and successful paths are modelled.
- The `clearOptimizedState` button, the `ListActions` and `UserAddress` components, the providers and `App.tsx` are not part of this model.

=== FILE: arith.dfy ===
/** Two facts about integer division that the solver does not find unaided. */
module Arith {

  lemma MulAtLeast(d: int, k: int)
    requires d >= 1 && k > 0
    ensures d * k >= k
  {
    if d > 1 {
      MulAtLeast(d - 1, k);
      assert d * k == (d - 1) * k + k;
    }
  }

  /** Quotient and remainder are determined by any decomposition `n == q * k + r` with `0 <= r < k`. */
  lemma DivModUnique(n: int, q: int, r: int, k: int)
    requires k > 0 && n == q * k + r && 0 <= r < k
    ensures n % k == r && n / k == q
  {
    var q', r' := n / k, n % k;
    var d := q' - q;
    assert d * k == q' * k - q * k;
    if d >= 1 {
      MulAtLeast(d, k);
    } else if d <= -1 {
      MulAtLeast(-d, k);
    }
  }
}

=== FILE: clock.dfy ===
/**
 * Wall-clock times of day as both halves of the system write them: "HH:MM",
 * two digits each, for a number of minutes since midnight.
 */
module Clock {
  import opened Text

  const MinutesPerDay: nat := 1440

  /** Two decimal digits, with a leading zero below ten. */
  function TwoDigits(n: nat): (r: string)
    requires n < 100
    ensures |r| == 2 && AllDigits(r)
    ensures DigitsValue(r) == n
  {
    var hi, lo := DigitChar(n / 10), DigitChar(n % 10);
    assert [hi][..0] == [];
    DigitsValueSnoc([hi], lo);
    assert [hi] + [lo] == [hi, lo];
    [hi, lo]
  }

  /** "HH:MM" for a time of day given in minutes since midnight. */
  function Format(m: nat): (r: string)
    requires m < MinutesPerDay
    ensures |r| == 5 && r[2] == ':' && AllDigits(r[..2]) && AllDigits(r[3..])
    ensures DigitsValue(r[..2]) * 60 + DigitsValue(r[3..]) == m
    ensures DigitsValue(r[..2]) < 24 && DigitsValue(r[3..]) < 60
  {
    var r := TwoDigits(m / 60) + ":" + TwoDigits(m % 60);
    assert r[..2] == TwoDigits(m / 60);
    assert r[3..] == TwoDigits(m % 60);
    r
  }
}

=== FILE: domain.dfy ===
/**
 * The records the front end keeps and exchanges with the back end: a task (one
 * client visit as the user entered it, plus the timing the optimizer annotated
 * it with), its coordinates, and one stop of an optimized route as the back end
 * returns it.
 */
module Domain {
  import opened Wrappers
  import opened JsNumber

  /** `ICoordinates`: JavaScript numbers, so NaN is possible (a CSV cell that is not a number). */
  datatype Coords = Coords(lat: Num, lon: Num)

  /** The two client levels the front end knows. */
  datatype Level = Standard | Vip

  function LevelName(l: Level): string {
    match l
    case Standard => "standard"
    case Vip => "vip"
  }

  /**
   * `ITask`.  The three annotation fields are absent until the optimizer's
   * answer has been written onto the task.
   */
  datatype Task = Task(
    uid: string,
    name: string,
    address: string,
    coords: Coords,
    level: Level,
    workStart: string,
    workEnd: string,
    lunchStart: string,
    lunchEnd: string,
    estimatedArrival: Option<string>,
    departureTime: Option<string>,
    travelTime: Option<real>)

  /** `IOptimizeRoute`: one stop of the optimized route, in route order. */
  datatype Stop = Stop(
    order: int,
    address: string,
    latitude: real,
    longitude: real,
    estimatedArrival: string,
    departureTime: string,
    travelTime: real,
    serviceTime: int)

  /** A number that may be missing is truthy in JavaScript when it is present and not zero. */
  predicate Truthy(x: Option<real>) {
    x.Some? && x.value != 0.0
  }

  /** A task without timing annotations. */
  predicate Unannotated(t: Task) {
    t.estimatedArrival.None? && t.departureTime.None? && t.travelTime.None?
  }
}

=== FILE: drawer_menu.dfy ===
/**
 * The drawer that lists the tasks: it builds the route-analysis request from
 * the stores, applies the answer, completes the first task, and gates its
 * buttons on what is filled in and on whether an analysis is in flight.
 */
module DrawerMenu {
  import opened Wrappers
  import opened Text
  import opened JsNumber
  import opened Domain
  import TasksStore
  import MapsStore

  /** One client of the analysis request, as the front end sends it. */
  datatype Client = Client(
    address: string,
    latitude: Num,
    longitude: Num,
    level: string,
    workStart: string,
    workEnd: string,
    lunchStart: string,
    lunchEnd: string,
    id: string)

  /** The start point; a missing address is sent as null. */
  datatype StartPoint = StartPoint(address: Option<string>, latitude: Num, longitude: Num)

  /** The analysis request body; missing start time or day are sent as null. */
  datatype Request = Request(clients: seq<Client>, startPoint: StartPoint, startTime: Option<string>, startDay: Option<string>)

  /** A successful analysis answer (unsuccessful ones reach the error handler instead). */
  datatype Response = Response(totalDistance: real, totalDuration: real, optimized: seq<Stop>)

  /** Both stores the drawer works with. */
  datatype App = App(tasks: TasksStore.Store, maps: MapsStore.Store)

  /**
   * The values the drawer read when it last rendered.  The request function is
   * a closure over these, and the analysis request is built from the closure
   * of the last render even when it is started from an event handler that has
   * just changed the stores.
   */
  datatype View = View(
    tasks: seq<Task>,
    startTime: Option<string>,
    startDay: Option<string>,
    userAddress: Option<string>,
    userPosition: Option<Coords>)

  /** What a fresh render of `app` reads. */
  function ViewOf(app: App): (v: View)
    ensures v.tasks == app.tasks.tasks && v.userPosition == app.maps.userPosition
  {
    View(app.tasks.tasks, app.tasks.startTime, app.tasks.startDay, app.maps.userAddress, app.maps.userPosition)
  }

  /** One client per task: the task's fields, and its 1-based position as the id. */
  function ClientOf(t: Task, index: nat): (c: Client)
    ensures c.id == NatToString(index + 1) && c.address == t.address
    ensures c.latitude == t.coords.lat && c.longitude == t.coords.lon
  {
    Client(t.address, t.coords.lat, t.coords.lon, LevelName(t.level),
           t.workStart, t.workEnd, t.lunchStart, t.lunchEnd, NatToString(index + 1))
  }

  function Clients(tasks: seq<Task>): (r: seq<Client>)
    ensures |r| == |tasks|
    ensures forall i :: 0 <= i < |tasks| ==> r[i] == ClientOf(tasks[i], i)
  {
    seq(|tasks|, i requires 0 <= i < |tasks| => ClientOf(tasks[i], i))
  }

  /** The request function: reading a missing user position throws a TypeError. */
  function BuildRequest(v: View): (r: Option<Request>)
    ensures r.Some? <==> v.userPosition.Some?
    ensures r.Some? ==> (r.value.clients == Clients(v.tasks)
      && r.value.startPoint == StartPoint(v.userAddress, v.userPosition.value.lat, v.userPosition.value.lon)
      && r.value.startTime == v.startTime && r.value.startDay == v.startDay)
  {
    match v.userPosition
    case None => None
    case Some(p) => Some(Request(Clients(v.tasks), StartPoint(v.userAddress, p.lat, p.lon), v.startTime, v.startDay))
  }

  /** The ids of the request are "1", "2", … in task order, so they are pairwise distinct. */
  lemma ClientIdsDistinct(tasks: seq<Task>)
    ensures var cs := Clients(tasks); forall i, j :: 0 <= i < j < |cs| ==> cs[i].id != cs[j].id
  {
    var cs := Clients(tasks);
    forall i, j | 0 <= i < j < |cs|
      ensures cs[i].id != cs[j].id
    {
      NatToStringValue(i + 1);
      NatToStringValue(j + 1);
    }
  }

  /** `canSave`: start address, start position, day and time are all set. */
  function CanSave(v: View): (r: bool)
    ensures r ==> BuildRequest(v).Some?
    ensures v.userAddress.Some? && v.userPosition.Some? && v.startDay.Some? && v.startTime.Some? ==> r
  {
    v.userAddress.Some? && v.userPosition.Some? && v.startDay.Some? && v.startTime.Some?
  }

  /** With everything `canSave` asks for, the request carries no null field. */
  lemma CanSaveRequestComplete(v: View)
    requires CanSave(v)
    ensures var r := BuildRequest(v).value;
      r.startPoint.address.Some? && r.startTime.Some? && r.startDay.Some?
  {
  }

  /** `hasTask`: both totals of the last analysis are truthy, so a total of 0 counts as none. */
  function HasTask(st: TasksStore.Store): (r: bool)
    ensures r ==> st.totalDistance.Some? && st.totalDuration.Some?
    ensures st.totalDistance == Some(0.0) || st.totalDuration == Some(0.0) ==> !r
  {
    Truthy(st.totalDistance) && Truthy(st.totalDuration)
  }

  /**
   * The analysis success handler: apply the route to the task list, then set
   * the totals.  When applying the route throws, the totals are not reached.
   */
  function OnSuccess(app: App, data: Response): (r: App)
    ensures r.maps == app.maps
    ensures var sorted := TasksStore.SortTasksByOptimized(app.tasks, data.optimized);
      r.tasks.tasks == sorted.store.tasks && r.tasks.disk == sorted.store.disk
    ensures |data.optimized| >= |app.tasks.tasks| ==>
      r.tasks.totalDistance == Some(data.totalDistance) && r.tasks.totalDuration == Some(data.totalDuration)
    ensures |data.optimized| < |app.tasks.tasks| ==>
      r.tasks.totalDistance == app.tasks.totalDistance && r.tasks.totalDuration == app.tasks.totalDuration
  {
    var sorted := TasksStore.SortTasksByOptimized(app.tasks, data.optimized);
    if sorted.thrown then app.(tasks := sorted.store)
    else app.(tasks := TasksStore.SetTotalProperties(sorted.store, Some(data.totalDistance), Some(data.totalDuration)))
  }

  /** The analysis error handler touches neither store. */
  function OnError(app: App): (r: App)
    ensures r.tasks == app.tasks && r.maps == app.maps
  {
    app
  }

  /** A successful analysis with non-zero totals makes the "done" button appear. */
  lemma SuccessShowsDone(app: App, data: Response)
    requires |data.optimized| >= |app.tasks.tasks|
    requires data.totalDistance != 0.0 && data.totalDuration != 0.0
    ensures HasTask(OnSuccess(app, data).tasks)
  {
  }

  /** What completing the first task did: the new stores, the analysis request started (if any), and whether it threw. */
  datatype DoneOutcome = DoneOutcome(app: App, request: Option<Option<Request>>, thrown: bool)

  /**
   * `handleDoneTask`, with `clock` the Moscow wall-clock time it reads.  The
   * first task is deleted, its position and address become the user's, the
   * start time becomes the clock; then the analysis is restarted when there
   * were at least two tasks and the totals are cleared otherwise.  The
   * restarted request is the one built from the last render (`v`).  With no
   * task at all, the delete still stores the list and the read of the missing
   * task throws.
   */
  function HandleDoneTask(app: App, v: View, clock: string): (r: DoneOutcome)
    ensures |v.tasks| == 0 ==>
      (r.thrown && r.request.None? && r.app == app.(tasks := TasksStore.DeleteTask(app.tasks, 0)))
    ensures |v.tasks| > 0 ==>
      (!r.thrown
       && r.app.maps.userPosition == Some(v.tasks[0].coords) && r.app.maps.userAddress == Some(v.tasks[0].address)
       && r.app.tasks.startTime == Some(clock) && r.app.tasks.disk.startTime == Some(clock)
       && r.app.tasks.tasks == TasksStore.DeleteTask(app.tasks, 0).tasks)
    ensures |v.tasks| > 1 ==>
      (r.request == Some(BuildRequest(v))
       && r.app.tasks.totalDistance == app.tasks.totalDistance && r.app.tasks.totalDuration == app.tasks.totalDuration)
    ensures |v.tasks| == 1 ==>
      (r.request.None? && r.app.tasks.totalDistance.None? && r.app.tasks.totalDuration.None?)
  {
    var deleted := TasksStore.DeleteTask(app.tasks, 0);
    if |v.tasks| == 0 then DoneOutcome(app.(tasks := deleted), None, true)
    else
      var current := v.tasks[0];
      var maps := MapsStore.SetUserAddress(MapsStore.SetUserPosition(app.maps, current.coords), current.address);
      var tasks := TasksStore.SetStartTime(deleted, clock);
      if |v.tasks| > 1 then DoneOutcome(App(tasks, maps), Some(BuildRequest(v)), false)
      else DoneOutcome(App(TasksStore.SetTotalProperties(tasks, None, None), maps), None, false)
  }

  /** Completing the first task of a freshly rendered list removes exactly that task from the store. */
  lemma DoneRemovesFirst(app: App, clock: string)
    requires |app.tasks.tasks| > 0
    ensures var r := HandleDoneTask(app, ViewOf(app), clock);
      r.app.tasks.tasks == app.tasks.tasks[1..] && r.app.tasks.disk.tasks == Some(app.tasks.tasks[1..])
  {
  }

  /** Completing a task keeps both stores in step with local storage. */
  lemma DonePreservesSync(app: App, clock: string)
    requires TasksStore.Synced(app.tasks) && MapsStore.Synced(app.maps)
    ensures var r := HandleDoneTask(app, ViewOf(app), clock);
      TasksStore.Synced(r.app.tasks) && MapsStore.Synced(r.app.maps)
  {
  }

  /**
   * The restarted analysis is built from the render before the click: it still
   * lists the completed task first, starts from the old position, and carries
   * the old start time, although the stores already hold the new values.
   */
  lemma RestartUsesPreviousRender(app: App, clock: string)
    requires |app.tasks.tasks| > 1 && app.maps.userPosition.Some?
    ensures var v := ViewOf(app); var r := HandleDoneTask(app, v, clock);
      r.request.Some? && r.request.value.Some?
      && |r.request.value.value.clients| == |app.tasks.tasks|
      && r.request.value.value.clients[0] == ClientOf(app.tasks.tasks[0], 0)
      && r.request.value.value.startPoint.latitude == app.maps.userPosition.value.lat
      && r.request.value.value.startTime == app.tasks.startTime
      && |r.app.tasks.tasks| == |app.tasks.tasks| - 1
  {
  }

  // ---------------------------------------------------------- pending guards

  /** Clicking task `index` opens it for editing, unless an analysis is in flight. */
  function TaskClick(pending: bool, index: nat): (r: Option<nat>)
    ensures pending <==> r.None?
    ensures r.Some? ==> r.value == index
  {
    if pending then None else Some(index)
  }

  /** The delete button of task `index`: disabled while an analysis is in flight. */
  function DeleteClick(app: App, pending: bool, index: nat): (r: App)
    ensures pending ==> r == app
    ensures !pending ==> r.tasks == TasksStore.DeleteTask(app.tasks, index) && r.maps == app.maps
  {
    if pending then app else app.(tasks := TasksStore.DeleteTask(app.tasks, index))
  }

  /** The "calculate" button starts a request only when `canSave` holds and nothing is in flight. */
  function SubmitClick(v: View, pending: bool): (r: Option<Request>)
    ensures r.Some? <==> CanSave(v) && !pending
    ensures r.Some? ==> r == BuildRequest(v)
  {
    if CanSave(v) && !pending then BuildRequest(v) else None
  }

  /** With start address, position, day and time all set and nothing pending, "Calculate" sends the request. */
  lemma FilledViewSubmits(v: View)
    requires v.userAddress.Some? && v.userPosition.Some? && v.startDay.Some? && v.startTime.Some?
    ensures SubmitClick(v, false).Some? && SubmitClick(v, false) == BuildRequest(v)
    ensures SubmitClick(v, false).value.clients == Clients(v.tasks)
  {
  }

  /** While an analysis is pending, clicks, deletes and re-submits do nothing. */
  lemma PendingBlocksActions(app: App, v: View, index: nat)
    ensures TaskClick(true, index).None?
    ensures DeleteClick(app, true, index) == app
    ensures SubmitClick(v, true).None?
  {
  }
}

=== FILE: geocoder.dfy ===
/**
 * The two geocoder helpers: an address to a position, and a position to an
 * address.  The HTTP request itself is left out; each helper is modelled by the
 * query it sends and by how it reads the JSON answer.  The answer is read
 * with optional chaining only at the top and at the first member, so a
 * missing object anywhere else along the path throws a TypeError.
 */
module Geocoder {
  import opened Wrappers
  import opened Text
  import opened JsNumber
  import opened Domain

  datatype GeocoderMetaData = GeocoderMetaData(text: Option<string>)
  datatype MetaDataProperty = MetaDataProperty(geocoderMetaData: Option<GeocoderMetaData>)
  datatype Point = Point(pos: Option<string>)
  datatype GeoObject = GeoObject(point: Option<Point>, metaDataProperty: Option<MetaDataProperty>)
  datatype Member = Member(geoObject: Option<GeoObject>)
  datatype Collection = Collection(featureMember: Option<seq<Member>>)
  datatype Body = Body(geoObjectCollection: Option<Collection>)
  /** The response's `data`; `None` is a missing body. */
  datatype Data = Data(response: Option<Body>)

  /** Reading a property of `undefined`. */
  datatype TypeError = TypeError

  /**
   * `data?.response.GeoObjectCollection.featureMember[0]`: nothing when there
   * is no body or no member, a TypeError when the body lacks the response, the
   * collection or the member list.
   */
  function FirstMember(data: Option<Data>): (r: Result<Option<Member>, TypeError>)
    ensures data.None? ==> r == Ok(None)
    ensures r.Ok? && r.value.Some? ==> data.Some? && data.value.response.Some?
    ensures (data.Some? && data.value.response.Some? && data.value.response.value.geoObjectCollection.Some?
             && data.value.response.value.geoObjectCollection.value.featureMember.Some?) ==>
      var members := data.value.response.value.geoObjectCollection.value.featureMember.value;
      r == Ok(if |members| == 0 then None else Some(members[0]))
    ensures (data.Some? && (data.value.response.None? || data.value.response.value.geoObjectCollection.None?
                            || data.value.response.value.geoObjectCollection.value.featureMember.None?)) ==> r.Err?
  {
    match data
    case None => Ok(None)
    case Some(d) =>
      match d.response
      case None => Err(TypeError)
      case Some(body) =>
        match body.geoObjectCollection
        case None => Err(TypeError)
        case Some(c) =>
          match c.featureMember
          case None => Err(TypeError)
          case Some(members) => Ok(if |members| == 0 then None else Some(members[0]))
  }

  /** `…[0]?.GeoObject.Point.pos`: a TypeError when the member lacks the object or its point. */
  function PositionString(data: Option<Data>): (r: Result<Option<string>, TypeError>)
    ensures FirstMember(data).Err? ==> r.Err?
    ensures FirstMember(data) == Ok(None) ==> r == Ok(None)
    ensures FirstMember(data).Ok? && FirstMember(data).value.Some? ==>
      var m := FirstMember(data).value.value;
      (r.Err? <==> m.geoObject.None? || m.geoObject.value.point.None?)
      && (r.Ok? ==> r.value == m.geoObject.value.point.value.pos)
  {
    match FirstMember(data)
    case Err(e) => Err(e)
    case Ok(None) => Ok(None)
    case Ok(Some(m)) =>
      match m.geoObject
      case None => Err(TypeError)
      case Some(g) =>
        match g.point
        case None => Err(TypeError)
        case Some(p) => Ok(p.pos)
  }

  /**
   * `getCoordsByAddressHelper`, after the request: an empty or missing
   * position string is no result; otherwise the part before the first space
   * is the longitude and the part after it the latitude, each read with
   * `Number(...)` (a missing part is NaN).
   */
  function CoordsFromAnswer(data: Option<Data>): (r: Result<Option<Coords>, TypeError>)
    ensures r.Err? <==> PositionString(data).Err?
    ensures r.Ok? ==> (r.value.None? <==> PositionString(data).value.None? || PositionString(data).value.value == "")
    ensures r.Ok? && r.value.Some? ==>
      var parts := Split(PositionString(data).value.value, ' ');
      r.value.value.lon == ParseNumber(parts[0])
      && r.value.value.lat == (if |parts| > 1 then ParseNumber(parts[1]) else NaN)
  {
    match PositionString(data)
    case Err(e) => Err(e)
    case Ok(pos) =>
      if pos.None? || pos.value == "" then Ok(None)
      else
        var parts := Split(pos.value, ' ');
        var lat := if |parts| > 1 then ParseNumber(parts[1]) else NaN;
        Ok(Some(Coords(lat, ParseNumber(parts[0]))))
  }

  /** The `geocode` parameter of the reverse query: longitude, a space, latitude. */
  function ReverseQuery(c: Coords): (r: string)
    ensures ' ' in r
  {
    Show(c.lon) + " " + Show(c.lat)
  }

  /**
   * `getAddressByCoordsHelper`, after the request: the found address text, or
   * nothing when it is missing or empty; a TypeError when the member lacks the
   * object, its metadata property or the geocoder metadata.
   */
  function AddressFromAnswer(data: Option<Data>): (r: Result<Option<string>, TypeError>)
    ensures FirstMember(data).Err? ==> r.Err?
    ensures FirstMember(data) == Ok(None) ==> r == Ok(None)
    ensures r.Ok? && r.value.Some? ==> r.value.value != ""
    ensures FirstMember(data).Ok? && FirstMember(data).value.Some? ==>
      var m := FirstMember(data).value.value;
      (r.Err? <==> m.geoObject.None? || m.geoObject.value.metaDataProperty.None?
                   || m.geoObject.value.metaDataProperty.value.geocoderMetaData.None?)
    ensures r.Ok? && FirstMember(data).Ok? && FirstMember(data).value.Some? ==>
      var text := FirstMember(data).value.value.geoObject.value.metaDataProperty.value.geocoderMetaData.value.text;
      r.value == (if text.None? || text.value == "" then None else text)
  {
    match FirstMember(data)
    case Err(e) => Err(e)
    case Ok(None) => Ok(None)
    case Ok(Some(m)) =>
      match m.geoObject
      case None => Err(TypeError)
      case Some(g) =>
        match g.metaDataProperty
        case None => Err(TypeError)
        case Some(mp) =>
          match mp.geocoderMetaData
          case None => Err(TypeError)
          case Some(md) =>
            if md.text.None? || md.text.value == "" then Ok(None) else Ok(md.text)
  }

  /** An answer carrying `pos` in its first member, as the geocoder sends it. */
  function AnswerWithPos(pos: string): (r: Option<Data>)
    ensures PositionString(r) == Ok(Some(pos))
  {
    var m := Member(Some(GeoObject(Some(Point(Some(pos))), None)));
    var r := Some(Data(Some(Body(Some(Collection(Some([m])))))));
    assert FirstMember(r) == Ok(Some(m));
    r
  }

  /** An answer whose first member carries the address `text`, as the geocoder sends it. */
  function AnswerWithText(text: Option<string>): (r: Option<Data>)
    ensures FirstMember(r).Ok? && FirstMember(r).value.Some?
  {
    var md := MetaDataProperty(Some(GeocoderMetaData(text)));
    Some(Data(Some(Body(Some(Collection(Some([Member(Some(GeoObject(None, Some(md))))])))))))
  }

  /** The reverse helper returns exactly the address the geocoder found, and null for an empty one. */
  lemma AddressReadsBack(text: Option<string>)
    ensures text.Some? && text.value != "" ==> AddressFromAnswer(AnswerWithText(text)) == Ok(text)
    ensures text == Some("") || text.None? ==> AddressFromAnswer(AnswerWithText(text)) == Ok(None)
  {
  }

  /** Digits with a point inserted hold no space. */
  lemma PointedHasNoSpace(digits: string, k: nat)
    requires AllDigits(digits) && k <= |digits|
    ensures ' ' !in digits[..k] + "." + digits[k..]
  {
    var u := digits[..k] + "." + digits[k..];
    forall i | 0 <= i < |u|
      ensures u[i] != ' '
    {
      if i < k {
        assert u[i] == digits[i];
      } else if i > k {
        assert u[i] == digits[i - 1];
      }
    }
  }

  /** The digits and the point `Show` writes for a magnitude hold no space. */
  lemma UnsignedHasNoSpace(a: nat, s: nat)
    ensures ' ' !in ShowUnsigned(a, s)
  {
    if s == 0 {
      var u := NatToString(a);
      assert forall i :: 0 <= i < |u| ==> IsDigit(u[i]);
    } else {
      var digits := PadZeros(NatToString(a), s + 1);
      PaddedValue(a, s + 1);
      PointedHasNoSpace(digits, |digits| - s);
    }
  }

  lemma NaNHasNoSpace(t: string)
    requires t == Show(NaN)
    ensures ' ' !in t
  {
    assert t == "NaN";
    assert forall i :: 0 <= i < |t| ==> t[i] != ' ';
  }

  /** Every character `Show` writes is a digit, a '.', a '-' or a letter of "NaN". */
  lemma ShowHasNoSpace(x: Num)
    ensures ' ' !in Show(x)
  {
    match x
    case NaN => NaNHasNoSpace(Show(x));
    case Dec(m, s) =>
      UnsignedHasNoSpace(Abs(m), s);
      if m < 0 {
        assert Show(x) == "-" + ShowUnsigned(Abs(m), s);
      }
  }

  /**
   * A position written the way the reverse query writes it reads back as the
   * same coordinates: the two helpers agree on "longitude latitude".
   */
  lemma QueryRoundTrip(c: Coords)
    requires Canonical(c.lat) && Canonical(c.lon)
    ensures CoordsFromAnswer(AnswerWithPos(ReverseQuery(c))) == Ok(Some(c))
  {
    var lon, lat := Show(c.lon), Show(c.lat);
    ShowHasNoSpace(c.lon);
    ShowHasNoSpace(c.lat);
    ShowRoundTrip(c.lon);
    ShowRoundTrip(c.lat);
    PositionReadsBack(ReverseQuery(c), lon, lat, c);
  }

  /** Two space-free texts around one space are read as longitude and latitude. */
  lemma PositionReadsBack(pos: string, lon: string, lat: string, c: Coords)
    requires pos == lon + [' '] + lat && ' ' !in lon && ' ' !in lat
    requires ParseNumber(lon) == c.lon && ParseNumber(lat) == c.lat
    ensures CoordsFromAnswer(AnswerWithPos(pos)) == Ok(Some(c))
  {
    SplitTwo(lon, lat, ' ');
    assert PositionString(AnswerWithPos(pos)) == Ok(Some(pos));
  }

  /** A position string without a space has a longitude but no latitude. */
  lemma NoSpaceMeansNaNLatitude(pos: string)
    requires pos != "" && ' ' !in pos
    ensures CoordsFromAnswer(AnswerWithPos(pos)) == Ok(Some(Coords(NaN, ParseNumber(pos))))
  {
    assert FindChar(pos, ' ').None?;
  }
}

=== FILE: js_number.dfy ===
/**
 * JavaScript numbers as the front end handles them: coordinates read from CSV
 * cells and geocoder strings with `Number(...)`, and coordinates written into a
 * geocoder query with a template string.  A finite number is kept as an exact
 * decimal `mant / 10^scale`; NaN is its own value.
 */
module JsNumber {
  import opened Text
  import opened Wrappers
  import opened Arith

  datatype Num = NaN | Dec(mant: int, scale: nat)

  function Pow10(k: nat): (r: nat)
    ensures r >= 1
  {
    if k == 0 then 1 else 10 * Pow10(k - 1)
  }

  /** The canonical spelling of a finite number has no trailing fractional zero. */
  predicate Canonical(x: Num) {
    x.Dec? ==> x.scale == 0 || x.mant % 10 != 0
  }

  function Value(x: Num): real
    requires x.Dec?
  {
    x.mant as real / Pow10(x.scale) as real
  }

  function Negate(x: Num): Num {
    match x
    case NaN => NaN
    case Dec(m, s) => Dec(-m, s)
  }

  /** Fractional digits with their trailing zeros removed. */
  function StripTrailingZeros(s: string): (r: string)
    ensures |r| <= |s| && r == s[..|r|]
    ensures |r| > 0 ==> r[|r| - 1] != '0'
  {
    if |s| > 0 && s[|s| - 1] == '0' then StripTrailingZeros(s[..|s| - 1]) else s
  }

  lemma LastDigitRemainder(s: string)
    requires AllDigits(s) && |s| > 0
    ensures DigitsValue(s) % 10 == DigitValue(s[|s| - 1])
  {
    DivModUnique(DigitsValue(s), DigitsValue(s[..|s| - 1]), DigitValue(s[|s| - 1]), 10);
  }

  /**
   * An unsigned decimal literal: digits, optionally a '.' and more digits, at
   * least one digit in all.  Its value is all its significant digits read as
   * one integer, scaled by the number of fractional digits kept.
   */
  function ParseUnsigned(t: string): (r: Num)
    ensures Canonical(r)
  {
    var dot := FindChar(t, '.');
    var ip := if dot.Some? then t[..dot.value] else t;
    var fp := if dot.Some? then t[dot.value + 1..] else "";
    if |ip| + |fp| > 0 && AllDigits(ip) && AllDigits(fp) then
      var f := StripTrailingZeros(fp);
      var digits := ip + f;
      assert AllDigits(digits);
      assert |f| > 0 ==> DigitsValue(digits) % 10 != 0 by {
        if |f| > 0 {
          LastDigitRemainder(digits);
        }
      }
      Dec(DigitsValue(digits), |f|)
    else NaN
  }

  /**
   * `Number(s)`: surrounding white space is ignored, the empty string is 0, a
   * leading sign is honoured; anything else that is not a plain decimal is NaN.
   */
  function ParseNumber(s: string): Num {
    ParseTrimmed(Trim(s))
  }

  /** `Number` on text that has already been trimmed. */
  function ParseTrimmed(t: string): Num {
    if |t| == 0 then Dec(0, 0)
    else
      var signed := t[0] == '-' || t[0] == '+';
      var u := ParseUnsigned(if signed then t[1..] else t);
      if t[0] == '-' then Negate(u) else u
  }

  function Abs(m: int): nat {
    if m < 0 then -m else m
  }

  /** The digits of `a` padded to more than `s` places, with a '.' before the last `s` of them. */
  function ShowFraction(a: nat, s: nat): string {
    var digits := PadZeros(NatToString(a), s + 1);
    digits[..|digits| - s] + "." + digits[|digits| - s..]
  }

  /** The digits `Show` writes for the magnitude `a / 10^s`. */
  function ShowUnsigned(a: nat, s: nat): string {
    if s == 0 then NatToString(a) else ShowFraction(a, s)
  }

  /** `String(x)` / `${x}`: NaN, or sign, whole part, and the fractional digits when there are any. */
  function Show(x: Num): string {
    match x
    case NaN => "NaN"
    case Dec(m, s) =>
      if m < 0 then "-" + ShowUnsigned(Abs(m), s) else ShowUnsigned(Abs(m), s)
  }

  /** The '.' that `Show` writes after the whole digits is the first one in the text. */
  lemma DotAfterDigits(w: string, f: string)
    requires AllDigits(w)
    ensures FindChar(w + "." + f, '.') == Some(|w|)
  {
    var t := w + "." + f;
    assert t[|w|] == '.';
    assert t[..|w|] == w;
  }

  lemma ParseUnsignedDigits(w: string)
    requires AllDigits(w) && |w| > 0
    ensures ParseUnsigned(w) == Dec(DigitsValue(w), 0)
  {
    assert FindChar(w, '.') == None;
    assert StripTrailingZeros("") == "";
    assert w + "" == w;
  }

  /** Whole digits, '.', and fractional digits ending in a non-zero digit read back exactly. */
  lemma ParseUnsignedFraction(w: string, f: string)
    requires AllDigits(w) && AllDigits(f) && |f| > 0 && f[|f| - 1] != '0'
    ensures AllDigits(w + f)
    ensures ParseUnsigned(w + "." + f) == Dec(DigitsValue(w + f), |f|)
  {
    var t := w + "." + f;
    DotAfterDigits(w, f);
    assert t[..|w|] == w;
    assert t[|w| + 1..] == f;
    assert StripTrailingZeros(f) == f;
  }

  /** The padded digits of `a` read back as `a`. */
  lemma PaddedValue(a: nat, width: nat)
    ensures AllDigits(PadZeros(NatToString(a), width))
    ensures DigitsValue(PadZeros(NatToString(a), width)) == a
  {
    var fs := NatToString(a);
    NatToStringValue(a);
    if |fs| < width {
      LeadingZerosValue(width - |fs|, fs);
    }
  }

  /** The last padded digit is the last digit of `a`. */
  lemma PaddedLast(a: nat, width: nat)
    ensures var d := PadZeros(NatToString(a), width); |d| > 0 && d[|d| - 1] == DigitChar(a % 10)
  {
  }

  lemma ShowFractionRoundTrip(a: nat, s: nat)
    requires s > 0 && a % 10 != 0
    ensures ParseUnsigned(ShowFraction(a, s)) == Dec(a, s)
  {
    var digits := PadZeros(NatToString(a), s + 1);
    PaddedValue(a, s + 1);
    PaddedLast(a, s + 1);
    var whole := digits[..|digits| - s];
    var frac := digits[|digits| - s..];
    assert whole + frac == digits;
    assert frac[|frac| - 1] == digits[|digits| - 1];
    assert AllDigits(whole) && AllDigits(frac);
    ParseUnsignedFraction(whole, frac);
  }

  /** The unsigned text that `Show` writes for `a / 10^s` reads back as that number. */
  lemma ShowUnsignedRoundTrip(a: nat, s: nat)
    requires s == 0 || a % 10 != 0
    ensures ParseUnsigned(ShowUnsigned(a, s)) == Dec(a, s)
  {
    if s == 0 {
      NatToStringValue(a);
      ParseUnsignedDigits(NatToString(a));
    } else {
      ShowFractionRoundTrip(a, s);
    }
  }

  /** What `Show` writes for a magnitude starts and ends with a digit. */
  lemma ShowUnsignedEnds(a: nat, s: nat)
    ensures var d := ShowUnsigned(a, s); |d| > 0 && IsDigit(d[0]) && IsDigit(d[|d| - 1])
  {
    if s > 0 {
      var padded := PadZeros(NatToString(a), s + 1);
      PaddedValue(a, s + 1);
      var d := ShowUnsigned(a, s);
      assert d[0] == padded[0];
      assert d[|d| - 1] == padded[|padded| - 1];
    }
  }

  /** Text that starts with neither a digit nor a '.' is not an unsigned literal. */
  lemma ParseUnsignedNotDigit(t: string)
    requires |t| > 0 && !IsDigit(t[0]) && t[0] != '.'
    ensures ParseUnsigned(t) == NaN
  {
    var dot := FindChar(t, '.');
    if dot.Some? {
      assert !AllDigits(t[..dot.value]) by {
        assert t[..dot.value][0] == t[0];
      }
    } else {
      assert !AllDigits(t);
    }
  }

  /** The text written for NaN reads back as NaN. */
  lemma ShowNaNRoundTrip(t: string)
    requires t == Show(NaN)
    ensures ParseNumber(t) == NaN
  {
    assert t == "NaN";
    TrimNoop(t);
    ParseUnsignedNotDigit(t);
    assert ParseTrimmed(t) == NaN;
  }

  /** A '-' before a digit negates what the digits read as. */
  lemma ParseTrimmedNegative(t: string, u: string)
    requires t == "-" + u && |u| > 0 && IsDigit(u[0])
    ensures ParseTrimmed(t) == Negate(ParseUnsigned(u))
  {
    assert t[1..] == u;
  }

  lemma ParseTrimmedDigitFirst(u: string)
    requires |u| > 0 && IsDigit(u[0])
    ensures ParseTrimmed(u) == ParseUnsigned(u)
  {
  }

  /** Unsigned text that starts and ends with a digit is read as itself. */
  lemma PlainReadsBack(u: string, x: Num)
    requires |u| > 0 && IsDigit(u[0]) && IsDigit(u[|u| - 1]) && ParseUnsigned(u) == x
    ensures ParseNumber(u) == x
  {
    TrimNoop(u);
    ParseTrimmedDigitFirst(u);
  }

  /** The same text after a '-' is read as the negated number. */
  lemma NegativeReadsBack(t: string, u: string, x: Num)
    requires t == "-" + u && |u| > 0 && IsDigit(u[0]) && IsDigit(u[|u| - 1]) && ParseUnsigned(u) == x
    ensures ParseNumber(t) == Negate(x)
  {
    assert t[0] == '-' && t[|t| - 1] == u[|u| - 1];
    TrimNoop(t);
    ParseTrimmedNegative(t, u);
  }

  /** A mantissa that does not end in 0 keeps that property when its sign is dropped. */
  lemma AbsLastDigit(m: int)
    requires m % 10 != 0
    ensures Abs(m) % 10 != 0
  {
    if m < 0 {
      DivModUnique(m, m / 10, m % 10, 10);
      if -m % 10 == 0 {
        DivModUnique(-m, -m / 10, 0, 10);
        assert m == 10 * (-(-m / 10)) + 0;
        DivModUnique(m, -(-m / 10), 0, 10);
      }
    }
  }

  lemma ShowDecRoundTrip(m: int, s: nat)
    requires s == 0 || m % 10 != 0
    ensures ParseNumber(Show(Dec(m, s))) == Dec(m, s)
  {
    var a := Abs(m);
    if s != 0 {
      AbsLastDigit(m);
    }
    var u := ShowUnsigned(a, s);
    ShowUnsignedRoundTrip(a, s);
    ShowUnsignedEnds(a, s);
    if m < 0 {
      NegativeReadsBack(Show(Dec(m, s)), u, Dec(a, s));
    } else {
      PlainReadsBack(u, Dec(a, s));
    }
  }

  /** `Number(String(x))` gives back `x` for every canonical number. */
  lemma ShowRoundTrip(x: Num)
    requires Canonical(x)
    ensures ParseNumber(Show(x)) == x
  {
    match x
    case NaN => ShowNaNRoundTrip(Show(x));
    case Dec(m, s) => ShowDecRoundTrip(m, s);
  }
}

=== FILE: map_view.dfy ===
/**
 * The map screen: which points it asks the route hook to draw, with which
 * options, and what the first geolocation fix does to the component and to
 * the maps store.
 */
module MapView {
  import opened Wrappers
  import opened Domain
  import MapsStore
  import MultiRoute

  /** `multiRouteData`: the user's position, when known, followed by every task's position in list order. */
  function RoutePoints(userPosition: Option<Coords>, tasks: seq<Task>): (r: seq<Coords>)
    ensures userPosition.None? ==> |r| == |tasks|
    ensures userPosition.Some? ==> |r| == |tasks| + 1 && r[0] == userPosition.value
    ensures forall i :: 0 <= i < |tasks| ==> r[|r| - |tasks| + i] == tasks[i].coords
  {
    var coords := seq(|tasks|, i requires 0 <= i < |tasks| => tasks[i].coords);
    match userPosition
    case None => coords
    case Some(p) => [p] + coords
  }

  /** The options the map passes to the route hook. */
  const RouteOptions := MultiRoute.Options("auto", true, true, 1)

  /** A route is drawn once there are two points: the user and one task, or two tasks. */
  lemma RouteDrawnWhen(userPosition: Option<Coords>, tasks: seq<Task>)
    ensures |RoutePoints(userPosition, tasks)| >= 2 <==>
      (userPosition.Some? && |tasks| >= 1) || |tasks| >= 2
  {
  }

  /**
   * With the map ready, the route the hook creates starts at the user's
   * position, visits the tasks in list order, and asks for a single route.
   */
  lemma RouteStartsAtUser(h: MultiRoute.Hook, p: Coords, tasks: seq<Task>)
    requires |tasks| >= 1
    ensures var r := MultiRoute.Step(h, MultiRoute.Effect(true, true, RoutePoints(Some(p), tasks), RouteOptions));
      var params := r.created[|h.created|];
      |params.referencePoints| == |tasks| + 1
      && params.referencePoints[0] == (p.lat, p.lon)
      && params.referencePoints[|tasks|] == (tasks[|tasks| - 1].coords.lat, tasks[|tasks| - 1].coords.lon)
      && params.results == 1 && params.avoidTrafficJams && params.routingMode == "auto"
  {
    var points := RoutePoints(Some(p), tasks);
    assert points[|points| - |tasks| + (|tasks| - 1)] == tasks[|tasks| - 1].coords;
  }

  /** The two ways geolocation can fail. */
  datatype GeoError = Unsupported | Refused

  /** The component's state next to the maps store: the first fix it saw, and a geolocation error. */
  datatype State = State(defaultPosition: Option<Coords>, geoError: Option<GeoError>, maps: MapsStore.Store)

  /** The values the success callback closed over when it was created. */
  datatype Closure = Closure(defaultPosition: Option<Coords>, userPosition: Option<Coords>)

  /** The state when the page is loaded: the stored position, no fix yet. */
  function Mount(disk: MapsStore.Disk): (s: State)
    ensures s.defaultPosition.None? && s.geoError.None?
    ensures s.maps == MapsStore.Init(disk)
  {
    State(None, None, MapsStore.Init(disk))
  }

  /** The closure of the first render, the only one geolocation is started with. */
  function FirstClosure(s: State): (c: Closure)
    ensures c.defaultPosition == s.defaultPosition && c.userPosition == s.maps.userPosition
  {
    Closure(s.defaultPosition, s.maps.userPosition)
  }

  /**
   * The success callback: the fix becomes the component's default position if
   * the closure had none, and the user's position in the store if the closure
   * had none there; otherwise the value in question stays as it is.
   */
  function OnGeolocated(s: State, c: Closure, coords: Coords): (r: State)
    ensures r.geoError == s.geoError
    ensures r.defaultPosition == (if c.defaultPosition.None? then Some(coords) else s.defaultPosition)
    ensures c.userPosition.Some? ==> r.maps == s.maps
    ensures c.userPosition.None? ==> r.maps == MapsStore.SetUserPosition(s.maps, coords)
  {
    var d := if c.defaultPosition.None? then Some(coords) else s.defaultPosition;
    var m := if c.userPosition.None? then MapsStore.SetUserPosition(s.maps, coords) else s.maps;
    s.(defaultPosition := d, maps := m)
  }

  /** The error callback records why geolocation failed. */
  function OnGeoError(s: State, e: GeoError): (r: State)
    ensures r.geoError == Some(e) && r.defaultPosition == s.defaultPosition && r.maps == s.maps
  {
    s.(geoError := Some(e))
  }

  /** What the component renders. */
  datatype Screen = Spinner | ErrorInfo(error: GeoError) | MapScreen(center: Coords)

  function ScreenOf(s: State): (r: Screen)
    ensures r.Spinner? <==> s.defaultPosition.None? && s.geoError.None?
    ensures r.ErrorInfo? <==> s.geoError.Some?
    ensures r.MapScreen? ==> s.defaultPosition == Some(r.center)
  {
    match s.geoError
    case Some(e) => ErrorInfo(e)
    case None =>
      match s.defaultPosition
      case None => Spinner
      case Some(p) => MapScreen(p)
  }

  /**
   * After the first fix, the map is shown centred on it, and the user's
   * marker has a position to stand on: the stored one when there was one,
   * the fix otherwise.
   */
  lemma FirstFixShowsMap(disk: MapsStore.Disk, coords: Coords)
    ensures var s := Mount(disk);
      var r := OnGeolocated(s, FirstClosure(s), coords);
      ScreenOf(r) == MapScreen(coords)
      && r.maps.userPosition == (if disk.position.Some? then disk.position else Some(coords))
      && MapsStore.Synced(r.maps)
  {
  }

  /**
   * On mount the spinner shows; a geolocation error then shows the error
   * screen and leaves the maps store as it was loaded.
   */
  lemma ErrorShowsErrorInfo(disk: MapsStore.Disk, e: GeoError)
    ensures ScreenOf(Mount(disk)) == Spinner
    ensures var r := OnGeoError(Mount(disk), e);
      ScreenOf(r) == ErrorInfo(e) && r.maps == MapsStore.Init(disk)
  {
  }
}

=== FILE: maps_store.dfy ===
/**
 * The maps store: the user's own position (the route's start point) and the
 * address text for it, each written through to local storage under its own key.
 */
module MapsStore {
  import opened Wrappers
  import opened Domain

  /** The local-storage keys 'userPosition' and 'userAddress'; an absent key is `None`. */
  datatype Disk = Disk(position: Option<Coords>, address: Option<string>)

  datatype Store = Store(userPosition: Option<Coords>, userAddress: Option<string>, disk: Disk)

  /** Memory and storage agree. */
  predicate Synced(st: Store) {
    st.userPosition == st.disk.position && st.userAddress == st.disk.address
  }

  /** The store as created on page load: the stored values, or nothing. */
  function Init(disk: Disk): (r: Store)
    ensures Synced(r) && r.disk == disk
    ensures disk.position.None? ==> r.userPosition.None?
    ensures disk.address.None? ==> r.userAddress.None?
  {
    Store(disk.position, disk.address, disk)
  }

  /** `setUserPosition`: the position in memory and on disk; the address is untouched. */
  function SetUserPosition(st: Store, coords: Coords): (r: Store)
    ensures r.userPosition == Some(coords) && r.userPosition == r.disk.position
    ensures r.userAddress == st.userAddress && r.disk.address == st.disk.address
    ensures Synced(st) ==> Synced(r)
  {
    st.(userPosition := Some(coords), disk := st.disk.(position := Some(coords)))
  }

  /** `setUserAddress`: the address in memory and on disk; the position is untouched. */
  function SetUserAddress(st: Store, address: string): (r: Store)
    ensures r.userAddress == Some(address) && r.userAddress == r.disk.address
    ensures r.userPosition == st.userPosition && r.disk.position == st.disk.position
    ensures Synced(st) ==> Synced(r)
  {
    st.(userAddress := Some(address), disk := st.disk.(address := Some(address)))
  }

  /** The two setters touch disjoint keys, so their order does not matter. */
  lemma SettersCommute(st: Store, coords: Coords, address: string)
    ensures SetUserAddress(SetUserPosition(st, coords), address) == SetUserPosition(SetUserAddress(st, address), coords)
  {
  }

  /** After both setters, a reload shows exactly what was set. */
  lemma ReloadAfterSet(st: Store, coords: Coords, address: string)
    ensures var r := Init(SetUserAddress(SetUserPosition(st, coords), address).disk);
      r.userPosition == Some(coords) && r.userAddress == Some(address)
  {
  }
}

=== FILE: menu_trigger.dfy ===
/**
 * The card that opens the drawer: it shows the last analysis's total distance
 * and its total duration in hours and minutes, or a placeholder.
 */
module MenuTrigger {
  import opened Wrappers
  import opened Text
  import opened Domain

  /** The placeholder shown for a missing value. */
  const Placeholder := "- -"

  /** Rounding toward zero. */
  function Trunc(x: real): (r: int)
    ensures x >= 0.0 ==> r as real <= x < r as real + 1.0
    ensures x < 0.0 ==> r as real - 1.0 < x <= r as real
  {
    if x >= 0.0 then x.Floor else -((-x).Floor)
  }

  /** `d % 60` in JavaScript: the remainder takes the sign of the dividend. */
  function Rem60(d: real): (r: real)
    ensures d >= 0.0 ==> 0.0 <= r < 60.0
    ensures d < 0.0 ==> -60.0 < r <= 0.0
    ensures d - r == 60.0 * Trunc(d / 60.0) as real
  {
    d - 60.0 * Trunc(d / 60.0) as real
  }

  /** Whole hours `Math.floor(d / 60)` and minutes `Math.floor(d % 60)` of a duration in minutes. */
  function HoursMinutes(d: real): (r: (int, int))
    ensures (r.0 * 60) as real <= d < ((r.0 + 1) * 60) as real
    ensures d >= 0.0 ==> r.0 >= 0 && 0 <= r.1 < 60
    ensures d < 0.0 ==> r.0 < 0 && -60 <= r.1 <= 0
  {
    ((d / 60.0).Floor, Rem60(d).Floor)
  }

  /** For a duration that is not negative, the two parts are its whole minutes split into hours and 0-59 minutes. */
  lemma HoursMinutesSplit(d: real)
    requires d >= 0.0
    ensures var (h, m) := HoursMinutes(d);
      h >= 0 && 0 <= m < 60 && h * 60 + m == d.Floor
  {
    var (h, m) := HoursMinutes(d);
    var rem := Rem60(d);
    assert Trunc(d / 60.0) == h;
    assert rem == d - 60.0 * h as real;
    assert m as real <= rem < m as real + 1.0;
  }

  /**
   * For a negative duration the hours round down but the minutes round toward
   * zero, so both carry the sign: half an hour back reads "-1 ч -30 мин".
   */
  lemma NegativeDurationBothNegative()
    ensures HoursMinutes(-30.0) == (-1, -30)
  {
    assert Trunc(-30.0 / 60.0) == 0;
  }

  /** The duration text, or nothing when the duration is missing. */
  function DurationLabel(d: Option<real>): (r: Option<string>)
    ensures r.None? <==> d.None?
    ensures r.Some? ==> exists h: int, m: int :: HoursMinutes(d.value) == (h, m) && r.value == IntToString(h) + " ч " + IntToString(m) + " мин"
  {
    match d
    case None => None
    case Some(x) =>
      var (h, m) := HoursMinutes(x);
      Some(IntToString(h) + " ч " + IntToString(m) + " мин")
  }

  /** What the distance cell shows: the number with "км", or the placeholder when it is missing or zero. */
  function DistanceShown(d: Option<real>): (r: Option<real>)
    ensures r.Some? <==> Truthy(d)
    ensures r.Some? ==> r == d
  {
    if Truthy(d) then d else None
  }

  /** What the duration cell shows. */
  function DurationText(d: Option<real>): (r: string)
    ensures d.None? <==> r == Placeholder
  {
    match DurationLabel(d)
    case None => Placeholder
    case Some(s) => s
  }

  /** A zero total hides the distance but still shows a duration of "0 ч 0 мин". */
  lemma ZeroTotalsShowDurationOnly()
    ensures DistanceShown(Some(0.0)).None?
    ensures DurationText(Some(0.0)) == "0 ч 0 мин"
  {
    assert HoursMinutes(0.0) == (0, 0);
  }
}

=== FILE: multi_route.dfy ===
/**
 * The hook that draws the driving route through the map points and reports its
 * totals and legs, as a state machine over four events: the effect running,
 * a route object's request succeeding or failing, and the effect's cleanup.
 * Route objects are named by the number of the effect run that created them;
 * the map holds a set of them.  The event handlers of a route object stay
 * attached after the hook lets go of it, so a late event from a route that is
 * no longer current still changes the hook's state.
 */
module MultiRoute {
  import opened Wrappers
  import opened JsNumber
  import opened Domain

  /** A distance or duration as the map API reports it. */
  datatype Quantity = Quantity(text: string, value: real)

  datatype Totals = Totals(distance: Option<Quantity>, duration: Option<Quantity>)

  /** One leg of the active route; `index` is the path's position. */
  datatype Leg = Leg(index: nat, distanceM: Option<real>, durationS: Option<real>, durationInTrafficS: Option<real>)

  /** What the map API's model of one path reports (every value may be missing). */
  datatype PathJson = PathJson(distance: Option<real>, duration: Option<real>, durationInTraffic: Option<real>)

  /** The active route of a successful request: its totals and its paths in order. */
  datatype ActiveRoute = ActiveRoute(distance: Option<Quantity>, duration: Option<Quantity>, paths: seq<PathJson>)

  datatype Options = Options(routingMode: string, avoidTrafficJams: bool, boundsAutoApply: bool, alternatives: int)

  /** The hook's defaults. */
  const DefaultOptions := Options("auto", true, true, 1)

  /** The request parameters a route object is created with. */
  datatype Params = Params(referencePoints: seq<(Num, Num)>, routingMode: string, avoidTrafficJams: bool,
                           results: int, boundsAutoApply: bool)

  datatype Hook = Hook(
    ref: Option<nat>,
    onMap: set<nat>,
    created: seq<Params>,
    totals: Option<Totals>,
    legs: seq<Leg>,
    loading: bool,
    error: Option<string>)

  const NoActiveRoute := "Нет активного маршрута"
  const RouteFailed := "Не удалось построить маршрут"

  /** The hook before its first effect. */
  const Initial := Hook(None, {}, [], None, [], false, None)

  datatype Event =
    | Effect(hasApi: bool, hasMap: bool, points: seq<Coords>, options: Options)
    | Success(route: nat, active: Option<ActiveRoute>)
    | Fail(route: nat)
    | Cleanup

  /** The points as the map API takes them: latitude first. */
  function ReferencePoints(points: seq<Coords>): (r: seq<(Num, Num)>)
    ensures |r| == |points|
    ensures forall i :: 0 <= i < |points| ==> r[i] == (points[i].lat, points[i].lon)
  {
    seq(|points|, i requires 0 <= i < |points| => (points[i].lat, points[i].lon))
  }

  /** `Math.max(1, alternatives)`. */
  function Results(alternatives: int): (r: int)
    ensures r >= 1 && r >= alternatives
    ensures r == 1 || r == alternatives
  {
    if alternatives > 1 then alternatives else 1
  }

  /** The hook's route taken off the map and forgotten. */
  function Detach(h: Hook): (r: Hook)
    ensures r.ref.None?
    ensures h.ref.Some? ==> r.onMap == h.onMap - {h.ref.value}
    ensures h.ref.None? ==> r.onMap == h.onMap
    ensures r.created == h.created && r.totals == h.totals && r.legs == h.legs
    ensures r.loading == h.loading && r.error == h.error
  {
    match h.ref
    case None => h
    case Some(id) => h.(onMap := h.onMap - {id}, ref := None)
  }

  /** One leg per path, numbered by position. */
  function LegsOf(paths: seq<PathJson>): (r: seq<Leg>)
    ensures |r| == |paths|
    ensures forall i :: 0 <= i < |paths| ==>
      r[i] == Leg(i, paths[i].distance, paths[i].duration, paths[i].durationInTraffic)
  {
    seq(|paths|, i requires 0 <= i < |paths| => Leg(i, paths[i].distance, paths[i].duration, paths[i].durationInTraffic))
  }

  /** Only route objects that have been created raise request events. */
  predicate Possible(h: Hook, e: Event) {
    match e
    case Success(id, _) => id < |h.created|
    case Fail(id) => id < |h.created|
    case _ => true
  }

  function Step(h: Hook, e: Event): (r: Hook)
    requires Possible(h, e)
    ensures e.Effect? && !(e.hasApi && e.hasMap) ==> r == h
    ensures e.Effect? && e.hasApi && e.hasMap && |e.points| < 2 ==>
      r.ref.None? && r.totals.None? && r.legs == [] && !r.loading && r.error.None? && r.created == h.created
    ensures e.Effect? && e.hasApi && e.hasMap && |e.points| >= 2 ==>
      r.ref == Some(|h.created|) && |h.created| in r.onMap && |r.created| == |h.created| + 1
      && r.created[|h.created|].results == Results(e.options.alternatives)
      && r.created[|h.created|].referencePoints == ReferencePoints(e.points)
      && r.loading && r.error.None? && r.totals.None? && r.legs == []
    ensures e.Effect? && e.hasApi && e.hasMap && |e.points| >= 2 ==>
      r.onMap == Detach(h).onMap + {|h.created|}
    ensures e.Effect? && e.hasApi && e.hasMap && |e.points| < 2 ==> r.onMap == Detach(h).onMap
    ensures e.Success? && e.active.None? ==>
      r == h.(loading := false, error := Some(NoActiveRoute))
    ensures e.Success? && e.active.Some? ==>
      r.totals == Some(Totals(e.active.value.distance, e.active.value.duration))
      && r.legs == LegsOf(e.active.value.paths) && !r.loading && r.error == h.error
      && r.ref == h.ref && r.onMap == h.onMap
    ensures e.Fail? ==>
      !r.loading && r.error == Some(RouteFailed) && r.totals == h.totals && r.legs == h.legs
      && r.ref == h.ref && r.onMap == h.onMap
    ensures e.Cleanup? ==> r == Detach(h)
    ensures !e.Effect? ==> r.created == h.created
  {
    match e
    case Effect(hasApi, hasMap, points, options) =>
      if !hasApi || !hasMap then h
      else if |points| < 2 then
        Detach(h).(totals := None, legs := [], loading := false, error := None)
      else
        var d := Detach(h);
        var id := |h.created|;
        var params := Params(ReferencePoints(points), options.routingMode, options.avoidTrafficJams,
                             Results(options.alternatives), options.boundsAutoApply);
        d.(loading := true, error := None, totals := None, legs := [],
           created := h.created + [params], onMap := d.onMap + {id}, ref := Some(id))
    case Success(_, active) =>
      (match active
       case None => h.(loading := false, error := Some(NoActiveRoute))
       case Some(a) => h.(totals := Some(Totals(a.distance, a.duration)), legs := LegsOf(a.paths), loading := false))
    case Fail(_) => h.(loading := false, error := Some(RouteFailed))
    case Cleanup => Detach(h)
  }

  /** The map shows exactly the hook's current route, and nothing when it has none. */
  predicate OwnsMap(h: Hook) {
    (h.ref.None? ==> h.onMap == {})
    && (h.ref.Some? ==> h.onMap == {h.ref.value} && h.ref.value < |h.created|)
  }

  lemma StepOwnsMap(h: Hook, e: Event)
    requires OwnsMap(h) && Possible(h, e)
    ensures OwnsMap(Step(h, e))
  {
  }

  /** Events that can occur one after another. */
  predicate PossibleRun(h: Hook, events: seq<Event>)
    decreases |events|
  {
    |events| == 0 || (Possible(h, events[0]) && PossibleRun(Step(h, events[0]), events[1..]))
  }

  function Run(h: Hook, events: seq<Event>): Hook
    requires PossibleRun(h, events)
    decreases |events|
  {
    if |events| == 0 then h else Run(Step(h, events[0]), events[1..])
  }

  /** Along any run from the initial state, at most one of the hook's routes is ever on the map. */
  lemma {:induction false} RunOwnsMap(h: Hook, events: seq<Event>)
    requires OwnsMap(h) && PossibleRun(h, events)
    ensures OwnsMap(Run(h, events)) && |Run(h, events).onMap| <= 1
    decreases |events|
  {
    if |events| > 0 {
      StepOwnsMap(h, events[0]);
      RunOwnsMap(Step(h, events[0]), events[1..]);
    } else {
      if h.ref.Some? {
        assert h.onMap == {h.ref.value};
      }
    }
  }

  lemma InitialOwnsMap()
    ensures OwnsMap(Initial)
  {
  }

  /**
   * A request that fails after a newer effect has replaced its route still
   * ends the new route's loading state and reports an error.
   */
  lemma StaleFailStillApplies(h: Hook, points: seq<Coords>, options: Options)
    requires |points| >= 2 && h.ref.Some? && OwnsMap(h)
    ensures var old_id := h.ref.value;
      var h1 := Step(h, Effect(true, true, points, options));
      var h2 := Step(h1, Fail(old_id));
      old_id !in h1.onMap && h1.loading && !h2.loading && h2.error == Some(RouteFailed)
  {
  }

  /** A late success from a replaced route overwrites the totals the hook shows. */
  lemma StaleSuccessStillApplies(h: Hook, points: seq<Coords>, options: Options, a: ActiveRoute)
    requires |points| >= 2 && h.ref.Some? && OwnsMap(h)
    ensures var old_id := h.ref.value;
      var h1 := Step(h, Effect(true, true, points, options));
      var h2 := Step(h1, Success(old_id, Some(a)));
      h1.ref != Some(old_id) && h2.totals == Some(Totals(a.distance, a.duration)) && h2.legs == LegsOf(a.paths)
  {
  }

  /** Cleanup followed by the next effect with at least two points leaves exactly the new route on the map. */
  lemma CleanupThenEffect(h: Hook, points: seq<Coords>, options: Options)
    requires OwnsMap(h) && |points| >= 2
    ensures var r := Step(Step(h, Cleanup), Effect(true, true, points, options));
      r.onMap == {|h.created|} && r.ref == Some(|h.created|)
  {
  }
}

=== FILE: osrm.dfy ===
/**
 * The routing service's client: the travel time and distance between two
 * points, asked of the routing server at most `retries` times and cached by
 * the pair of points, and the two n×n matrices built from it.  The network is
 * an oracle: `net(k)` is how the server answers the service's k-th request.
 */
module Osrm {
  import opened Wrappers

  /** The cache key: the two points (`_get_route_data` rounds the coordinates to 5 decimals first). */
  datatype Key = Key(lat1: real, lon1: real, lat2: real, lon2: real)

  /** Minutes and kilometres. */
  datatype RouteData = RouteData(duration: real, distance: real)

  /** A route as the server reports it: seconds and metres, either of which may be missing. */
  datatype ServerRoute = ServerRoute(durationS: Option<real>, distanceM: Option<real>)

  /**
   * One request: it failed (an exception, a status other than 200, or a body
   * that is not JSON), or the server answered with its routes (none when the
   * body has no "routes" key).
   */
  datatype Attempt = Failed | Answered(routes: seq<ServerRoute>)

  /** The cache and the number of requests sent so far. */
  datatype Service = Service(cache: map<Key, RouteData>, sent: nat)

  const Retries: nat := 3

  /** What is used when every attempt fails: 10 minutes, 5 km. */
  const Fallback := RouteData(10.0, 5.0)

  /**
   * An answer the loop returns from: at least one route, and the first has
   * both values (reading a missing one raises, and the attempt counts as failed).
   */
  predicate Usable(a: Attempt) {
    a.Answered? && |a.routes| > 0 && a.routes[0].durationS.Some? && a.routes[0].distanceM.Some?
  }

  /** The first route's seconds as minutes and metres as kilometres. */
  function Convert(r: ServerRoute): (d: RouteData)
    requires r.durationS.Some? && r.distanceM.Some?
    ensures d.duration * 60.0 == r.durationS.value && d.distance * 1000.0 == r.distanceM.value
  {
    RouteData(r.durationS.value / 60.0, r.distanceM.value / 1000.0)
  }

  /** Up to `left` attempts from request number `sent` on; the first usable answer ends them. */
  function Attempts(net: nat -> Attempt, sent: nat, left: nat): (r: (Option<RouteData>, nat))
    ensures sent <= r.1 <= sent + left
    ensures r.0.None? ==> r.1 == sent + left && forall k :: sent <= k < sent + left ==> !Usable(net(k))
    ensures r.0.Some? ==> sent < r.1 && Usable(net(r.1 - 1)) && r.0.value == Convert(net(r.1 - 1).routes[0])
    ensures r.0.Some? ==> forall k :: sent <= k < r.1 - 1 ==> !Usable(net(k))
    decreases left
  {
    if left == 0 then (None, sent)
    else if Usable(net(sent)) then (Some(Convert(net(sent).routes[0])), sent + 1)
    else Attempts(net, sent + 1, left - 1)
  }

  /** Every entry of `a` is in `b` with the same value. */
  predicate Extends(a: map<Key, RouteData>, b: map<Key, RouteData>) {
    forall k :: k in a ==> k in b && b[k] == a[k]
  }

  /**
   * `_get_route_data`: a cached pair is answered from the cache without a
   * request; otherwise the first usable answer within `retries` attempts, or
   * the fallback, is cached and returned.
   */
  function GetRouteData(s: Service, net: nat -> Attempt, key: Key, retries: nat): (r: (RouteData, Service))
    ensures key in s.cache ==> r == (s.cache[key], s)
    ensures r.1.cache == s.cache[key := r.0]
    ensures Extends(s.cache, r.1.cache)
    ensures s.sent <= r.1.sent <= s.sent + retries
    ensures key !in s.cache && (forall k :: s.sent <= k < s.sent + retries ==> !Usable(net(k))) ==>
      r.0 == Fallback && r.1.sent == s.sent + retries
    ensures key !in s.cache && r.1.sent > s.sent && Usable(net(r.1.sent - 1)) ==>
      r.0 == Convert(net(r.1.sent - 1).routes[0])
    ensures key !in s.cache ==>
      var (found, sent) := Attempts(net, s.sent, retries);
      r.0 == found.GetOr(Fallback) && r.1.sent == sent
  {
    if key in s.cache then
      assert s.cache[key := s.cache[key]] == s.cache;
      (s.cache[key], s)
    else
      var (found, sent) := Attempts(net, s.sent, retries);
      var d := found.GetOr(Fallback);
      (d, Service(s.cache[key := d], sent))
  }

  /** `get_duration` and `get_distance` read the same entry. */
  lemma DurationAndDistanceShareEntry(s: Service, net: nat -> Attempt, key: Key)
    ensures var (d, t) := GetRouteData(s, net, key, Retries);
      GetRouteData(t, net, key, Retries) == (d, t)
  {
  }

  /** `clear_cache` and `get_cache_size`. */
  function ClearCache(s: Service): (r: Service)
    ensures r.cache == map[] && r.sent == s.sent
  {
    s.(cache := map[])
  }

  function CacheSize(s: Service): nat {
    |s.cache|
  }

  /** A miss grows the cache by one entry, a hit leaves it as it is; a cleared cache is empty. */
  lemma CacheSizeGrowsByMisses(s: Service, net: nat -> Attempt, key: Key)
    ensures CacheSize(GetRouteData(s, net, key, Retries).1) == CacheSize(s) + (if key in s.cache then 0 else 1)
    ensures CacheSize(ClearCache(s)) == 0
  {
    var t := GetRouteData(s, net, key, Retries).1;
    if key !in s.cache {
      assert t.cache.Keys == s.cache.Keys + {key};
    }
  }

  /** Which half of the route data a matrix holds. */
  datatype Field = Duration | Distance

  function Pick(d: RouteData, f: Field): real {
    match f
    case Duration => d.duration
    case Distance => d.distance
  }

  function KeyOf(coords: seq<(real, real)>, i: nat, j: nat): Key
    requires i < |coords| && j < |coords|
  {
    Key(coords[i].0, coords[i].1, coords[j].0, coords[j].1)
  }

  predicate AllCached(cache: map<Key, RouteData>, coords: seq<(real, real)>) {
    forall i, j :: 0 <= i < |coords| && 0 <= j < |coords| && i != j ==> KeyOf(coords, i, j) in cache
  }

  /** The matrix reads the cache: n×n, zero on the diagonal, entry [i][j] the pair's cached value. */
  predicate ReadsCache(m: seq<seq<real>>, coords: seq<(real, real)>, cache: map<Key, RouteData>, f: Field) {
    |m| == |coords|
    && (forall i :: 0 <= i < |m| ==> |m[i]| == |coords| && m[i][i] == 0.0)
    && (forall i, j :: 0 <= i < |coords| && 0 <= j < |coords| && i != j ==>
          KeyOf(coords, i, j) in cache && m[i][j] == Pick(cache[KeyOf(coords, i, j)], f))
  }

  /** Row `i` of a matrix: zero at `i`, the cached value of the pair everywhere else. */
  method BuildRow(s: Service, net: nat -> Attempt, coords: seq<(real, real)>, i: nat, f: Field)
    returns (row: seq<real>, t: Service)
    requires i < |coords|
    ensures |row| == |coords| && row[i] == 0.0
    ensures forall b :: 0 <= b < |coords| && b != i ==>
      KeyOf(coords, i, b) in t.cache && row[b] == Pick(t.cache[KeyOf(coords, i, b)], f)
    ensures Extends(s.cache, t.cache)
    ensures AllCached(s.cache, coords) ==> t == s
    ensures t.sent <= s.sent + Retries * |coords|
  {
    var n := |coords|;
    row := [];
    t := s;
    var j := 0;
    while j < n
      invariant 0 <= j <= n && |row| == j
      invariant i < j ==> row[i] == 0.0
      invariant forall b :: 0 <= b < j && b != i ==>
        KeyOf(coords, i, b) in t.cache && row[b] == Pick(t.cache[KeyOf(coords, i, b)], f)
      invariant Extends(s.cache, t.cache)
      invariant AllCached(s.cache, coords) ==> t == s
      invariant t.sent <= s.sent + Retries * j
    {
      if i != j {
        var (d, t') := GetRouteData(t, net, KeyOf(coords, i, j), Retries);
        t := t';
        row := row + [Pick(d, f)];
      } else {
        row := row + [0.0];
      }
      j := j + 1;
    }
  }

  /** `build_time_matrix` (`f` = Duration) and `build_distance_matrix` (`f` = Distance). */
  method BuildMatrix(s: Service, net: nat -> Attempt, coords: seq<(real, real)>, f: Field)
    returns (m: seq<seq<real>>, t: Service)
    ensures ReadsCache(m, coords, t.cache, f)
    ensures Extends(s.cache, t.cache)
    ensures AllCached(t.cache, coords)
    ensures AllCached(s.cache, coords) ==> t == s
    ensures t.sent <= s.sent + Retries * |coords| * |coords|
  {
    var n := |coords|;
    m := [];
    t := s;
    var i := 0;
    while i < n
      invariant 0 <= i <= n && |m| == i
      invariant forall a :: 0 <= a < i ==> |m[a]| == n && m[a][a] == 0.0
      invariant forall a, b :: 0 <= a < i && 0 <= b < n && a != b ==>
        KeyOf(coords, a, b) in t.cache && m[a][b] == Pick(t.cache[KeyOf(coords, a, b)], f)
      invariant Extends(s.cache, t.cache)
      invariant AllCached(s.cache, coords) ==> t == s
      invariant t.sent <= s.sent + Retries * (i * n)
    {
      var row, t' := BuildRow(t, net, coords, i, f);
      t := t';
      m := m + [row];
      assert i * n + n == (i + 1) * n;
      i := i + 1;
    }
  }

  /**
   * The optimizer builds the time matrix and then the distance matrix of the
   * same points: the second sends no request, and both read the same entries.
   */
  method BuildMatrices(s: Service, net: nat -> Attempt, coords: seq<(real, real)>)
    returns (time: seq<seq<real>>, dist: seq<seq<real>>, t: Service)
    ensures ReadsCache(time, coords, t.cache, Duration) && ReadsCache(dist, coords, t.cache, Distance)
    ensures t.sent <= s.sent + Retries * |coords| * |coords|
    ensures Extends(s.cache, t.cache)
  {
    var mid: Service;
    time, mid := BuildMatrix(s, net, coords, Duration);
    dist, t := BuildMatrix(mid, net, coords, Distance);
    assert t == mid;
  }
}

=== FILE: routes.dfy ===
/**
 * The `POST /routes/analyze` handler: it validates the request in a fixed
 * order, turns the clients into the optimizer's nodes, runs the optimizer and
 * maps each outcome to an HTTP status: 200 with the analysis, 400 for the
 * first validation that fails, 500 when the optimizer raises.
 */
module Routes {
  import opened Wrappers
  import opened Text
  import Scheduler

  /** `ClientData`; a missing `id` is `None`. */
  datatype ClientData = ClientData(
    address: string,
    latitude: real,
    longitude: real,
    level: string,
    workStart: string,
    workEnd: string,
    lunchStart: string,
    lunchEnd: string,
    id: Option<string>)

  datatype AnalysisRequest = AnalysisRequest(
    clients: seq<ClientData>,
    startPoint: Option<Scheduler.StartPoint>,
    startTime: Option<string>,
    startDay: Option<string>)

  const MaxClients: nat := 50

  const ValidDays: seq<string> := ["monday", "tuesday", "wednesday", "thursday", "friday", "saturday", "sunday"]

  const ValidLevels: seq<string> := ["vip", "standard"]

  /** Why a request is refused with status 400; clients are numbered from 1, as in the messages. */
  datatype Rejection =
    | NoClients
    | TooManyClients
    | BadTime
    | BadDay
    | BadLatitude(client: nat)
    | BadLongitude(client: nat)
    | BadLevel(client: nat)

  /**
   * The endpoint's answer; `Unprocessable` is the framework refusing a body
   * that does not fit the schema, and `NoReply` is a handler that never
   * answers because the optimizer is still looping.
   */
  datatype Reply = Analyzed(analysis: Scheduler.Analysis) | Rejected(reason: Rejection) | ServerError | Unprocessable | NoReply

  function Status(r: Reply): (code: nat)
    requires !r.NoReply?
    ensures code == 200 <==> r.Analyzed?
    ensures code == 400 <==> r.Rejected?
    ensures code == 500 <==> r.ServerError?
    ensures code == 422 <==> r.Unprocessable?
  {
    match r
    case Analyzed(_) => 200
    case Rejected(_) => 400
    case ServerError => 500
    case Unprocessable => 422
  }

  /** Text Python treats as true: present and non-empty. */
  predicate Given(s: Option<string>) {
    s.Some? && s.value != ""
  }

  // ------------------------------------------------------------ start time

  /** "HH:MM" with the hour 00 to 23 and the minute 00 to 59. */
  predicate IsClockText(b: string) {
    |b| == 5 && b[2] == ':' && IsDigit(b[1]) && IsDigit(b[4]) && '0' <= b[3] <= '5'
    && (b[0] == '0' || b[0] == '1' || (b[0] == '2' && b[1] <= '3'))
  }

  /**
   * `re.match(r'^([01]\d|2[0-3]):([0-5]\d)$', s)`: `$` also matches just
   * before a final line feed, so "HH:MM\n" is accepted as well.
   */
  predicate IsTimeFormat(s: string) {
    IsClockText(s) || (|s| == 6 && s[5] == '\n' && IsClockText(s[..5]))
  }

  /** `int()` of two digits followed by a line feed: the line feed is white space and is stripped. */
  lemma PyIntOfDigitsNewline(d: string)
    requires |d| == 2 && AllDigits(d)
    ensures Scheduler.PyInt(d + "\n") == Some(DigitsValue(d) as int)
  {
    var s := d + "\n";
    assert !Scheduler.IsPySpace(s[0]);
    assert Scheduler.PyStripStart(s) == s;
    assert s[..|s| - 1] == d;
    assert Scheduler.PyStripEnd(d) == d;
    assert Scheduler.PyStripEnd(s) == d;
    assert !AllDigits(s) by { assert !IsDigit(s[2]); }
  }

  /** The hour and minute an accepted time spells. */
  function HourOf(s: string): (h: nat)
    requires IsTimeFormat(s)
    ensures h < 24
  {
    DigitValue(s[0]) * 10 + DigitValue(s[1])
  }

  function MinuteOf(s: string): (m: nat)
    requires IsTimeFormat(s)
    ensures m < 60
  {
    DigitValue(s[3]) * 10 + DigitValue(s[4])
  }

  /** The optimizer's clock from two parts that `int()` reads as an hour and a minute. */
  lemma ClockOfTwoParts(parts: seq<string>, h: nat, m: nat)
    requires |parts| == 2 && h < 24 && m < 60
    requires Scheduler.PyInt(parts[0]) == Some(h as int) && Scheduler.PyInt(parts[1]) == Some(m as int)
    ensures Scheduler.ClockOfParts(parts) == Some(h * 60 + m)
  {
  }

  /** The same, once the start time has been split around its first ':'. */
  lemma StartClockOfParts(s: string, hh: string, mm: string, h: nat, m: nat)
    requires Split(s, ':') == [hh, mm] && h < 24 && m < 60
    requires Scheduler.PyInt(hh) == Some(h as int) && Scheduler.PyInt(mm) == Some(m as int)
    ensures Scheduler.StartClock(Some(s)) == Some(h * 60 + m)
  {
    var parts := [hh, mm];
    assert parts[0] == hh && parts[1] == mm;
    ClockOfTwoParts(parts, h, m);
  }

  /** The two-digit fields of "HH:MM" and their values. */
  lemma ClockTextFields(b: string)
    requires IsClockText(b)
    ensures AllDigits(b[..2]) && AllDigits(b[3..5]) && ':' !in b[..2] && ':' !in b[3..5]
    ensures DigitsValue(b[..2]) == HourOf(b) && DigitsValue(b[3..5]) == MinuteOf(b)
  {
    TwoDigitsValue(b[..2]);
    TwoDigitsValue(b[3..5]);
  }

  /** "HH:MM" splits at its colon into the two fields, which `int()` reads as the hour and the minute. */
  lemma ClockTextPieces(b: string)
    requires IsClockText(b)
    ensures Split(b, ':') == [b[..2], b[3..5]]
    ensures Scheduler.PyInt(b[..2]) == Some(HourOf(b) as int) && Scheduler.PyInt(b[3..5]) == Some(MinuteOf(b) as int)
  {
    ClockTextFields(b);
    assert b == b[..2] + [':'] + b[3..5];
    SplitTwo(b[..2], b[3..5], ':');
  }

  /** The same for "HH:MM" followed by a line feed, which stays with the minute field. */
  lemma NewlineClockTextSplits(b: string)
    requires IsClockText(b)
    ensures Split(b + "\n", ':') == [b[..2], b[3..5] + "\n"]
  {
    var hh, mn := b[..2], b[3..5] + "\n";
    assert ':' !in hh && ':' !in mn;
    assert b + "\n" == hh + [':'] + mn;
    SplitTwo(hh, mn, ':');
  }

  lemma NewlineMinuteParses(b: string)
    requires IsClockText(b)
    ensures Scheduler.PyInt(b[3..5] + "\n") == Some(MinuteOf(b) as int)
  {
    ClockTextFields(b);
    PyIntOfDigitsNewline(b[3..5]);
  }

  lemma ClockTextParses(b: string, h: nat, m: nat)
    requires IsClockText(b) && h == HourOf(b) && m == MinuteOf(b)
    ensures Scheduler.StartClock(Some(b)) == Some(h * 60 + m)
  {
    ClockTextPieces(b);
    StartClockOfParts(b, b[..2], b[3..5], h, m);
  }

  lemma NewlineClockTextParses(b: string, h: nat, m: nat)
    requires IsClockText(b) && h == HourOf(b) && m == MinuteOf(b)
    ensures Scheduler.StartClock(Some(b + "\n")) == Some(h * 60 + m)
  {
    ClockTextPieces(b);
    NewlineClockTextSplits(b);
    NewlineMinuteParses(b);
    StartClockOfParts(b + "\n", b[..2], b[3..5] + "\n", h, m);
  }

  /**
   * Every time the handler accepts is one the optimizer reads back as that
   * hour (`h`) and minute (`m`).
   */
  lemma AcceptedTimeParses(s: string, h: nat, m: nat)
    requires IsTimeFormat(s) && h == HourOf(s) && m == MinuteOf(s)
    ensures Scheduler.StartClock(Some(s)) == Some(h * 60 + m)
  {
    if IsClockText(s) {
      ClockTextParses(s, h, m);
    } else {
      var b := s[..5];
      assert s == b + "\n";
      NewlineClockTextParses(b, h, m);
    }
  }

  // ------------------------------------------------------------ validation

  /** The per-client checks, in order: latitude, longitude, level. */
  function ClientProblem(c: ClientData, number: nat): (r: Option<Rejection>)
    ensures r.None? <==> -90.0 <= c.latitude <= 90.0 && -180.0 <= c.longitude <= 180.0 && ToLower(c.level) in ValidLevels
  {
    if !(-90.0 <= c.latitude <= 90.0) then Some(BadLatitude(number))
    else if !(-180.0 <= c.longitude <= 180.0) then Some(BadLongitude(number))
    else if ToLower(c.level) !in ValidLevels then Some(BadLevel(number))
    else None
  }

  /** The first client, from index `from` on, that fails a check. */
  function FirstBadClient(cs: seq<ClientData>, from: nat): (r: Option<Rejection>)
    requires from <= |cs|
    ensures r.None? <==> forall k :: from <= k < |cs| ==> ClientProblem(cs[k], k + 1).None?
    ensures r.Some? ==> exists k :: (from <= k < |cs| && r == ClientProblem(cs[k], k + 1)
      && forall i :: from <= i < k ==> ClientProblem(cs[i], i + 1).None?)
    decreases |cs| - from
  {
    if from == |cs| then None
    else
      var p := ClientProblem(cs[from], from + 1);
      if p.Some? then p else FirstBadClient(cs, from + 1)
  }

  /** The handler's checks in the order it makes them; `None` when all pass. */
  function Validate(req: AnalysisRequest): (r: Option<Rejection>)
    ensures |req.clients| == 0 ==> r == Some(NoClients)
    ensures |req.clients| > MaxClients ==> r == Some(TooManyClients)
    ensures 1 <= |req.clients| <= MaxClients && Given(req.startTime) && !IsTimeFormat(req.startTime.value) ==>
      r == Some(BadTime)
    ensures (1 <= |req.clients| <= MaxClients && (Given(req.startTime) ==> IsTimeFormat(req.startTime.value))
             && Given(req.startDay) && ToLower(req.startDay.value) !in ValidDays) ==>
      r == Some(BadDay)
    ensures r == Some(BadDay) ==>
      1 <= |req.clients| <= MaxClients && (Given(req.startTime) ==> IsTimeFormat(req.startTime.value))
      && Given(req.startDay) && ToLower(req.startDay.value) !in ValidDays
    ensures (1 <= |req.clients| <= MaxClients && (Given(req.startTime) ==> IsTimeFormat(req.startTime.value))
             && (Given(req.startDay) ==> ToLower(req.startDay.value) in ValidDays)) ==>
      r == FirstBadClient(req.clients, 0)
  {
    if |req.clients| == 0 then Some(NoClients)
    else if |req.clients| > MaxClients then Some(TooManyClients)
    else if Given(req.startTime) && !IsTimeFormat(req.startTime.value) then Some(BadTime)
    else if Given(req.startDay) && ToLower(req.startDay.value) !in ValidDays then Some(BadDay)
    else FirstBadClient(req.clients, 0)
  }

  /** What a request must satisfy to pass every check. */
  predicate WellFormed(req: AnalysisRequest) {
    1 <= |req.clients| <= MaxClients
    && (Given(req.startTime) ==> IsTimeFormat(req.startTime.value))
    && (Given(req.startDay) ==> ToLower(req.startDay.value) in ValidDays)
    && forall k :: 0 <= k < |req.clients| ==>
         -90.0 <= req.clients[k].latitude <= 90.0 && -180.0 <= req.clients[k].longitude <= 180.0
         && ToLower(req.clients[k].level) in ValidLevels
  }

  lemma ValidateAcceptsWellFormed(req: AnalysisRequest)
    ensures Validate(req).None? <==> WellFormed(req)
  {
    if 1 <= |req.clients| <= MaxClients {
      var fb := FirstBadClient(req.clients, 0);
      assert fb.None? <==> forall k :: 0 <= k < |req.clients| ==> ClientProblem(req.clients[k], k + 1).None?;
    }
  }

  /** A bad client is reported only when every check before it passed. */
  lemma ClientRejectionIsFirst(req: AnalysisRequest, k: nat)
    requires k < |req.clients| && Validate(req) == ClientProblem(req.clients[k], k + 1) && Validate(req).Some?
    requires forall i :: 0 <= i < k ==> ClientProblem(req.clients[i], i + 1).None?
    ensures |req.clients| <= MaxClients
    ensures Given(req.startTime) ==> IsTimeFormat(req.startTime.value)
    ensures Given(req.startDay) ==> ToLower(req.startDay.value) in ValidDays
  {
    assert Validate(req) != Some(NoClients) && Validate(req) != Some(TooManyClients);
    assert Validate(req) != Some(BadTime) && Validate(req) != Some(BadDay);
  }

  /** After validation, the day the optimizer reads traffic for is one of the seven weekday names. */
  lemma ValidatedDayIsWeekday(req: AnalysisRequest, today: string)
    requires Validate(req).None? && Given(req.startDay)
    ensures Scheduler.DayOfWeek(req.startDay, today) in ValidDays
  {
    ValidateAcceptsWellFormed(req);
  }

  /** After validation, every client is served 25 minutes when its level is "vip" in any case, 15 otherwise. */
  lemma ValidatedLevelsService(req: AnalysisRequest, k: nat)
    requires Validate(req).None? && k < |req.clients|
    ensures ToLower(req.clients[k].level) == "standard" ==> Scheduler.VisitDuration(req.clients[k].level) == 15
    ensures ToLower(req.clients[k].level) != "standard" ==> Scheduler.VisitDuration(req.clients[k].level) == 25
  {
    ValidateAcceptsWellFormed(req);
    assert ToLower(req.clients[k].level) in ValidLevels;
  }

  // ------------------------------------------------------------ the call

  /** The client as the optimizer's node; a missing or empty id becomes "client_<index>", counted from 0. */
  function NodeOf(c: ClientData, index: nat): (n: Scheduler.Node)
    ensures Given(c.id) ==> n.id == c.id.value
    ensures !Given(c.id) ==> n.id == "client_" + NatToString(index)
    ensures n.address == c.address && n.latitude == c.latitude && n.longitude == c.longitude && n.level == c.level
    ensures n.workStart == c.workStart && n.workEnd == c.workEnd && n.lunchStart == c.lunchStart && n.lunchEnd == c.lunchEnd
  {
    var id := if Given(c.id) then c.id.value else "client_" + NatToString(index);
    Scheduler.Node(c.address, c.latitude, c.longitude, c.level, c.workStart, c.workEnd, c.lunchStart, c.lunchEnd, id)
  }

  function NodesOf(cs: seq<ClientData>): (r: seq<Scheduler.Node>)
    ensures |r| == |cs|
    ensures forall k :: 0 <= k < |cs| ==> r[k] == NodeOf(cs[k], k)
  {
    seq(|cs|, k requires 0 <= k < |cs| => NodeOf(cs[k], k))
  }

  /**
   * `analyze_route`, with the optimizer's travel times, scores and distances
   * as parameters: validation first, then the optimizer, whose failure is a 500.
   */
  function Analyze(req: AnalysisRequest, travel: (nat, nat, nat) -> nat, score: (nat, nat) -> real,
                   distance: (nat, nat) -> real, fuel: nat): (r: Reply)
    ensures Validate(req).Some? <==> r.Rejected?
    ensures r.Rejected? ==> r.reason == Validate(req).value
    ensures r.ServerError? <==> Validate(req).None? && Scheduler.StartClock(req.startTime).None?
    ensures r.Analyzed? ==>
      r.analysis.stops != [] && |r.analysis.stops| <= |req.clients| + (if req.startPoint.Some? then 1 else 0)
    ensures r.Analyzed? ==> |r.analysis.stops| == |req.clients| + (if req.startPoint.Some? then 1 else 0)
    ensures r.Analyzed? ==>
      var nodes := Scheduler.Nodes(NodesOf(req.clients), req.startPoint);
      Scheduler.StartClock(req.startTime).Some?
      && Scheduler.Answers(nodes, Scheduler.EnvOf(nodes, travel, score, distance),
                           Scheduler.StartClock(req.startTime).value, fuel, r.analysis)
    ensures r.NoReply? ==> Validate(req).None? && Scheduler.StartClock(req.startTime).Some?
    ensures !r.Unprocessable?
  {
    match Validate(req)
    case Some(why) => Rejected(why)
    case None =>
      var nodes := NodesOf(req.clients);
      Scheduler.OptimizeAnswers(nodes, req.startPoint, req.startTime, travel, score, distance, fuel);
      match Scheduler.Optimize(nodes, req.startPoint, req.startTime, travel, score, distance, fuel)
      case Ok(a) => Analyzed(a)
      case Err(Unfinished) => NoReply
      case Err(_) => ServerError
  }

  /**
   * A well-formed request with a start time is neither refused nor a server
   * error: it gets its analysis, or no answer while the optimizer waits.
   */
  lemma WellFormedWithTimeIsNeverRefused(req: AnalysisRequest, travel: (nat, nat, nat) -> nat,
                                         score: (nat, nat) -> real, distance: (nat, nat) -> real, fuel: nat)
    requires WellFormed(req) && Given(req.startTime)
    ensures var r := Analyze(req, travel, score, distance, fuel);
      r.Analyzed? || r.NoReply?
  {
    ValidateAcceptsWellFormed(req);
    var t := req.startTime.value;
    AcceptedTimeParses(t, HourOf(t), MinuteOf(t));
  }

  /** An analysis, once given, does not depend on the cutoff: any larger one gives the same answer. */
  lemma AnalysisMoreFuel(req: AnalysisRequest, travel: (nat, nat, nat) -> nat, score: (nat, nat) -> real,
                         distance: (nat, nat) -> real, fuel: nat, extra: nat)
    ensures Analyze(req, travel, score, distance, fuel).Analyzed? ==>
      Analyze(req, travel, score, distance, fuel + extra) == Analyze(req, travel, score, distance, fuel)
  {
    Scheduler.OptimizeMoreFuel(NodesOf(req.clients), req.startPoint, req.startTime, travel, score, distance, fuel, extra);
  }

  /**
   * A well-formed request with a client whose working hours are empty is never
   * answered, unless that client is the route's first node.
   */
  lemma NeverOpenClientNoReply(req: AnalysisRequest, travel: (nat, nat, nat) -> nat, score: (nat, nat) -> real,
                               distance: (nat, nat) -> real, fuel: nat, k: nat)
    requires WellFormed(req) && Given(req.startTime) && k < |req.clients|
    requires req.startPoint.Some? || k > 0
    requires var w := Scheduler.WindowOf(NodeOf(req.clients[k], k)); w.workEnd <= w.workStart
    ensures Analyze(req, travel, score, distance, fuel).NoReply?
  {
    ValidateAcceptsWellFormed(req);
    var t := req.startTime.value;
    AcceptedTimeParses(t, HourOf(t), MinuteOf(t));
    var j := if req.startPoint.Some? then k + 1 else k;
    ClientNode(req.clients, req.startPoint, k);
    Scheduler.NeverOpenNeverAnswered(NodesOf(req.clients), req.startPoint, req.startTime, travel, score, distance, fuel, j);
    UnfinishedIsNoReply(req, travel, score, distance, fuel);
  }

  /** Client `k` is the optimizer's node `k`, or `k + 1` behind a start point. */
  lemma ClientNode(cs: seq<ClientData>, sp: Option<Scheduler.StartPoint>, k: nat)
    requires k < |cs|
    ensures var j := if sp.Some? then k + 1 else k;
      j < |Scheduler.Nodes(NodesOf(cs), sp)| && Scheduler.Nodes(NodesOf(cs), sp)[j] == NodeOf(cs[k], k)
  {
  }

  /** A validated request whose optimizer is still looping gets no answer. */
  lemma UnfinishedIsNoReply(req: AnalysisRequest, travel: (nat, nat, nat) -> nat, score: (nat, nat) -> real,
                            distance: (nat, nat) -> real, fuel: nat)
    ensures Validate(req).None?
            && Scheduler.Optimize(NodesOf(req.clients), req.startPoint, req.startTime, travel, score, distance, fuel)
               == Err(Scheduler.Unfinished) ==>
      Analyze(req, travel, score, distance, fuel).NoReply?
  {
  }

  // ------------------------------------------------------------ the request body

  /** A field of the JSON body: left out, sent as null, or sent with a value. */
  datatype Field<T> = Omitted | Null | Sent(value: T)

  /** A client as sent; the fields the schema gives a default may be left out. */
  datatype ClientBody = ClientBody(
    address: string,
    latitude: real,
    longitude: real,
    level: Field<string>,
    workStart: Field<string>,
    workEnd: Field<string>,
    lunchStart: Field<string>,
    lunchEnd: Field<string>,
    id: Field<string>)

  datatype RequestBody = RequestBody(
    clients: seq<ClientBody>,
    startPoint: Option<Scheduler.StartPoint>,
    startTime: Field<string>,
    startDay: Field<string>)

  /** A `str` field with a default: left out it takes the default, and null does not fit the schema. */
  function TextField(f: Field<string>, default: string): (r: Option<string>)
    ensures f.Null? <==> r.None?
    ensures f.Omitted? ==> r == Some(default)
    ensures f.Sent? ==> r == Some(f.value)
  {
    match f
    case Omitted => Some(default)
    case Null => None
    case Sent(v) => Some(v)
  }

  /** An `Optional[str]` field: left out it takes the default, and null is accepted as `None`. */
  function OptionalField(f: Field<string>, default: Option<string>): (r: Option<string>)
    ensures f.Omitted? ==> r == default
    ensures f.Null? ==> r.None?
    ensures f.Sent? ==> r == Some(f.value)
  {
    match f
    case Omitted => default
    case Null => None
    case Sent(v) => Some(v)
  }

  /** `ClientData` from the body: level "standard" and hours 09:00–18:00 with lunch 13:00–14:00 unless sent. */
  function DecodeClient(b: ClientBody): (r: Option<ClientData>)
    ensures r.None? <==> b.level.Null? || b.workStart.Null? || b.workEnd.Null? || b.lunchStart.Null? || b.lunchEnd.Null?
    ensures r.Some? ==>
      r.value.address == b.address && r.value.latitude == b.latitude && r.value.longitude == b.longitude
      && r.value.level == TextField(b.level, "standard").value
      && r.value.workStart == TextField(b.workStart, "09:00").value
      && r.value.workEnd == TextField(b.workEnd, "18:00").value
      && r.value.lunchStart == TextField(b.lunchStart, "13:00").value
      && r.value.lunchEnd == TextField(b.lunchEnd, "14:00").value
      && r.value.id == OptionalField(b.id, None)
  {
    var level, ws, we := TextField(b.level, "standard"), TextField(b.workStart, "09:00"), TextField(b.workEnd, "18:00");
    var ls, le := TextField(b.lunchStart, "13:00"), TextField(b.lunchEnd, "14:00");
    if level.None? || ws.None? || we.None? || ls.None? || le.None? then None
    else Some(ClientData(b.address, b.latitude, b.longitude, level.value, ws.value, we.value, ls.value, le.value,
                         OptionalField(b.id, None)))
  }

  /** `RouteAnalysisRequest` from the body: the start time defaults to "09:00", the day to none. */
  function Decode(body: RequestBody): (r: Option<AnalysisRequest>)
    ensures r.Some? <==> forall k :: 0 <= k < |body.clients| ==> DecodeClient(body.clients[k]).Some?
    ensures r.Some? ==>
      |r.value.clients| == |body.clients|
      && (forall k :: 0 <= k < |body.clients| ==> r.value.clients[k] == DecodeClient(body.clients[k]).value)
      && r.value.startPoint == body.startPoint
      && r.value.startTime == OptionalField(body.startTime, Some("09:00"))
      && r.value.startDay == OptionalField(body.startDay, None)
  {
    if forall k :: 0 <= k < |body.clients| ==> DecodeClient(body.clients[k]).Some? then
      var cs := seq(|body.clients|, k requires 0 <= k < |body.clients| => DecodeClient(body.clients[k]).value);
      Some(AnalysisRequest(cs, body.startPoint, OptionalField(body.startTime, Some("09:00")),
                           OptionalField(body.startDay, None)))
    else None
  }

  /** The endpoint on a body: a body that does not fit the schema is refused before the handler runs. */
  function Handle(body: RequestBody, travel: (nat, nat, nat) -> nat, score: (nat, nat) -> real,
                  distance: (nat, nat) -> real, fuel: nat): (r: Reply)
    ensures r.Unprocessable? <==> Decode(body).None?
    ensures Decode(body).Some? ==> r == Analyze(Decode(body).value, travel, score, distance, fuel)
  {
    match Decode(body)
    case None => Unprocessable
    case Some(req) => Analyze(req, travel, score, distance, fuel)
  }

  /** A client that leaves out every field with a default gets the schema's defaults. */
  lemma OmittedClientFieldsTakeDefaults(b: ClientBody)
    requires b.level.Omitted? && b.workStart.Omitted? && b.workEnd.Omitted?
    requires b.lunchStart.Omitted? && b.lunchEnd.Omitted? && b.id.Omitted?
    ensures DecodeClient(b) == Some(ClientData(b.address, b.latitude, b.longitude, "standard",
                                               "09:00", "18:00", "13:00", "14:00", None))
  {
  }

  /**
   * A request that leaves out the start time starts at 09:00 and, when
   * otherwise valid, is neither refused nor a server error.
   */
  lemma OmittedStartTimeStartsAtNine(body: RequestBody, travel: (nat, nat, nat) -> nat,
                                     score: (nat, nat) -> real, distance: (nat, nat) -> real, fuel: nat)
    requires body.startTime.Omitted? && Decode(body).Some? && WellFormed(Decode(body).value)
    ensures Decode(body).value.startTime == Some("09:00")
    ensures var r := Handle(body, travel, score, distance, fuel);
      r.Analyzed? || r.NoReply?
  {
    WellFormedWithTimeIsNeverRefused(Decode(body).value, travel, score, distance, fuel);
  }

  /**
   * A start time sent as null or as "" passes validation, and then the
   * optimizer cannot read its clock: the answer is a 500, not a 400.
   */
  lemma NullStartTimeIsServerError(body: RequestBody, travel: (nat, nat, nat) -> nat,
                                   score: (nat, nat) -> real, distance: (nat, nat) -> real, fuel: nat)
    requires body.startTime.Null? || body.startTime == Sent("")
    requires Decode(body).Some? && WellFormed(Decode(body).value)
    ensures Handle(body, travel, score, distance, fuel).ServerError?
    ensures Status(Handle(body, travel, score, distance, fuel)) == 500
  {
    ValidateAcceptsWellFormed(Decode(body).value);
  }
}

=== FILE: scheduler.dfy ===
/**
 * The back end's greedy time-window scheduler.  Node 0 is where the route
 * starts (the start point when one is given, the first client otherwise).
 * From the node it is at, the route moves to the unvisited node with the best
 * score among those whose time window is open on arrival; when none is open
 * but some node is closed, it waits 15 minutes and looks again.
 *
 * Times are whole minutes.  The clock counts from midnight of the start day
 * and keeps counting past midnight; a time of day is the clock modulo 1440.
 * Travel times (with traffic), the network's score and the distances are
 * parameters of the model.
 */
module Scheduler {
  import opened Wrappers
  import opened Text
  import Clock
  import Domain
  import Traffic
  import StableSort

  /** One node of the problem: a client, or the start point. */
  datatype Node = Node(
    address: string,
    latitude: real,
    longitude: real,
    level: string,
    workStart: string,
    workEnd: string,
    lunchStart: string,
    lunchEnd: string,
    id: string)

  datatype StartPoint = StartPoint(address: string, latitude: real, longitude: real)

  /** The start point as node 0: open from midnight until 23:59, an empty lunch, the level "start". */
  function StartNode(sp: StartPoint): (r: Node)
    ensures r.address == sp.address && r.latitude == sp.latitude && r.longitude == sp.longitude
    ensures r.level == "start" && r.id == "START"
  {
    Node(sp.address, sp.latitude, sp.longitude, "start", "00:00", "23:59", "23:59", "23:59", "START")
  }

  /** Service minutes: 25 for a level that lower-cases to "vip", 15 for any other level. */
  function VisitDuration(level: string): (r: nat)
    ensures r == 25 || r == 15
    ensures r == 25 <==> ToLower(level) == "vip"
  {
    if ToLower(level) == "vip" then 25 else 15
  }

  // ------------------------------------------------------------ time of day

  /** An hour as `strptime`'s `%H` reads it: one digit, or two digits from 00 to 23. */
  function HourField(s: string): (r: Option<nat>)
    ensures r.Some? ==> r.value < 24
    ensures r.Some? ==> AllDigits(s) && DigitsValue(s) == r.value && 1 <= |s| <= 2
  {
    if |s| == 1 && IsDigit(s[0]) then
      assert s[..0] == [];
      Some(DigitValue(s[0]))
    else if |s| == 2 && IsDigit(s[0]) && IsDigit(s[1])
            && (s[0] == '0' || s[0] == '1' || (s[0] == '2' && DigitValue(s[1]) <= 3)) then
      TwoDigitsValue(s);
      Some(DigitValue(s[0]) * 10 + DigitValue(s[1]))
    else None
  }

  /** A minute as `%M` reads it: one digit, or two digits from 00 to 59. */
  function MinuteField(s: string): (r: Option<nat>)
    ensures r.Some? ==> r.value < 60
    ensures r.Some? ==> AllDigits(s) && DigitsValue(s) == r.value && 1 <= |s| <= 2
  {
    if |s| == 1 && IsDigit(s[0]) then
      assert s[..0] == [];
      Some(DigitValue(s[0]))
    else if |s| == 2 && IsDigit(s[0]) && IsDigit(s[1]) && DigitValue(s[0]) <= 5 then
      TwoDigitsValue(s);
      Some(DigitValue(s[0]) * 10 + DigitValue(s[1]))
    else None
  }

  /**
   * `datetime.strptime(val, "%H:%M").time()`, in minutes since midnight: an
   * hour field, a colon and a minute field with nothing left over.
   */
  function ParseClock(s: string): (r: Option<nat>)
    ensures r.Some? ==> r.value < Clock.MinutesPerDay
    ensures r.Some? ==> ':' in s
  {
    match FindChar(s, ':')
    case None => None
    case Some(i) =>
      match (HourField(s[..i]), MinuteField(s[i + 1..]))
      case (Some(h), Some(m)) => Some(h * 60 + m)
      case _ => None
  }

  /** A field of two digits as `Clock.Format` writes it is read back by both field parsers. */
  lemma TwoDigitFields(s: string, v: nat)
    requires |s| == 2 && AllDigits(s) && DigitsValue(s) == v
    ensures v < 24 ==> HourField(s) == Some(v)
    ensures v < 60 ==> MinuteField(s) == Some(v)
  {
    TwoDigitsValue(s);
  }

  /** Every "HH:MM" the system writes parses back to the same time of day. */
  lemma ParseClockRoundTrip(m: nat)
    requires m < Clock.MinutesPerDay
    ensures ParseClock(Clock.Format(m)) == Some(m)
  {
    var t := Clock.Format(m);
    assert t == t[..2] + [':'] + t[3..];
    assert ':' !in t[..2] by {
      assert forall k :: 0 <= k < 2 ==> IsDigit(t[..2][k]);
    }
    assert FindChar(t, ':') == Some(2);
    TwoDigitFields(t[..2], DigitsValue(t[..2]));
    TwoDigitFields(t[3..], DigitsValue(t[3..]));
  }

  /** `parse_time_safe`: the parsed time, or the default when the text does not parse. */
  function ParseTimeSafe(val: string, default: nat): (r: nat)
    ensures ParseClock(val).Some? ==> r == ParseClock(val).value
    ensures ParseClock(val).None? ==> r == default
  {
    ParseClock(val).GetOr(default)
  }

  /** The defaults "09:00", "18:00", "13:00" and "14:00" in minutes. */
  const DefaultWorkStart: nat := 540
  const DefaultWorkEnd: nat := 1080
  const DefaultLunchStart: nat := 780
  const DefaultLunchEnd: nat := 840

  lemma DefaultsAreTheirText()
    ensures ParseClock("09:00") == Some(DefaultWorkStart) && ParseClock("18:00") == Some(DefaultWorkEnd)
    ensures ParseClock("13:00") == Some(DefaultLunchStart) && ParseClock("14:00") == Some(DefaultLunchEnd)
  {
    ParseClockRoundTrip(540);
    ParseClockRoundTrip(1080);
    ParseClockRoundTrip(780);
    ParseClockRoundTrip(840);
    assert Clock.Format(540) == "09:00";
    assert Clock.Format(1080) == "18:00";
    assert Clock.Format(780) == "13:00";
    assert Clock.Format(840) == "14:00";
  }

  /** A node's four times as `can_visit` reads them. */
  datatype Window = Window(workStart: nat, workEnd: nat, lunchStart: nat, lunchEnd: nat)

  function WindowOf(n: Node): (w: Window)
    ensures ParseClock(n.workStart).Some? ==> w.workStart == ParseClock(n.workStart).value
    ensures ParseClock(n.workStart).None? ==> w.workStart == DefaultWorkStart
    ensures ParseClock(n.workEnd).Some? ==> w.workEnd == ParseClock(n.workEnd).value
    ensures ParseClock(n.workEnd).None? ==> w.workEnd == DefaultWorkEnd
    ensures ParseClock(n.lunchStart).Some? ==> w.lunchStart == ParseClock(n.lunchStart).value
    ensures ParseClock(n.lunchStart).None? ==> w.lunchStart == DefaultLunchStart
    ensures ParseClock(n.lunchEnd).Some? ==> w.lunchEnd == ParseClock(n.lunchEnd).value
    ensures ParseClock(n.lunchEnd).None? ==> w.lunchEnd == DefaultLunchEnd
  {
    Window(ParseTimeSafe(n.workStart, DefaultWorkStart), ParseTimeSafe(n.workEnd, DefaultWorkEnd),
           ParseTimeSafe(n.lunchStart, DefaultLunchStart), ParseTimeSafe(n.lunchEnd, DefaultLunchEnd))
  }

  /** Within working hours and outside lunch. */
  predicate InWindow(t: nat, w: Window) {
    w.workStart <= t < w.workEnd && !(w.lunchStart <= t < w.lunchEnd)
  }

  /** `can_visit` at time of day `t`. */
  predicate CanVisit(t: nat, n: Node) {
    InWindow(t, WindowOf(n))
  }

  /** With lunch inside working hours, a node can be visited exactly before lunch or after it. */
  lemma CanVisitTwoIntervals(t: nat, n: Node)
    requires var w := WindowOf(n); w.workStart <= w.lunchStart <= w.lunchEnd <= w.workEnd
    ensures var w := WindowOf(n);
      CanVisit(t, n) <==> (w.workStart <= t < w.lunchStart || w.lunchEnd <= t < w.workEnd)
  {
  }

  /** The start node is open at every minute of the day but the last. */
  lemma StartNodeOpen(sp: StartPoint, t: nat)
    ensures CanVisit(t, StartNode(sp)) <==> t < 1439
  {
    ParseClockRoundTrip(0);
    ParseClockRoundTrip(1439);
    assert Clock.Format(0) == "00:00";
    assert Clock.Format(1439) == "23:59";
  }

  // --------------------------------------------------------------- the loop

  /** What the loop needs of a node: its window and its service minutes. */
  datatype Visit = Visit(window: Window, service: nat)

  function VisitOf(n: Node): (v: Visit)
    ensures v.window == WindowOf(n) && v.service == VisitDuration(n.level)
  {
    Visit(WindowOf(n), VisitDuration(n.level))
  }

  function VisitsOf(nodes: seq<Node>): (r: seq<Visit>)
    ensures |r| == |nodes|
    ensures forall j :: 0 <= j < |nodes| ==> r[j] == VisitOf(nodes[j])
  {
    seq(|nodes|, j requires 0 <= j < |nodes| => VisitOf(nodes[j]))
  }

  /**
   * The problem: the nodes' visits, and for nodes `i`, `j`: `travel(i, j, hour)` the
   * travel minutes with traffic when leaving in that hour, `score(j, minutes)`
   * the score of `j` reached in that many minutes, `distance(i, j)` in km.
   */
  datatype Env = Env(
    visits: seq<Visit>,
    travel: (nat, nat, nat) -> nat,
    score: (nat, nat) -> real,
    distance: (nat, nat) -> real)

  /** The hour of the day at clock `c`. */
  function Hour(c: nat): (r: nat)
    ensures r < 24
  {
    (c % Clock.MinutesPerDay) / 60
  }

  /**
   * The day the traffic table is read for: the request's day in lower case,
   * or, when it is missing or empty, `today` (the start date's weekday name).
   */
  function DayOfWeek(startDay: Option<string>, today: string): (r: string)
    ensures startDay.Some? && startDay.value != "" ==> r == ToLower(startDay.value)
    ensures startDay.None? || startDay.value == "" ==> r == ToLower(today)
  {
    if startDay.Some? && startDay.value != "" then ToLower(startDay.value) else ToLower(today)
  }

  /** Lowering the request's day does not change which traffic entry is read. */
  lemma DayOfWeekReadsRequestedDay(data: map<string, Traffic.Json>, hour: nat, day: string, today: string)
    requires day != ""
    ensures Traffic.Multiplier(data, hour, DayOfWeek(Some(day), today)) == Traffic.Multiplier(data, hour, day)
  {
    Traffic.DayCaseIgnored(data, hour, day);
  }

  /** The base travel minutes scaled by the traffic multiplier times 0.65. */
  function AdjustedTravel(base: real, multiplier: real): (r: real)
    ensures base > 0.0 && multiplier < 1.0 / 0.65 ==> r < base
    ensures base >= 0.0 && multiplier >= 0.0 ==> r >= 0.0
  {
    base * (multiplier * 0.65)
  }

  /** One line of the route: node, arrival, departure, travel minutes, km. */
  datatype Entry = Entry(node: nat, arrival: nat, departure: nat, travel: nat, distance: real)

  datatype Plan = Plan(route: seq<nat>, clock: nat, totalTime: int, totalDistance: real, entries: seq<Entry>)

  function Last(route: seq<nat>): nat
    requires |route| > 0
  {
    route[|route| - 1]
  }

  /** Not yet on the route (the current node is on it). */
  predicate Unvisited(env: Env, route: seq<nat>, j: nat) {
    j < |env.visits| && j !in route
  }

  function TravelTo(env: Env, route: seq<nat>, clock: nat, j: nat): nat
    requires |route| > 0
  {
    env.travel(Last(route), j, Hour(clock))
  }

  function ScoreOf(env: Env, route: seq<nat>, clock: nat, j: nat): real
    requires |route| > 0
  {
    env.score(j, TravelTo(env, route, clock, j))
  }

  /** Unvisited and open when reached from the current node at `clock`. */
  predicate Reachable(env: Env, route: seq<nat>, clock: nat, j: nat)
    requires |route| > 0
  {
    Unvisited(env, route, j) && InWindow((clock + TravelTo(env, route, clock, j)) % Clock.MinutesPerDay, env.visits[j].window)
  }

  /** Unvisited but closed when reached. */
  predicate Closed(env: Env, route: seq<nat>, clock: nat, j: nat)
    requires |route| > 0
  {
    Unvisited(env, route, j) && !InWindow((clock + TravelTo(env, route, clock, j)) % Clock.MinutesPerDay, env.visits[j].window)
  }

  /**
   * The inner loop over `j < k`: the best reachable node so far (a strictly
   * higher score replaces it, so the lowest index wins a tie), and whether
   * some node was closed.
   */
  function Scan(env: Env, route: seq<nat>, clock: nat, k: nat): (r: (Option<nat>, bool))
    requires |route| > 0 && k <= |env.visits|
    ensures r.0.Some? ==> r.0.value < k && Reachable(env, route, clock, r.0.value)
    ensures r.0.Some? ==> forall j :: 0 <= j < k && Reachable(env, route, clock, j) ==>
      ScoreOf(env, route, clock, j) <= ScoreOf(env, route, clock, r.0.value)
    ensures r.0.Some? ==> forall j :: 0 <= j < r.0.value && Reachable(env, route, clock, j) ==>
      ScoreOf(env, route, clock, j) < ScoreOf(env, route, clock, r.0.value)
    ensures r.0.None? ==> forall j :: 0 <= j < k ==> !Reachable(env, route, clock, j)
    ensures r.1 <==> exists j :: 0 <= j < k && Closed(env, route, clock, j)
  {
    if k == 0 then (None, false)
    else
      var (best, closed) := Scan(env, route, clock, k - 1);
      var j := k - 1;
      if !Unvisited(env, route, j) then (best, closed)
      else if !Reachable(env, route, clock, j) then
        assert Closed(env, route, clock, j);
        (best, true)
      else if best.None? || ScoreOf(env, route, clock, j) > ScoreOf(env, route, clock, best.value) then (Some(j), closed)
      else (best, closed)
  }

  /** One pass of the outer loop. */
  datatype StepResult = Moved(next: Plan) | Waited(next: Plan) | Stopped

  /**
   * One pass of the outer loop: move to the best reachable node, wait 15
   * minutes when only closed nodes remain, stop when nothing is unvisited.
   */
  function Step(env: Env, p: Plan): (r: StepResult)
    requires |p.route| > 0
    ensures r.Moved? ==> |r.next.route| == |p.route| + 1
    ensures r.Waited? ==> r.next == p.(clock := p.clock + 15)
  {
    var (best, closed) := Scan(env, p.route, p.clock, |env.visits|);
    match best
    case None => if closed then Waited(p.(clock := p.clock + 15)) else Stopped
    case Some(j) =>
      var travel := TravelTo(env, p.route, p.clock, j);
      var service := env.visits[j].service;
      var e := Entry(j, p.clock + travel, p.clock + travel + service, travel, env.distance(Last(p.route), j));
      Moved(Plan(p.route + [j], e.departure, p.totalTime + travel + service, p.totalDistance + e.distance, p.entries + [e]))
  }

  /**
   * What a pass decides: it stops exactly when no node is unvisited, waits
   * exactly when no unvisited node is open on arrival but one is closed, and
   * otherwise appends the open node of highest score (the lowest index on a
   * tie), with its arrival, departure, travel and distance added to the totals.
   */
  lemma StepSpec(env: Env, p: Plan)
    requires |p.route| > 0
    ensures var r := Step(env, p);
      r.Stopped? <==> forall j :: 0 <= j < |env.visits| ==> !Unvisited(env, p.route, j)
    ensures var r := Step(env, p);
      r.Waited? <==> (forall j :: 0 <= j < |env.visits| ==> !Reachable(env, p.route, p.clock, j))
                     && exists j :: 0 <= j < |env.visits| && Closed(env, p.route, p.clock, j)
    ensures var r := Step(env, p);
      r.Moved? ==> r.next.route[..|p.route|] == p.route
    ensures var r := Step(env, p);
      r.Moved? ==>
      var j := Last(r.next.route);
      Reachable(env, p.route, p.clock, j)
      && (forall i :: 0 <= i < |env.visits| && Reachable(env, p.route, p.clock, i) ==>
            ScoreOf(env, p.route, p.clock, i) <= ScoreOf(env, p.route, p.clock, j))
      && (forall i :: 0 <= i < j && Reachable(env, p.route, p.clock, i) ==>
            ScoreOf(env, p.route, p.clock, i) < ScoreOf(env, p.route, p.clock, j))
    ensures var r := Step(env, p);
      r.Moved? ==>
      var j := Last(r.next.route);
      var travel := TravelTo(env, p.route, p.clock, j);
      var e := Entry(j, p.clock + travel, p.clock + travel + env.visits[j].service,
                     travel, env.distance(Last(p.route), j));
      r.next.entries == p.entries + [e] && r.next.clock == e.departure
      && r.next.totalTime == p.totalTime + travel + env.visits[j].service
      && r.next.totalDistance == p.totalDistance + e.distance
  {
    var (best, closed) := Scan(env, p.route, p.clock, |env.visits|);
    match best
    case None =>
      if !closed {
        forall j | 0 <= j < |env.visits|
          ensures !Unvisited(env, p.route, j)
        {
          assert !Reachable(env, p.route, p.clock, j) && !Closed(env, p.route, p.clock, j);
        }
      }
    case Some(j) =>
      var route := p.route + [j];
      assert Last(route) == j;
      assert route[..|p.route|] == p.route;
  }

  /** Where the loop ended, and how many of its passes were left unused. */
  datatype Outcome = Outcome(plan: Plan, fuelLeft: nat)

  /** The `while len(visited) < n` loop, cut off after `fuel` passes: `optimize_route` itself puts no bound on it. */
  function Loop(env: Env, p: Plan, fuel: nat): (r: Outcome)
    requires |p.route| > 0
    ensures |r.plan.route| > 0 && r.fuelLeft <= fuel
    decreases fuel
  {
    if |p.route| >= |env.visits| || fuel == 0 then Outcome(p, fuel)
    else
      match Step(env, p)
      case Stopped => Outcome(p, fuel)
      case Waited(q) => Loop(env, q, fuel - 1)
      case Moved(q) =>
        assert |q.route| > 0;
        Loop(env, q, fuel - 1)
  }

  /** Total travel plus service of the entries. */
  function Spent(entries: seq<Entry>): int {
    if |entries| == 0 then 0
    else
      var e := entries[|entries| - 1];
      Spent(entries[..|entries| - 1]) + e.travel + (e.departure - e.arrival)
  }

  function Driven(entries: seq<Entry>): real {
    if |entries| == 0 then 0.0 else Driven(entries[..|entries| - 1]) + entries[|entries| - 1].distance
  }

  lemma SpentSnoc(es: seq<Entry>, e: Entry)
    ensures Spent(es + [e]) == Spent(es) + e.travel + (e.departure - e.arrival)
    ensures Driven(es + [e]) == Driven(es) + e.distance
  {
    assert (es + [e])[..|es|] == es;
  }

  /** The route starts at node 0 and visits each node at most once. */
  predicate RouteOk(n: nat, route: seq<nat>) {
    1 <= |route| <= n && route[0] == 0
    && (forall k :: 0 <= k < |route| ==> route[k] < n)
    && (forall a, b :: 0 <= a < b < |route| ==> route[a] != route[b])
  }

  lemma RouteSnoc(n: nat, route: seq<nat>, j: nat)
    requires RouteOk(n, route) && |route| < n && j < n && j !in route
    ensures RouteOk(n, route + [j])
  {
    var r := route + [j];
    forall a, b | 0 <= a < b < |r|
      ensures r[a] != r[b]
    {
      if b == |route| {
        assert r[a] == route[a];
      }
    }
  }

  /**
   * A visit after the first: it lasts the node's service time, the node is
   * open on arrival, and it starts no earlier than the previous one ended.
   */
  predicate EntryOk(env: Env, entries: seq<Entry>, k: nat)
    requires 1 <= k < |entries| && entries[k].node < |env.visits|
  {
    var e := entries[k];
    e.departure == e.arrival + env.visits[e.node].service
    && InWindow(e.arrival % Clock.MinutesPerDay, env.visits[e.node].window)
    && e.arrival >= entries[k - 1].departure
  }

  /**
   * What holds of every plan the loop reaches: the route is well formed, it
   * has one entry per node, the first entry is the start at the start time,
   * every later entry is a proper visit, the clock is past the last
   * departure, and the totals add up the entries.
   */
  predicate Valid(env: Env, start: nat, p: Plan) {
    RouteOk(|env.visits|, p.route)
    && |p.entries| == |p.route|
    && (forall k :: 0 <= k < |p.route| ==> p.entries[k].node == p.route[k])
    && p.entries[0] == Entry(0, start, start, 0, 0.0)
    && (forall k :: 1 <= k < |p.route| ==> EntryOk(env, p.entries, k))
    && p.clock >= p.entries[|p.entries| - 1].departure
    && p.totalTime == Spent(p.entries)
    && p.totalDistance == Driven(p.entries)
  }

  /** The plan before the loop: at node 0, at the start time. */
  function Initial(start: nat): (p: Plan)
    ensures p.route == [0] && p.clock == start
  {
    Plan([0], start, 0, 0.0, [Entry(0, start, start, 0, 0.0)])
  }

  lemma InitialValid(env: Env, start: nat)
    requires |env.visits| >= 1
    ensures Valid(env, start, Initial(start))
  {
    var p := Initial(start);
    assert p.entries[..0] == [];
  }

  /** A proper visit appended after proper visits keeps every later entry proper. */
  lemma EntriesSnoc(env: Env, es: seq<Entry>, e: Entry)
    requires |es| >= 1 && e.node < |env.visits|
    requires forall k :: 0 <= k < |es| ==> es[k].node < |env.visits|
    requires forall k :: 1 <= k < |es| ==> EntryOk(env, es, k)
    requires e.departure == e.arrival + env.visits[e.node].service
    requires InWindow(e.arrival % Clock.MinutesPerDay, env.visits[e.node].window)
    requires e.arrival >= es[|es| - 1].departure
    ensures forall k :: 1 <= k < |es| + 1 ==> EntryOk(env, es + [e], k)
  {
    var q := es + [e];
    forall k | 1 <= k < |q|
      ensures EntryOk(env, q, k)
    {
      if k < |es| {
        assert q[k] == es[k] && q[k - 1] == es[k - 1];
        assert EntryOk(env, es, k);
      } else {
        assert q[k] == e && q[k - 1] == es[|es| - 1];
      }
    }
  }

  lemma MovedValid(env: Env, start: nat, p: Plan)
    requires Valid(env, start, p) && |p.route| < |env.visits| && Step(env, p).Moved?
    ensures Valid(env, start, Step(env, p).next)
  {
    StepSpec(env, p);
    var q := Step(env, p).next;
    var n := |p.route|;
    var j := Last(q.route);
    var travel := TravelTo(env, p.route, p.clock, j);
    var e := Entry(j, p.clock + travel, p.clock + travel + env.visits[j].service, travel, env.distance(Last(p.route), j));
    assert q.entries == p.entries + [e];
    assert q.route == p.route + [j] by {
      assert q.route == q.route[..n] + [q.route[n]];
    }
    assert Reachable(env, p.route, p.clock, j);
    RouteSnoc(|env.visits|, p.route, j);
    forall k | 0 <= k < n + 1
      ensures q.entries[k].node == q.route[k]
    {
      if k < n {
        assert q.entries[k] == p.entries[k];
      }
    }
    EntriesSnoc(env, p.entries, e);
    SpentSnoc(p.entries, e);
  }

  lemma StepValid(env: Env, start: nat, p: Plan)
    requires Valid(env, start, p) && |p.route| < |env.visits|
    ensures Step(env, p).Moved? || Step(env, p).Waited? ==> Valid(env, start, Step(env, p).next)
  {
    if Step(env, p).Moved? {
      MovedValid(env, start, p);
    }
  }

  /** Any property of plans that every moving or waiting pass keeps holds of the plan the loop ends with. */
  lemma {:induction false} LoopKeeps(env: Env, inv: Plan -> bool, p: Plan, fuel: nat)
    requires |p.route| > 0 && inv(p)
    requires forall q: Plan {:trigger Step(env, q)} :: (|q.route| > 0 && |q.route| < |env.visits| && inv(q) && !Step(env, q).Stopped?
                          ==> inv(Step(env, q).next))
    ensures inv(Loop(env, p, fuel).plan)
    decreases fuel
  {
    if |p.route| < |env.visits| && fuel > 0 && !Step(env, p).Stopped? {
      LoopKeeps(env, inv, Step(env, p).next, fuel - 1);
    }
  }

  lemma LoopValid(env: Env, start: nat, p: Plan, fuel: nat)
    requires Valid(env, start, p)
    ensures Valid(env, start, Loop(env, p, fuel).plan)
  {
    var inv: Plan -> bool := q => Valid(env, start, q);
    forall q: Plan | |q.route| > 0 && |q.route| < |env.visits| && inv(q) && !Step(env, q).Stopped?
      ensures inv(Step(env, q).next)
    {
      StepValid(env, start, q);
    }
    LoopKeeps(env, inv, p, fuel);
  }

  /** `v` taken out of `s`. */
  function Remove(s: seq<nat>, v: nat): (r: seq<nat>)
    ensures |r| <= |s|
    ensures v in s ==> |r| < |s|
    ensures forall x :: x in r <==> x in s && x != v
  {
    if |s| == 0 then []
    else if s[0] == v then Remove(s[1..], v)
    else [s[0]] + Remove(s[1..], v)
  }

  /** Fewer than `n` values below `n` leave one of them out. */
  lemma {:induction false} MissingIndex(s: seq<nat>, n: nat)
    requires |s| < n
    requires forall k :: 0 <= k < |s| ==> s[k] < n
    ensures exists j :: 0 <= j < n && j !in s
    decreases n
  {
    if n - 1 !in s {
      assert 0 <= n - 1 < n && n - 1 !in s;
    } else {
      var t := Remove(s, n - 1);
      forall k | 0 <= k < |t|
        ensures t[k] < n - 1
      {
        assert t[k] in t;
      }
      MissingIndex(t, n - 1);
      var j :| 0 <= j < n - 1 && j !in t;
      assert j !in s;
    }
  }

  /**
   * The loop's `break` is never taken while nodes remain: an unvisited node is
   * either open or closed on arrival, so the loop moves or waits.
   */
  lemma NeverStops(env: Env, start: nat, p: Plan)
    requires Valid(env, start, p) && |p.route| < |env.visits|
    ensures !Step(env, p).Stopped?
  {
    StepSpec(env, p);
    MissingIndex(p.route, |env.visits|);
    var j :| 0 <= j < |env.visits| && j !in p.route;
    assert Unvisited(env, p.route, j);
  }

  /**
   * A node whose working hours are empty is never open, so a plan that has
   * visited everything else waits forever: the route never grows and the
   * clock moves on 15 minutes per pass.
   */
  lemma {:induction false} WaitsForeverForClosedNode(env: Env, start: nat, p: Plan, fuel: nat)
    requires Valid(env, start, p) && |p.route| < |env.visits|
    requires forall j :: 0 <= j < |env.visits| && j !in p.route ==>
      env.visits[j].window.workEnd <= env.visits[j].window.workStart
    ensures Loop(env, p, fuel).plan.route == p.route
    ensures Loop(env, p, fuel).plan.clock == p.clock + 15 * fuel
    ensures Loop(env, p, fuel).fuelLeft == 0
    decreases fuel
  {
    if fuel > 0 {
      NeverStops(env, start, p);
      StepSpec(env, p);
      assert forall j :: 0 <= j < |env.visits| ==> !Reachable(env, p.route, p.clock, j);
      var r := Step(env, p);
      StepValid(env, start, p);
      WaitsForeverForClosedNode(env, start, r.next, fuel - 1);
    }
  }

  /**
   * The cutoff is the only way the model's loop ends early: with passes left,
   * every node is on the route.
   */
  lemma {:induction false} LoopFinishes(env: Env, start: nat, p: Plan, fuel: nat)
    requires Valid(env, start, p)
    ensures Loop(env, p, fuel).fuelLeft > 0 ==> |Loop(env, p, fuel).plan.route| == |env.visits|
    decreases fuel
  {
    if |p.route| < |env.visits| && fuel > 0 {
      NeverStops(env, start, p);
      StepValid(env, start, p);
      LoopFinishes(env, start, Step(env, p).next, fuel - 1);
    }
  }

  /** Once the loop has put every node on the route, more passes change nothing. */
  lemma {:induction false} LoopMoreFuel(env: Env, p: Plan, fuel: nat, extra: nat)
    requires |p.route| > 0 && |Loop(env, p, fuel).plan.route| >= |env.visits|
    ensures Loop(env, p, fuel + extra).plan == Loop(env, p, fuel).plan
    decreases fuel
  {
    if |p.route| < |env.visits| && fuel > 0 && !Step(env, p).Stopped? {
      LoopMoreFuel(env, Step(env, p).next, fuel - 1, extra);
    }
  }

  /** A node whose working hours are empty never joins the route. */
  lemma NeverOpenNeverVisited(env: Env, start: nat, j: nat, fuel: nat)
    requires 0 < j < |env.visits| && env.visits[j].window.workEnd <= env.visits[j].window.workStart
    requires Valid(env, start, Initial(start))
    ensures j !in Loop(env, Initial(start), fuel).plan.route
    ensures |Loop(env, Initial(start), fuel).plan.route| < |env.visits|
  {
    var inv: Plan -> bool := (q: Plan) => j !in q.route;
    forall q: Plan | |q.route| > 0 && |q.route| < |env.visits| && inv(q) && !Step(env, q).Stopped?
      ensures inv(Step(env, q).next)
    {
      StepSpec(env, q);
      var r := Step(env, q);
      if r.Moved? {
        var last := Last(r.next.route);
        assert Reachable(env, q.route, q.clock, last);
        assert last != j;
        assert r.next.route == q.route + [last] by {
          assert r.next.route == r.next.route[..|q.route|] + [last];
        }
      }
    }
    LoopKeeps(env, inv, Initial(start), fuel);
    LoopValid(env, start, Initial(start), fuel);
    var route := Loop(env, Initial(start), fuel).plan.route;
    StableSort.MissingShrinks(route, |env.visits|, j);
  }

  // ------------------------------------------------------------ the result

  /** The answer: totals and the route's stops. */
  datatype Analysis = Analysis(totalDistance: real, totalDuration: real, stops: seq<Domain.Stop>)

  /** One route point: order from 1, the node's data, times written "HH:MM". */
  function StopOf(nodes: seq<Node>, e: Entry, k: nat): (s: Domain.Stop)
    requires e.node < |nodes|
    ensures s.order == k + 1 && s.address == nodes[e.node].address
    ensures s.serviceTime == VisitDuration(nodes[e.node].level) && s.travelTime == e.travel as real
  {
    var n := nodes[e.node];
    Domain.Stop(k + 1, n.address, n.latitude, n.longitude,
                Clock.Format(e.arrival % Clock.MinutesPerDay), Clock.Format(e.departure % Clock.MinutesPerDay),
                e.travel as real, VisitDuration(n.level))
  }

  function Stops(nodes: seq<Node>, entries: seq<Entry>): (r: seq<Domain.Stop>)
    requires forall k :: 0 <= k < |entries| ==> entries[k].node < |nodes|
    ensures |r| == |entries|
    ensures forall k :: 0 <= k < |entries| ==> r[k] == StopOf(nodes, entries[k], k)
  {
    seq(|entries|, k requires 0 <= k < |entries| => StopOf(nodes, entries[k], k))
  }

  /** Python's white space, as `int()` strips it. */
  predicate IsPySpace(c: char) {
    var k := c as int;
    (0x09 <= k <= 0x0D) || (0x1C <= k <= 0x20) || k == 0x85 || k == 0xA0 || k == 0x1680
    || (0x2000 <= k <= 0x200A) || k == 0x2028 || k == 0x2029 || k == 0x202F || k == 0x205F || k == 0x3000
  }

  function PyStripStart(s: string): (r: string)
    ensures |r| <= |s| && r == s[|s| - |r|..]
    ensures |r| > 0 ==> !IsPySpace(r[0])
  {
    if |s| > 0 && IsPySpace(s[0]) then PyStripStart(s[1..]) else s
  }

  function PyStripEnd(s: string): (r: string)
    ensures |r| <= |s| && r == s[..|r|]
    ensures |r| > 0 ==> !IsPySpace(r[|r| - 1])
  {
    if |s| > 0 && IsPySpace(s[|s| - 1]) then PyStripEnd(s[..|s| - 1]) else s
  }

  /**
   * The digits of a Python integer literal: decimal digits, where a single
   * underscore may stand between two digits (PEP 515), as in "1_000".
   */
  predicate PyDigits(s: string) {
    |s| > 0 && IsDigit(s[0]) && IsDigit(s[|s| - 1])
    && (forall i :: 0 <= i < |s| ==> IsDigit(s[i]) || s[i] == '_')
    && (forall i :: 0 <= i < |s| - 1 ==> s[i] == '_' ==> s[i + 1] != '_')
  }

  /** The text without its underscores. */
  function Unscored(s: string): (r: string)
    ensures (forall i :: 0 <= i < |s| ==> IsDigit(s[i]) || s[i] == '_') ==> AllDigits(r)
    ensures AllDigits(s) ==> r == s
    ensures '_' !in s ==> r == s
  {
    if |s| == 0 then s
    else if s[0] == '_' then Unscored(s[1..])
    else [s[0]] + Unscored(s[1..])
  }

  /** A literal's value: its digits with the underscores left out. */
  function PyDigitsValue(s: string): (r: nat)
    requires PyDigits(s)
    ensures AllDigits(s) ==> r == DigitsValue(s)
  {
    DigitsValue(Unscored(s))
  }

  /** `int(s)`: surrounding white space, an optional sign, then digits with single underscores between them. */
  function PyInt(s: string): (r: Option<int>)
    ensures AllDigits(s) && |s| > 0 ==> r == Some(DigitsValue(s) as int)
  {
    var t := PyStripEnd(PyStripStart(s));
    if AllDigits(s) && |s| > 0 then
      assert PyStripStart(s) == s;
      assert PyStripEnd(s) == s;
      Some(DigitsValue(s) as int)
    else if PyDigits(t) then Some(PyDigitsValue(t) as int)
    else if |t| > 1 && t[0] == '+' && PyDigits(t[1..]) then Some(PyDigitsValue(t[1..]) as int)
    else if |t| > 1 && t[0] == '-' && PyDigits(t[1..]) then Some(-(PyDigitsValue(t[1..]) as int))
    else None
  }

  /** Dropping underscores splits over concatenation. */
  lemma {:induction false} UnscoredAppend(a: string, b: string)
    ensures Unscored(a + b) == Unscored(a) + Unscored(b)
    decreases |a|
  {
    if |a| == 0 {
      assert a + b == b;
    } else {
      var s := a + b;
      assert s[0] == a[0] && s[1..] == a[1..] + b;
      UnscoredAppend(a[1..], b);
      if a[0] != '_' {
        assert Unscored(s) == [a[0]] + (Unscored(a[1..]) + Unscored(b));
      }
    }
  }

  /** Digits, one underscore, digits: a literal whose digits are the two runs joined. */
  lemma JoinedLiteral(a: string, b: string)
    requires |a| > 0 && |b| > 0 && AllDigits(a) && AllDigits(b)
    ensures PyDigits(a + "_" + b) && Unscored(a + "_" + b) == a + b && AllDigits(a + b)
  {
    JoinedShape(a, b);
    DigitsThenUnderscore(a);
    UnscoredAppend(a + "_", b);
    DigitsAppend(a, b);
  }

  lemma DigitsThenUnderscore(a: string)
    requires AllDigits(a)
    ensures Unscored(a + "_") == a
  {
    assert Unscored("_") == "";
    UnscoredAppend(a, "_");
  }

  lemma DigitsAppend(a: string, b: string)
    requires AllDigits(a) && AllDigits(b)
    ensures AllDigits(a + b)
  {
    forall i | 0 <= i < |a + b|
      ensures IsDigit((a + b)[i])
    {
      if i < |a| { assert (a + b)[i] == a[i]; } else { assert (a + b)[i] == b[i - |a|]; }
    }
  }

  lemma JoinedShape(a: string, b: string)
    requires |a| > 0 && |b| > 0 && AllDigits(a) && AllDigits(b)
    ensures PyDigits(a + "_" + b)
  {
    var s := a + "_" + b;
    assert s[0] == a[0] && s[|s| - 1] == b[|b| - 1];
    forall i | 0 <= i < |s|
      ensures i != |a| ==> IsDigit(s[i])
      ensures i == |a| ==> s[i] == '_'
    {
      if i < |a| { assert s[i] == a[i]; } else if i > |a| { assert s[i] == b[i - |a| - 1]; }
    }
    forall i | 0 <= i < |s| - 1
      ensures s[i] != '_' || s[i + 1] != '_'
    {
      if i == |a| { assert s[i + 1] == b[0]; }
    }
  }

  /** `int()` reads digits with one underscore between them as the digits alone: `int("1_0") == 10`. */
  lemma PyIntUnderscore(a: string, b: string)
    requires |a| > 0 && |b| > 0 && AllDigits(a) && AllDigits(b)
    ensures AllDigits(a + b)
    ensures PyInt(a + "_" + b) == Some(DigitsValue(a + b) as int)
  {
    var s := a + "_" + b;
    JoinedLiteral(a, b);
    assert !IsPySpace(s[0]) && !IsPySpace(s[|s| - 1]);
    assert PyStripStart(s) == s;
    assert PyStripEnd(s) == s;
    assert !AllDigits(s) by { assert !IsDigit(s[|a|]); }
  }

  /** Two underscores in a row are not a literal: `int("1__0")` raises. */
  lemma PyIntDoubleUnderscore()
    ensures PyInt("1__0") == None
  {
    var s := "1__0";
    assert PyStripStart(s) == s;
    assert PyStripEnd(s) == s;
    assert !PyDigits(s) by { assert s[1] == '_' && s[2] == '_'; }
    assert !AllDigits(s) by { assert !IsDigit(s[1]); }
  }

  /**
   * The start clock: `int` of the parts before and after the first ':' as the
   * hour and minute of today; a missing time, a missing part, text `int`
   * rejects or a value out of range raises.
   */
  function StartClock(startTime: Option<string>): (r: Option<nat>)
    ensures r.Some? ==> r.value < Clock.MinutesPerDay
    ensures startTime.None? || startTime == Some("") ==> r.None?
  {
    match startTime
    case None => None
    case Some(s) => ClockOfParts(Split(s, ':'))
  }

  /** The clock from the pieces of the start time: `int` of the first two, in range. */
  function ClockOfParts(parts: seq<string>): (r: Option<nat>)
    ensures r.Some? ==> r.value < Clock.MinutesPerDay
    ensures |parts| < 2 ==> r.None?
  {
    if |parts| < 2 then None
    else
      match (PyInt(parts[0]), PyInt(parts[1]))
      case (Some(h), Some(m)) => if 0 <= h < 24 && 0 <= m < 60 then Some(h * 60 + m) else None
      case _ => None
  }

  /** The nodes: the start point first when there is one, then the clients in request order. */
  function Nodes(clients: seq<Node>, start: Option<StartPoint>): (r: seq<Node>)
    ensures start.None? ==> r == clients
    ensures start.Some? ==> |r| == |clients| + 1 && r[0] == StartNode(start.value) && r[1..] == clients
  {
    match start
    case None => clients
    case Some(sp) => [StartNode(sp)] + clients
  }

  /** The start entry becomes a stop at node 0 with no travel, arriving and leaving at the start time. */
  lemma FirstStop(nodes: seq<Node>, start: nat)
    requires |nodes| > 0 && start < Clock.MinutesPerDay
    ensures var s := StopOf(nodes, Entry(0, start, start, 0, 0.0), 0);
      s.order == 1 && s.address == nodes[0].address && s.travelTime == 0.0
      && s.estimatedArrival == s.departureTime == Clock.Format(start)
  {
    assert start % Clock.MinutesPerDay == start;
  }

  /**
   * The stops of a plan that started at `start`: numbered from 1, stop k
   * the k-th node of the route, no node twice, the first one the start
   * node at the start time.
   */
  lemma PlanStops(nodes: seq<Node>, env: Env, start: nat, p: Plan)
    requires |env.visits| == |nodes| && Valid(env, start, p) && start < Clock.MinutesPerDay
    ensures var stops := Stops(nodes, p.entries);
      1 <= |stops| <= |nodes|
      && (forall k :: 0 <= k < |stops| ==> stops[k].order == k + 1)
      && (forall k :: 0 <= k < |stops| ==> stops[k] == StopOf(nodes, p.entries[k], k) && p.entries[k].node == p.route[k])
      && (forall a, b :: 0 <= a < b < |stops| ==> p.entries[a].node != p.entries[b].node)
      && stops[0].address == nodes[0].address && stops[0].travelTime == 0.0
      && stops[0].estimatedArrival == stops[0].departureTime == Clock.Format(start)
  {
    var stops := Stops(nodes, p.entries);
    FirstStop(nodes, start);
    assert stops[0] == StopOf(nodes, Entry(0, start, start, 0, 0.0), 0);
  }

  /**
   * What an answer of the loop's final plan is: the plan is consistent
   * (`Valid`: every arrival inside its node's hours, no visit before the
   * previous one ended), its route holds every node exactly once, the
   * stops are its entries in route order, and the totals are the sums of
   * the entries' distances and of their travel plus service minutes.
   */
  predicate Answers(nodes: seq<Node>, env: Env, clock: nat, fuel: nat, a: Analysis)
    requires |env.visits| == |nodes|
  {
    var p := Loop(env, Initial(clock), fuel).plan;
    Valid(env, clock, p) && StableSort.Covers(p.route, |nodes|)
    && a == Analysis(Driven(p.entries), Spent(p.entries) as real, Stops(nodes, p.entries))
  }

  /** A duplicate-free route over `n` nodes that is `n` long holds every node. */
  lemma FullRouteCovers(n: nat, route: seq<nat>)
    requires RouteOk(n, route) && |route| == n
    ensures StableSort.Covers(route, n)
  {
    forall i | 0 <= i < n
      ensures i in route
    {
      if i !in route {
        StableSort.MissingShrinks(route, n, i);
      }
    }
  }

  /**
   * Why `optimize_route` gives no analysis: it raises for an unreadable start
   * time or for no node at all, and it is still looping (`Unfinished`) when
   * the passes run out before every node is on the route.
   */
  datatype Failure = BadStartTime | NoNodes | Unfinished

  /** The loop's surroundings for these nodes. */
  function EnvOf(nodes: seq<Node>, travel: (nat, nat, nat) -> nat, score: (nat, nat) -> real,
                 distance: (nat, nat) -> real): (env: Env)
    ensures |env.visits| == |nodes| && env.travel == travel && env.score == score && env.distance == distance
  {
    Env(VisitsOf(nodes), travel, score, distance)
  }

  /**
   * `optimize_route`, with `travel`, `score` and `distance` over the node
   * indices and the loop cut off after `fuel` passes.
   */
  function Optimize(clients: seq<Node>, start: Option<StartPoint>, startTime: Option<string>,
                    travel: (nat, nat, nat) -> nat, score: (nat, nat) -> real, distance: (nat, nat) -> real,
                    fuel: nat): (r: Result<Analysis, Failure>)
    ensures StartClock(startTime).None? ==> r == Err(BadStartTime)
    ensures StartClock(startTime).Some? && |Nodes(clients, start)| == 0 ==> r == Err(NoNodes)
    ensures r.Ok? ==> |r.value.stops| >= 1 && |r.value.stops| <= |Nodes(clients, start)|
    ensures r.Ok? ==> |r.value.stops| == |Nodes(clients, start)|
    ensures r == Err(Unfinished) ==>
      StartClock(startTime).Some? && |Nodes(clients, start)| > 0
      && Loop(EnvOf(Nodes(clients, start), travel, score, distance), Initial(StartClock(startTime).value), fuel).fuelLeft == 0
    ensures r.Ok? ==> forall k :: 0 <= k < |r.value.stops| ==> r.value.stops[k].order == k + 1
    ensures r.Ok? && start.Some? ==>
      var s := r.value.stops[0];
      s.address == start.value.address && s.travelTime == 0.0
      && s.estimatedArrival == s.departureTime == Clock.Format(StartClock(startTime).value)
  {
    match StartClock(startTime)
    case None => Err(BadStartTime)
    case Some(clock) =>
      var nodes := Nodes(clients, start);
      if |nodes| == 0 then Err(NoNodes)
      else Run(nodes, EnvOf(nodes, travel, score, distance), clock, fuel)
  }

  /**
   * The loop from the first node at the start clock, and its answer: the
   * stops of the finished route, or `Unfinished` when the passes ran out first.
   */
  function Run(nodes: seq<Node>, env: Env, clock: nat, fuel: nat): (r: Result<Analysis, Failure>)
    requires |nodes| > 0 && |env.visits| == |nodes| && clock < Clock.MinutesPerDay
    ensures r.Ok? <==> |Loop(env, Initial(clock), fuel).plan.route| >= |nodes|
    ensures r.Err? ==> r.error == Unfinished && Loop(env, Initial(clock), fuel).fuelLeft == 0
    ensures r.Ok? ==> Answers(nodes, env, clock, fuel, r.value)
    ensures r.Ok? ==>
      var stops := r.value.stops;
      |stops| == |nodes|
      && (forall k :: 0 <= k < |stops| ==> stops[k].order == k + 1)
      && stops[0].address == nodes[0].address && stops[0].travelTime == 0.0
      && stops[0].estimatedArrival == stops[0].departureTime == Clock.Format(clock)
  {
    InitialValid(env, clock);
    var p := Loop(env, Initial(clock), fuel).plan;
    LoopValid(env, clock, Initial(clock), fuel);
    LoopFinishes(env, clock, Initial(clock), fuel);
    if |p.route| < |nodes| then Err(Unfinished)
    else
      PlanStops(nodes, env, clock, p);
      FullRouteCovers(|nodes|, p.route);
      Ok(Analysis(p.totalDistance, p.totalTime as real, Stops(nodes, p.entries)))
  }

  /**
   * What `optimize_route` answers is its final plan: every node once, each
   * arrival inside the node's hours, the totals the sums over the route.
   */
  lemma OptimizeAnswers(clients: seq<Node>, start: Option<StartPoint>, startTime: Option<string>,
                        travel: (nat, nat, nat) -> nat, score: (nat, nat) -> real, distance: (nat, nat) -> real,
                        fuel: nat)
    ensures var r := Optimize(clients, start, startTime, travel, score, distance, fuel);
      r.Ok? ==>
        StartClock(startTime).Some?
        && Answers(Nodes(clients, start), EnvOf(Nodes(clients, start), travel, score, distance),
                   StartClock(startTime).value, fuel, r.value)
  {
  }

  /** An analysis, once given, is the same for any larger cutoff: the cutoff only stands for "still looping". */
  lemma OptimizeMoreFuel(clients: seq<Node>, start: Option<StartPoint>, startTime: Option<string>,
                         travel: (nat, nat, nat) -> nat, score: (nat, nat) -> real, distance: (nat, nat) -> real,
                         fuel: nat, extra: nat)
    ensures Optimize(clients, start, startTime, travel, score, distance, fuel).Ok? ==>
      Optimize(clients, start, startTime, travel, score, distance, fuel + extra)
      == Optimize(clients, start, startTime, travel, score, distance, fuel)
  {
    if Optimize(clients, start, startTime, travel, score, distance, fuel).Ok? {
      var clock := StartClock(startTime).value;
      var nodes := Nodes(clients, start);
      var env := EnvOf(nodes, travel, score, distance);
      LoopMoreFuel(env, Initial(clock), fuel, extra);
    }
  }

  /**
   * A node other than the first whose working hours are empty is never
   * reached, so `optimize_route` never returns: no cutoff gives an analysis.
   */
  lemma NeverOpenNeverAnswered(clients: seq<Node>, start: Option<StartPoint>, startTime: Option<string>,
                               travel: (nat, nat, nat) -> nat, score: (nat, nat) -> real, distance: (nat, nat) -> real,
                               fuel: nat, j: nat)
    requires 0 < j < |Nodes(clients, start)|
    ensures StartClock(startTime).Some?
            && WindowOf(Nodes(clients, start)[j]).workEnd <= WindowOf(Nodes(clients, start)[j]).workStart ==>
      Optimize(clients, start, startTime, travel, score, distance, fuel) == Err(Unfinished)
  {
    var nodes := Nodes(clients, start);
    if StartClock(startTime).Some? && WindowOf(nodes[j]).workEnd <= WindowOf(nodes[j]).workStart {
      var clock := StartClock(startTime).value;
      var env := EnvOf(nodes, travel, score, distance);
      InitialValid(env, clock);
      NeverOpenNeverVisited(env, clock, j, fuel);
    }
  }
}

=== FILE: stable_sort.dfy ===
/**
 * A stable sort by an integer key, computed on positions: `Sorted(key)` lists
 * the positions `0 .. |key| - 1` so that keys never decrease and positions with
 * equal keys keep their original relative order.  This is what
 * `Array.prototype.sort` does with a numeric comparator (the sort is stable
 * since ECMAScript 2019).
 */
module StableSort {

  /** Position `a` goes before position `b`: a smaller key, or an equal key and an earlier position. */
  predicate Before(key: seq<int>, a: nat, b: nat)
    requires a < |key| && b < |key|
  {
    key[a] < key[b] || (key[a] == key[b] && a < b)
  }

  predicate InRange(key: seq<int>, s: seq<nat>) {
    forall k :: 0 <= k < |s| ==> s[k] < |key|
  }

  /** Every earlier position in `s` goes before every later one. */
  predicate Ascending(key: seq<int>, s: seq<nat>)
    requires InRange(key, s)
  {
    forall k, l :: 0 <= k < l < |s| ==> Before(key, s[k], s[l])
  }

  /** `s` is a stable sort of all positions of `key`. */
  predicate IsStableOrder(key: seq<int>, s: seq<nat>) {
    |s| == |key| && InRange(key, s) && Ascending(key, s) && forall i :: 0 <= i < |key| ==> i in s
  }

  /** `j` placed into the ascending `s` just before the first position it goes before. */
  function Insert(key: seq<int>, s: seq<nat>, j: nat): (r: seq<nat>)
    requires InRange(key, s) && j < |key|
    requires Ascending(key, s) && j !in s
    ensures |r| == |s| + 1 && InRange(key, r) && Ascending(key, r)
    ensures forall x :: x in r <==> x in s || x == j
  {
    if |s| == 0 then [j]
    else if Before(key, j, s[0]) then
      assert forall l :: 0 < l < |s| ==> Before(key, s[0], s[l]);
      [j] + s
    else
      var rest := Insert(key, s[1..], j);
      assert forall x :: x in s[1..] ==> x in s;
      assert forall l :: 0 <= l < |rest| ==> Before(key, s[0], rest[l]) by {
        forall l | 0 <= l < |rest|
          ensures Before(key, s[0], rest[l])
        {
          if rest[l] != j {
            assert rest[l] in s[1..];
            var k :| 0 <= k < |s[1..]| && s[1..][k] == rest[l];
            assert s[k + 1] == rest[l];
          }
        }
      }
      [s[0]] + rest
  }

  /** The stable order of the first `n` positions. */
  function SortPrefix(key: seq<int>, n: nat): (r: seq<nat>)
    requires n <= |key|
    ensures |r| == n && InRange(key, r) && Ascending(key, r)
    ensures forall x: nat :: x in r <==> x < n
  {
    if n == 0 then []
    else
      var prev := SortPrefix(key, n - 1);
      var r := Insert(key, prev, n - 1);
      assert forall x: nat :: x in r <==> x < n by {
        forall x: nat
          ensures x in r <==> x < n
        {
          assert x in r <==> x in prev || x == n - 1;
        }
      }
      r
  }

  /** All positions of `key` in stable order. */
  function Sorted(key: seq<int>): (r: seq<nat>)
    ensures IsStableOrder(key, r)
  {
    SortPrefix(key, |key|)
  }

  /** Two ascending orders of the same positions are the same order. */
  lemma {:induction false} AscendingUnique(key: seq<int>, s: seq<nat>, t: seq<nat>)
    requires InRange(key, s) && InRange(key, t)
    requires Ascending(key, s) && Ascending(key, t)
    requires forall x :: x in s <==> x in t
    ensures s == t
    decreases |s| + |t|
  {
    assert |s| > 0 ==> s[0] in t;
    assert |t| > 0 ==> t[0] in s;
    if |s| > 0 {
      if s[0] != t[0] {
        assert false;
      }
      forall x
        ensures x in s[1..] <==> x in t[1..]
      {
        if x in s[1..] {
          var k :| 0 < k < |s| && s[k] == x;
          assert Before(key, s[0], x);
          assert x in t;
        }
        if x in t[1..] {
          var k :| 0 < k < |t| && t[k] == x;
          assert Before(key, t[0], x);
          assert x in s;
        }
      }
      AscendingUnique(key, s[1..], t[1..]);
      assert s == [s[0]] + s[1..];
      assert t == [t[0]] + t[1..];
    }
  }

  /** `Sorted` is the only stable order: any stable sort of `key` produces exactly these positions. */
  lemma SortedIsTheStableOrder(key: seq<int>, s: seq<nat>)
    requires IsStableOrder(key, s)
    ensures s == Sorted(key)
  {
    var r := Sorted(key);
    forall x
      ensures x in s <==> x in r
    {
      if x in s {
        var k :| 0 <= k < |s| && s[k] == x;
      }
      if x in r {
        var k :| 0 <= k < |r| && r[k] == x;
      }
    }
    AscendingUnique(key, s, r);
  }

  /** Keys read along the stable order never decrease, and equal keys keep their original order. */
  lemma SortedKeys(key: seq<int>)
    ensures var r := Sorted(key);
      (forall k, l :: 0 <= k < l < |r| ==> key[r[k]] <= key[r[l]]) &&
      (forall k, l :: 0 <= k < l < |r| && key[r[k]] == key[r[l]] ==> r[k] < r[l])
  {
    var r := Sorted(key);
    assert forall k, l :: 0 <= k < l < |r| ==> Before(key, r[k], r[l]);
  }

  /** When every key is distinct and lies in `lo .. lo + |key| - 1`, the `p`-th sorted position has key `lo + p`. */
  lemma {:induction false} DistinctRangeKeys(key: seq<int>, lo: int)
    requires forall i, j :: 0 <= i < j < |key| ==> key[i] != key[j]
    requires forall i :: 0 <= i < |key| ==> lo <= key[i] < lo + |key|
    ensures var r := Sorted(key); forall p :: 0 <= p < |r| ==> key[r[p]] == lo + p
  {
    var r := Sorted(key);
    var ks := seq(|r|, p requires 0 <= p < |r| => key[r[p]]);
    assert |ks| == |key|;
    assert forall p :: 0 <= p < |ks| ==> ks[p] == key[r[p]];
    assert forall p, q :: 0 <= p < q < |ks| ==> ks[p] < ks[q] by {
      forall p, q | 0 <= p < q < |ks|
        ensures ks[p] < ks[q]
      {
        assert Before(key, r[p], r[q]);
        assert r[p] != r[q];
      }
    }
    IncreasingInRange(ks, lo);
  }

  /** A strictly increasing sequence of `n` integers drawn from `lo .. lo + n - 1` counts up from `lo`. */
  lemma {:induction false} IncreasingInRange(ks: seq<int>, lo: int)
    requires forall p, q :: 0 <= p < q < |ks| ==> ks[p] < ks[q]
    requires forall p :: 0 <= p < |ks| ==> lo <= ks[p] < lo + |ks|
    ensures forall p :: 0 <= p < |ks| ==> ks[p] == lo + p
  {
    forall p | 0 <= p < |ks|
      ensures ks[p] == lo + p
    {
      StepsBelow(ks, p);
      StepsAbove(ks, p);
    }
  }

  lemma {:induction false} StepsBelow(ks: seq<int>, p: nat)
    requires forall a, b :: 0 <= a < b < |ks| ==> ks[a] < ks[b]
    requires p < |ks|
    ensures ks[0] + p <= ks[p]
  {
    if p > 0 {
      StepsBelow(ks, p - 1);
    }
  }

  lemma {:induction false} StepsAbove(ks: seq<int>, p: nat)
    requires forall a, b :: 0 <= a < b < |ks| ==> ks[a] < ks[b]
    requires p < |ks|
    ensures ks[p] + (|ks| - 1 - p) <= ks[|ks| - 1]
    decreases |ks| - p
  {
    if p < |ks| - 1 {
      StepsAbove(ks, p + 1);
    }
  }

  /** `s` read in the order of the positions `perm`. */
  function Gather<T>(s: seq<T>, perm: seq<nat>): (r: seq<T>)
    requires forall k :: 0 <= k < |perm| ==> perm[k] < |s|
    ensures |r| == |perm| && forall k :: 0 <= k < |perm| ==> r[k] == s[perm[k]]
  {
    seq(|perm|, k requires 0 <= k < |perm| => s[perm[k]])
  }

  /** Positions `0 .. n - 1`, each named exactly once. */
  predicate Covers(perm: seq<nat>, n: nat) {
    |perm| == n && DistinctUnder(perm, n) && forall i :: 0 <= i < n ==> i in perm
  }

  /** Pairwise distinct positions, each below `n`. */
  predicate DistinctUnder(s: seq<nat>, n: nat) {
    (forall k :: 0 <= k < |s| ==> s[k] < n)
    && (forall a, b :: 0 <= a < b < |s| ==> s[a] != s[b])
  }

  /** `perm` without its element at `q`. */
  function DropAt(perm: seq<nat>, q: nat): (r: seq<nat>)
    requires q < |perm|
    ensures |r| == |perm| - 1
    ensures forall k :: 0 <= k < q ==> r[k] == perm[k]
    ensures forall k :: q <= k < |r| ==> r[k] == perm[k + 1]
  {
    seq(|perm| - 1, k requires 0 <= k < |perm| - 1 => if k < q then perm[k] else perm[k + 1])
  }

  /** The place in `perm` each place of `DropAt(perm, q)` came from. */
  function Origin(q: nat, k: nat): nat {
    if k < q then k else k + 1
  }

  lemma DropAtBelow(perm: seq<nat>, n: nat, q: nat)
    requires DistinctUnder(perm, n + 1) && q < |perm| && perm[q] == n
    ensures forall k :: 0 <= k < |DropAt(perm, q)| ==> DropAt(perm, q)[k] < n
  {
    var rest := DropAt(perm, q);
    forall k | 0 <= k < |rest|
      ensures rest[k] < n
    {
      assert rest[k] == perm[Origin(q, k)] && Origin(q, k) != q;
    }
  }

  lemma DropAtDistinct(perm: seq<nat>, n: nat, q: nat)
    requires DistinctUnder(perm, n + 1) && q < |perm|
    ensures forall a, b :: 0 <= a < b < |DropAt(perm, q)| ==> DropAt(perm, q)[a] != DropAt(perm, q)[b]
  {
    var rest := DropAt(perm, q);
    forall a, b | 0 <= a < b < |rest|
      ensures rest[a] != rest[b]
    {
      assert rest[a] == perm[Origin(q, a)] && rest[b] == perm[Origin(q, b)] && Origin(q, a) < Origin(q, b);
    }
  }

  lemma DropAtCovers(perm: seq<nat>, n: nat, q: nat)
    requires Covers(perm, n + 1) && q < |perm| && perm[q] == n
    ensures forall i :: 0 <= i < n ==> i in DropAt(perm, q)
  {
    var rest := DropAt(perm, q);
    forall i | 0 <= i < n
      ensures i in rest
    {
      assert i in perm;
      var p :| 0 <= p < |perm| && perm[p] == i;
      if p < q {
        assert rest[p] == i;
      } else {
        assert rest[p - 1] == i;
      }
    }
  }

  /** Dropping the place of the last position from an order of `0 .. n` leaves an order of `0 .. n - 1`. */
  lemma DropLast(perm: seq<nat>, n: nat, q: nat)
    requires Covers(perm, n + 1) && q < |perm| && perm[q] == n
    ensures Covers(DropAt(perm, q), n)
  {
    DropAtBelow(perm, n, q);
    DropAtDistinct(perm, n, q);
    DropAtCovers(perm, n, q);
  }

  /** Gathering around the place `q` of the last position. */
  lemma GatherAroundLast<T>(s: seq<T>, perm: seq<nat>, q: nat)
    requires |s| > 0 && Covers(perm, |s|) && q < |perm| && perm[q] == |s| - 1
    requires Covers(DropAt(perm, q), |s| - 1)
    ensures multiset(Gather(s, perm)) == multiset(Gather(s[..|s| - 1], DropAt(perm, q))) + multiset{s[|s| - 1]}
  {
    var g := Gather(s, perm);
    assert g == g[..q] + [s[|s| - 1]] + g[q + 1..];
    assert Gather(s[..|s| - 1], DropAt(perm, q)) == g[..q] + g[q + 1..];
  }

  /** Reading `s` in an order that names every position exactly once yields the same elements. */
  lemma {:induction false} GatherIsPermutation<T>(s: seq<T>, perm: seq<nat>)
    requires Covers(perm, |s|)
    ensures multiset(Gather(s, perm)) == multiset(s)
    decreases |s|
  {
    if |s| > 0 {
      var n := |s| - 1;
      assert n in perm;
      var q :| 0 <= q < |perm| && perm[q] == n;
      DropLast(perm, n, q);
      GatherIsPermutation(s[..n], DropAt(perm, q));
      GatherAroundLast(s, perm, q);
      assert s == s[..n] + [s[n]];
    }
  }

  /** Distinct positions below `n` number at most `n`. */
  lemma {:induction false} DistinctBelow(s: seq<nat>, n: nat)
    requires DistinctUnder(s, n)
    ensures |s| <= n
    decreases n
  {
    if |s| > 0 {
      assert s[0] < n;
      if n - 1 in s {
        var q :| 0 <= q < |s| && s[q] == n - 1;
        DropAtBelow(s, n - 1, q);
        DropAtDistinct(s, n - 1, q);
        DistinctBelow(DropAt(s, q), n - 1);
      } else {
        assert forall k :: 0 <= k < |s| ==> s[k] != n - 1 && s[k] < n;
        DistinctBelow(s, n - 1);
      }
    }
  }

  /** Distinct positions below `n` that leave one out number fewer than `n`. */
  lemma MissingShrinks(s: seq<nat>, n: nat, i: nat)
    requires DistinctUnder(s, n) && i < n && i !in s
    ensures |s| < n
  {
    var t := seq(|s|, k requires 0 <= k < |s| => if s[k] < i then s[k] else s[k] - 1);
    forall k | 0 <= k < |t|
      ensures t[k] < n - 1
    {
      assert s[k] != i;
    }
    forall a, b | 0 <= a < b < |t|
      ensures t[a] != t[b]
    {
      assert s[a] != i && s[b] != i && s[a] != s[b];
    }
    DistinctBelow(t, n - 1);
  }
}

=== FILE: task_dialog.dfy ===
/**
 * The task form: its validity check, and what saving it does to the task store
 * once the address has been geocoded.
 */
module TaskDialog {
  import opened Wrappers
  import opened Text
  import opened Domain
  import Clock
  import TasksStore

  datatype Form = Form(
    name: string,
    address: string,
    level: Level,
    workStart: string,
    workEnd: string,
    lunchStart: string,
    lunchEnd: string)

  /** The form as it opens for a new task. */
  const InitialForm := Form("", "", Standard, "09:00", "18:00", "13:00", "14:00")

  /**
   * `new Date('1970-01-01T' + t + ':00Z').getTime()`, in minutes: `t` must be
   * exactly "HH:MM" with hours up to 24, minutes up to 59, and 24 only as
   * "24:00" (the end of the day); anything else is NaN, written `None`.
   */
  function IsoTimeMinutes(t: string): (r: Option<int>)
    ensures r.Some? ==> 0 <= r.value <= Clock.MinutesPerDay
  {
    if |t| == 5 && IsDigit(t[0]) && IsDigit(t[1]) && t[2] == ':' && IsDigit(t[3]) && IsDigit(t[4]) then
      var h := DigitValue(t[0]) * 10 + DigitValue(t[1]);
      var m := DigitValue(t[3]) * 10 + DigitValue(t[4]);
      if m <= 59 && (h < 24 || (h == 24 && m == 0)) then Some(h * 60 + m) else None
    else None
  }

  /** `a < b` on two numbers that may be NaN: any comparison with NaN is false. */
  predicate Less(a: Option<int>, b: Option<int>) {
    a.Some? && b.Some? && a.value < b.value
  }

  /** `isFormValid`: every field filled in, and the four times strictly ordered the way the code compares them. */
  function IsFormValid(f: Form): (r: bool)
    ensures r ==> f.name != "" && f.address != ""
    ensures r ==> f.workStart != "" && f.workEnd != "" && f.lunchStart != "" && f.lunchEnd != ""
  {
    var ws := IsoTimeMinutes(f.workStart);
    var we := IsoTimeMinutes(f.workEnd);
    var ls := IsoTimeMinutes(f.lunchStart);
    var le := IsoTimeMinutes(f.lunchEnd);
    f.name != "" && f.address != "" && f.workStart != "" && f.workEnd != ""
    && f.lunchStart != "" && f.lunchEnd != ""
    && Less(ws, we) && Less(ls, le) && Less(ws, ls) && Less(le, we)
  }

  /** The save button is enabled for a valid form with no geocoding request in flight. */
  function CanSubmit(f: Form, pending: bool): (r: bool)
    ensures r ==> IsFormValid(f) && !pending
    ensures IsFormValid(f) && !pending ==> r
  {
    IsFormValid(f) && !pending
  }

  /** The four comparisons amount to one strict chain: work starts, lunch starts, lunch ends, work ends. */
  lemma ValidIsStrictChain(f: Form)
    ensures IsFormValid(f) <==>
      f.name != "" && f.address != ""
      && (var ws, ls, le, we := IsoTimeMinutes(f.workStart), IsoTimeMinutes(f.lunchStart),
                                IsoTimeMinutes(f.lunchEnd), IsoTimeMinutes(f.workEnd);
          ws.Some? && ls.Some? && le.Some? && we.Some?
          && ws.value < ls.value < le.value < we.value)
  {
  }

  /** A time that does not parse makes the form invalid. */
  lemma UnparsedTimeInvalid(f: Form)
    requires IsoTimeMinutes(f.workStart).None? || IsoTimeMinutes(f.workEnd).None?
          || IsoTimeMinutes(f.lunchStart).None? || IsoTimeMinutes(f.lunchEnd).None?
    ensures !IsFormValid(f)
  {
  }

  /** Every time of day written as "HH:MM" parses back to itself. */
  lemma IsoTimeRoundTrip(m: nat)
    requires m < Clock.MinutesPerDay
    ensures IsoTimeMinutes(Clock.Format(m)) == Some(m)
  {
    var t := Clock.Format(m);
    TwoDigitsValue(t[..2]);
    TwoDigitsValue(t[3..]);
    assert t[..2][0] == t[0] && t[..2][1] == t[1];
    assert t[3..][0] == t[3] && t[3..][1] == t[4];
  }

  /** The default times with a name and an address filled in form a valid task. */
  lemma InitialTimesValid(name: string, address: string)
    requires name != "" && address != ""
    ensures IsFormValid(InitialForm.(name := name, address := address))
  {
    IsoTimeRoundTrip(540);
    IsoTimeRoundTrip(780);
    IsoTimeRoundTrip(840);
    IsoTimeRoundTrip(1080);
    assert Clock.Format(540) == "09:00";
    assert Clock.Format(780) == "13:00";
    assert Clock.Format(840) == "14:00";
    assert Clock.Format(1080) == "18:00";
  }

  /** The task a save produces: the form's fields, the geocoded position and a fresh id; no timing. */
  function SavedTask(f: Form, coords: Coords, uid: string): (r: Task)
    ensures Unannotated(r) && r.uid == uid && r.coords == coords
    ensures r.name == f.name && r.address == f.address && r.level == f.level
    ensures r.workStart == f.workStart && r.workEnd == f.workEnd
    ensures r.lunchStart == f.lunchStart && r.lunchEnd == f.lunchEnd
  {
    Task(uid, f.name, f.address, coords, f.level, f.workStart, f.workEnd, f.lunchStart, f.lunchEnd,
         None, None, None)
  }

  /** The form as it is filled in from an existing task for editing. */
  function FormOf(t: Task): Form {
    Form(t.name, t.address, t.level, t.workStart, t.workEnd, t.lunchStart, t.lunchEnd)
  }

  /**
   * The geocoding request's success handler.  No position: nothing changes.
   * Otherwise a truthy task index edits that task and anything else (no index,
   * or index 0, which is falsy) appends a new one.
   */
  function OnGeocoded(st: TasksStore.Store, f: Form, taskIndex: Option<int>, coords: Option<Coords>, uid: string): (r: TasksStore.Store)
    requires taskIndex.Some? ==> taskIndex.value <= |st.tasks|
    ensures coords.None? ==> r == st
    ensures coords.Some? && taskIndex.Some? && 0 < taskIndex.value < |st.tasks| ==>
      |r.tasks| == |st.tasks| && r.tasks[taskIndex.value] == SavedTask(f, coords.value, uid)
      && forall k :: 0 <= k < |st.tasks| && k != taskIndex.value ==> r.tasks[k] == st.tasks[k]
    ensures coords.Some? && (taskIndex.None? || taskIndex.value == 0 || taskIndex.value == |st.tasks|) ==>
      |r.tasks| == |st.tasks| + 1 && r.tasks[|st.tasks|] == SavedTask(f, coords.value, uid)
      && r.tasks[..|st.tasks|] == st.tasks
    ensures coords.Some? && taskIndex.Some? && taskIndex.value < 0 ==> r.tasks == st.tasks
    ensures TasksStore.OnlyTasksChanged(st, r)
    ensures TasksStore.Synced(st) ==> TasksStore.Synced(r)
  {
    match coords
    case None => st
    case Some(c) =>
      var t := SavedTask(f, c, uid);
      if taskIndex.Some? && taskIndex.value != 0 then TasksStore.EditTask(st, taskIndex.value, t)
      else TasksStore.AddTask(st, t)
  }

  /** Saving the first task of a non-empty list appends a copy instead of replacing it. */
  lemma EditingFirstTaskAppends(st: TasksStore.Store, coords: Coords, uid: string)
    requires |st.tasks| > 0
    ensures var r := OnGeocoded(st, FormOf(st.tasks[0]), Some(0), Some(coords), uid);
      |r.tasks| == |st.tasks| + 1 && r.tasks[0] == st.tasks[0] && r.tasks[|st.tasks|].name == st.tasks[0].name
  {
  }

  /** Saving an unchanged form for any other task keeps what was entered and drops its timing and old id. */
  lemma EditKeepsEnteredFields(st: TasksStore.Store, i: nat, uid: string)
    requires 0 < i < |st.tasks|
    ensures var r := OnGeocoded(st, FormOf(st.tasks[i]), Some(i), Some(st.tasks[i].coords), uid);
      r.tasks[i] == TasksStore.Strip(st.tasks[i]).(uid := uid)
  {
  }
}

=== FILE: tasks_store.dfy ===
/**
 * The task store: the user's list of visits, the chosen start time and day,
 * and the totals of the last optimized route.  Every change to the list, the
 * start time or the start day is written through to the browser's local
 * storage (modelled as `Disk`); the totals live in memory only.
 */
module TasksStore {
  import opened Wrappers
  import opened Text
  import opened JsNumber
  import opened Domain
  import StableSort

  /** The local-storage keys 'tasks', 'startTime' and 'startDay'; an absent key is `None`. */
  datatype Disk = Disk(tasks: Option<seq<Task>>, startTime: Option<string>, startDay: Option<string>)

  datatype Store = Store(
    tasks: seq<Task>,
    startTime: Option<string>,
    startDay: Option<string>,
    totalDistance: Option<real>,
    totalDuration: Option<real>,
    disk: Disk)

  /** Memory and storage agree: what a reload would read back is what is shown now. */
  predicate Synced(st: Store) {
    st.disk.tasks.GetOr([]) == st.tasks && st.disk.startTime == st.startTime && st.disk.startDay == st.startDay
  }

  /** Nothing but the task list (in memory and on disk) differs between `st` and `r`. */
  predicate OnlyTasksChanged(st: Store, r: Store) {
    r.startTime == st.startTime && r.startDay == st.startDay
    && r.totalDistance == st.totalDistance && r.totalDuration == st.totalDuration
    && r.disk.startTime == st.disk.startTime && r.disk.startDay == st.disk.startDay
  }

  /** The store as created on page load: stored values when present, no totals. */
  function Init(disk: Disk): (r: Store)
    ensures Synced(r) && r.disk == disk
    ensures disk.tasks.None? ==> r.tasks == []
    ensures r.totalDistance.None? && r.totalDuration.None?
  {
    Store(disk.tasks.GetOr([]), disk.startTime, disk.startDay, None, None, disk)
  }

  /** The new list becomes both the state and the stored value. */
  function WriteTasks(st: Store, tasks: seq<Task>): (r: Store)
    ensures r.tasks == tasks && r.disk.tasks == Some(tasks) && OnlyTasksChanged(st, r)
    ensures Synced(st) ==> Synced(r)
  {
    st.(tasks := tasks, disk := st.disk.(tasks := Some(tasks)))
  }

  /** `addTask`: one task appended at the end. */
  function AddTask(st: Store, t: Task): (r: Store)
    ensures |r.tasks| == |st.tasks| + 1 && r.tasks[|st.tasks|] == t
    ensures forall k :: 0 <= k < |st.tasks| ==> r.tasks[k] == st.tasks[k]
    ensures r.disk.tasks == Some(r.tasks) && OnlyTasksChanged(st, r)
    ensures Synced(st) ==> Synced(r)
  {
    WriteTasks(st, st.tasks + [t])
  }

  /**
   * `editTask`: `newTasks[index] = task`.  An index inside the list replaces
   * that task, the index just past the end appends, and a negative index adds
   * a property that is not an element, so the list stays as it was (and is
   * still stored).
   */
  function EditTask(st: Store, index: int, t: Task): (r: Store)
    requires index <= |st.tasks|
    ensures 0 <= index < |st.tasks| ==> |r.tasks| == |st.tasks| && r.tasks[index] == t
    ensures 0 <= index < |st.tasks| ==> forall k :: 0 <= k < |st.tasks| && k != index ==> r.tasks[k] == st.tasks[k]
    ensures index == |st.tasks| ==> r.tasks == AddTask(st, t).tasks
    ensures index < 0 ==> r.tasks == st.tasks
    ensures r.disk.tasks == Some(r.tasks) && OnlyTasksChanged(st, r)
    ensures Synced(st) ==> Synced(r)
  {
    if index < 0 then WriteTasks(st, st.tasks)
    else if index == |st.tasks| then WriteTasks(st, st.tasks + [t])
    else WriteTasks(st, st.tasks[index := t])
  }

  /** Where `splice(index, 1)` starts on a list of `len` elements: a negative index counts from the end, clamped to the list. */
  function SpliceStart(len: nat, index: int): (r: nat)
    ensures r <= len
    ensures 0 <= index ==> r == if index < len then index else len
    ensures index < 0 && len + index >= 0 ==> r == len + index
    ensures len + index < 0 ==> r == 0
  {
    if index < 0 then (if len + index < 0 then 0 else len + index)
    else if index < len then index
    else len
  }

  /** `deleteTask`: `splice(index, 1)` on a copy, then stored. */
  function DeleteTask(st: Store, index: int): (r: Store)
    ensures var at := SpliceStart(|st.tasks|, index);
      if at < |st.tasks| then
        |r.tasks| == |st.tasks| - 1
        && (forall k :: 0 <= k < at ==> r.tasks[k] == st.tasks[k])
        && (forall k :: at <= k < |r.tasks| ==> r.tasks[k] == st.tasks[k + 1])
      else r.tasks == st.tasks
    ensures index >= |st.tasks| ==> r.tasks == st.tasks
    ensures r.disk.tasks == Some(r.tasks) && OnlyTasksChanged(st, r)
    ensures Synced(st) ==> Synced(r)
  {
    var at := SpliceStart(|st.tasks|, index);
    if at < |st.tasks| then WriteTasks(st, st.tasks[..at] + st.tasks[at + 1..])
    else WriteTasks(st, st.tasks)
  }

  /** Adding a task and then deleting at the old length gives back the old list, in memory and on disk. */
  lemma AddThenDelete(st: Store, t: Task)
    ensures DeleteTask(AddTask(st, t), |st.tasks|).tasks == st.tasks
    ensures DeleteTask(AddTask(st, t), |st.tasks|).disk.tasks == Some(st.tasks)
  {
    var a := AddTask(st, t);
    var d := DeleteTask(a, |st.tasks|);
    assert d.tasks == a.tasks[..|st.tasks|];
  }

  /** Deleting with index -1 removes the task `addTask` just appended. */
  lemma AddThenDeleteLast(st: Store, t: Task)
    ensures DeleteTask(AddTask(st, t), -1).tasks == st.tasks
  {
    var a := AddTask(st, t);
    assert SpliceStart(|a.tasks|, -1) == |st.tasks|;
    assert DeleteTask(a, -1).tasks == a.tasks[..|st.tasks|];
  }

  /** Writing a task back at its own index changes nothing in memory. */
  lemma EditWithSame(st: Store, index: nat)
    requires index < |st.tasks|
    ensures EditTask(st, index, st.tasks[index]).tasks == st.tasks
  {
  }

  // ---------------------------------------------------------------- CSV import

  /** One CSV record: header name to cell text. */
  type Row = map<string, string>

  /** What the CSV parser hands to its callbacks: the `error` callback, or `complete` with an error count and rows. */
  datatype CsvParse = ParseFailed | Parsed(errors: nat, rows: seq<Row>)

  const AddressColumn := "Адрес объекта"
  const LatColumn := "Географическая широта"
  const LonColumn := "Географическая долгота"
  const LevelColumn := "Уровень клиента"
  const WorkStartColumn := "Время начала рабочего дня"
  const WorkEndColumn := "Время окончания рабочего дня"
  const LunchStartColumn := "Время начала обеда"
  const LunchEndColumn := "Время окончания обеда"

  /** A text cell; a missing column reads as the empty string. */
  function Cell(row: Row, column: string): string {
    if column in row then row[column] else ""
  }

  /** A numeric cell through `Number`; a missing column is `Number(undefined)`, which is NaN. */
  function NumberCell(row: Row, column: string): (r: Num)
    ensures column !in row ==> r.NaN?
  {
    if column in row then ParseNumber(row[column]) else NaN
  }

  /** The level cell lower-cased and trimmed: either spelling of "standard" is standard, everything else vip. */
  function LevelOf(cell: string): (r: Level)
    ensures r == Standard <==> Trim(ToLower(cell)) in {"standart", "standard"}
  {
    var v := Trim(ToLower(cell));
    if v == "standart" || v == "standard" then Standard else Vip
  }

  /** The generated name of the `i`-th imported row, counting from 1. */
  function CsvName(i: nat): string
    requires i >= 1
  {
    "Задача " + NatToString(i) + " из CSV-файла"
  }

  /** The task made from row number `index` (from 0); it has no timing yet. */
  function RowTask(row: Row, index: nat, uid: string): (r: Task)
    requires LevelColumn in row
    ensures r.name == CsvName(index + 1) && r.uid == uid && Unannotated(r)
    ensures r.level == LevelOf(row[LevelColumn])
    ensures r.coords == Coords(NumberCell(row, LatColumn), NumberCell(row, LonColumn))
  {
    Task(uid, CsvName(index + 1), Cell(row, AddressColumn),
         Coords(NumberCell(row, LatColumn), NumberCell(row, LonColumn)),
         LevelOf(row[LevelColumn]),
         Cell(row, WorkStartColumn), Cell(row, WorkEndColumn),
         Cell(row, LunchStartColumn), Cell(row, LunchEndColumn),
         None, None, None)
  }

  /** Every row has a level column, so mapping the rows cannot throw. */
  predicate AllHaveLevel(rows: seq<Row>) {
    forall i :: 0 <= i < |rows| ==> LevelColumn in rows[i]
  }

  /** The tasks for `rows`, numbered from `from`; `uid(i)` is the fresh id drawn for row `i`. */
  function RowTasks(rows: seq<Row>, from: nat, uid: nat -> string): (r: seq<Task>)
    requires AllHaveLevel(rows)
    ensures |r| == |rows|
    ensures forall i :: 0 <= i < |rows| ==> r[i] == RowTask(rows[i], from + i, uid(from + i))
  {
    seq(|rows|, i requires 0 <= i < |rows| => RowTask(rows[i], from + i, uid(from + i)))
  }

  /** The store after an import, and whether the parser callback threw. */
  datatype CsvOutcome = CsvOutcome(store: Store, thrown: bool)

  /**
   * `addTasksFromCsv`.  A parser error, a reported row error, or a row without
   * the level column throws before the single write, so the store is left as
   * it was; otherwise one task per row is appended and the list is stored.
   */
  function AddTasksFromCsv(st: Store, parse: CsvParse, uid: nat -> string): (r: CsvOutcome)
    ensures r.thrown <==> parse.ParseFailed? || parse.errors > 0 || !AllHaveLevel(parse.rows)
    ensures r.thrown ==> r.store == st
    ensures !r.thrown ==>
      |r.store.tasks| == |st.tasks| + |parse.rows|
      && r.store.tasks[..|st.tasks|] == st.tasks
      && (forall i :: 0 <= i < |parse.rows| ==>
            r.store.tasks[|st.tasks| + i] == RowTask(parse.rows[i], i, uid(i)))
      && r.store.disk.tasks == Some(r.store.tasks) && OnlyTasksChanged(st, r.store)
    ensures Synced(st) ==> Synced(r.store)
  {
    if parse.ParseFailed? || parse.errors > 0 || !AllHaveLevel(parse.rows) then CsvOutcome(st, true)
    else
      var added := RowTasks(parse.rows, 0, uid);
      CsvOutcome(WriteTasks(st, st.tasks + added), false)
  }

  /** Imported rows are named "Задача 1 из CSV-файла", "Задача 2 из CSV-файла", … after the existing tasks. */
  lemma CsvNames(st: Store, parse: CsvParse, uid: nat -> string)
    ensures var r := AddTasksFromCsv(st, parse, uid);
      !r.thrown ==> forall k :: |st.tasks| <= k < |r.store.tasks| ==> r.store.tasks[k].name == CsvName(k - |st.tasks| + 1)
  {
  }

  /** Each level reads back as itself from its own name, whatever its case and surrounding spaces. */
  lemma LevelNameRoundTrip(l: Level, pad: string)
    requires forall k :: 0 <= k < |pad| ==> pad[k] == ' '
    ensures LevelOf(pad + ToUpper(LevelName(l)) + pad) == l
  {
    var name := LevelName(l);
    var up := ToUpper(name);
    var s := pad + up + pad;
    var low := ToLower(s);
    assert low == pad + name + pad by {
      forall k | 0 <= k < |s|
        ensures low[k] == (pad + name + pad)[k]
      {
        if k < |pad| {
        } else if k < |pad| + |name| {
          assert s[k] == up[k - |pad|];
        } else {
        }
      }
    }
    TrimPadding(pad, name);
  }

  /** Spaces around a word that neither starts nor ends with white space trim away. */
  lemma {:induction false} TrimPadding(pad: string, w: string)
    requires forall k :: 0 <= k < |pad| ==> pad[k] == ' '
    requires |w| > 0 && !IsJsSpace(w[0]) && !IsJsSpace(w[|w| - 1])
    ensures Trim(pad + w + pad) == w
  {
    TrimStartPadding(pad, w + pad);
    assert pad + w + pad == pad + (w + pad);
    TrimEndPadding(w, pad);
  }

  lemma {:induction false} TrimStartPadding(pad: string, s: string)
    requires forall k :: 0 <= k < |pad| ==> pad[k] == ' '
    requires |s| > 0 && !IsJsSpace(s[0])
    ensures TrimStart(pad + s) == s
    decreases |pad|
  {
    if |pad| > 0 {
      assert (pad + s)[1..] == pad[1..] + s;
      TrimStartPadding(pad[1..], s);
    } else {
      assert pad + s == s;
    }
  }

  lemma {:induction false} TrimEndPadding(s: string, pad: string)
    requires forall k :: 0 <= k < |pad| ==> pad[k] == ' '
    requires |s| > 0 && !IsJsSpace(s[|s| - 1])
    ensures TrimEnd(s + pad) == s
    decreases |pad|
  {
    if |pad| > 0 {
      assert (s + pad)[..|s + pad| - 1] == s + pad[..|pad| - 1];
      TrimEndPadding(s, pad[..|pad| - 1]);
    } else {
      assert s + pad == s;
    }
  }

  // ------------------------------------------------- applying an optimized route

  /** Position of the last stop at `address`: later duplicates overwrite earlier ones in the lookup map. */
  function LastStopAt(optimized: seq<Stop>, address: string): (r: Option<nat>)
    ensures r.Some? ==> r.value < |optimized| && optimized[r.value].address == address
    ensures r.Some? ==> forall q :: r.value < q < |optimized| ==> optimized[q].address != address
    ensures r.None? ==> forall q :: 0 <= q < |optimized| ==> optimized[q].address != address
  {
    if |optimized| == 0 then None
    else if optimized[|optimized| - 1].address == address then Some(|optimized| - 1)
    else LastStopAt(optimized[..|optimized| - 1], address)
  }

  /** The sort key of a task: the order of its address in the route, 0 when the address is not in it. */
  function OrderOf(optimized: seq<Stop>, address: string): int {
    match LastStopAt(optimized, address)
    case Some(q) => optimized[q].order
    case None => 0
  }

  function SortKeys(tasks: seq<Task>, optimized: seq<Stop>): (r: seq<int>)
    ensures |r| == |tasks|
    ensures forall i :: 0 <= i < |tasks| ==> r[i] == OrderOf(optimized, tasks[i].address)
  {
    seq(|tasks|, i requires 0 <= i < |tasks| => OrderOf(optimized, tasks[i].address))
  }

  /** The stop's timing written onto the task. */
  function Annotate(t: Task, s: Stop): (r: Task)
    ensures r.estimatedArrival == Some(s.estimatedArrival) && r.departureTime == Some(s.departureTime)
    ensures r.travelTime == Some(s.travelTime)
    ensures Strip(r) == Strip(t)
  {
    t.(estimatedArrival := Some(s.estimatedArrival), departureTime := Some(s.departureTime),
       travelTime := Some(s.travelTime))
  }

  /** The task as the user entered it, timing dropped. */
  function Strip(t: Task): (r: Task)
    ensures Unannotated(r)
  {
    t.(estimatedArrival := None, departureTime := None, travelTime := None)
  }

  /**
   * The in-place annotation of the first `m` tasks in sorted order, seen
   * through the original list: the sorted copy shares its task objects with
   * the list still held in the store.
   */
  function AnnotateShared(tasks: seq<Task>, perm: seq<nat>, optimized: seq<Stop>, m: nat): (r: seq<Task>)
    requires StableSort.InRange(SortKeys(tasks, optimized), perm)
    requires forall a, b :: 0 <= a < b < |perm| ==> perm[a] != perm[b]
    requires m <= |perm| && m <= |optimized|
    ensures |r| == |tasks|
    ensures forall p :: 0 <= p < m ==> r[perm[p]] == Annotate(tasks[perm[p]], optimized[p])
    ensures forall i :: 0 <= i < |tasks| && i !in perm[..m] ==> r[i] == tasks[i]
  {
    if m == 0 then tasks
    else
      var prev := AnnotateShared(tasks, perm, optimized, m - 1);
      var i := perm[m - 1];
      assert forall p :: 0 <= p < m - 1 ==> perm[p] != i;
      assert forall j :: j in perm[..m - 1] ==> j in perm[..m] by {
        assert perm[..m - 1] == perm[..m][..m - 1];
      }
      prev[i := Annotate(tasks[i], optimized[m - 1])]
  }

  /** The store after applying an optimized route, and whether the annotation loop threw. */
  datatype SortOutcome = SortOutcome(store: Store, thrown: bool)

  /**
   * `sortTasksByOptimized`: a stable sort of a copy of the list by the order
   * of each task's address, then the stop at each position's timing written
   * onto the task at that position.  With fewer stops than tasks the loop
   * reads past the end and throws after annotating the first tasks in place;
   * nothing is stored then.
   */
  function SortTasksByOptimized(st: Store, optimized: seq<Stop>): (r: SortOutcome)
    ensures r.thrown <==> |optimized| < |st.tasks|
    ensures |r.store.tasks| == |st.tasks|
    ensures var perm := StableSort.Sorted(SortKeys(st.tasks, optimized));
      !r.thrown ==> forall p :: 0 <= p < |st.tasks| ==>
        r.store.tasks[p] == Annotate(st.tasks[perm[p]], optimized[p])
    ensures !r.thrown ==> r.store.disk.tasks == Some(r.store.tasks) && OnlyTasksChanged(st, r.store)
    ensures r.thrown ==> r.store.disk == st.disk && OnlyTasksChanged(st, r.store)
    ensures r.thrown ==> forall i :: 0 <= i < |st.tasks| ==> Strip(r.store.tasks[i]) == Strip(st.tasks[i])
  {
    var key := SortKeys(st.tasks, optimized);
    var perm := StableSort.Sorted(key);
    assert forall a, b :: 0 <= a < b < |perm| ==> perm[a] != perm[b] by {
      forall a, b | 0 <= a < b < |perm|
        ensures perm[a] != perm[b]
      {
        assert StableSort.Before(key, perm[a], perm[b]);
      }
    }
    if |optimized| >= |st.tasks| then
      var sorted := seq(|st.tasks|, p requires 0 <= p < |st.tasks| => Annotate(st.tasks[perm[p]], optimized[p]));
      SortOutcome(WriteTasks(st, sorted), false)
    else
      var mutated := AnnotateShared(st.tasks, perm, optimized, |optimized|);
      assert forall i :: 0 <= i < |st.tasks| ==> Strip(mutated[i]) == Strip(st.tasks[i]) by {
        forall i | 0 <= i < |st.tasks|
          ensures Strip(mutated[i]) == Strip(st.tasks[i])
        {
          if i in perm[..|optimized|] {
            var p :| 0 <= p < |optimized| && perm[..|optimized|][p] == i;
            assert perm[p] == i;
          }
        }
      }
      SortOutcome(st.(tasks := mutated), true)
  }

  /** After a successful sort the route orders of the tasks' addresses never decrease along the list. */
  lemma SortedByRouteOrder(st: Store, optimized: seq<Stop>)
    requires |optimized| >= |st.tasks|
    ensures var r := SortTasksByOptimized(st, optimized).store.tasks;
      forall p, q :: 0 <= p < q < |r| ==> OrderOf(optimized, r[p].address) <= OrderOf(optimized, r[q].address)
  {
    var key := SortKeys(st.tasks, optimized);
    var perm := StableSort.Sorted(key);
    StableSort.SortedKeys(key);
    var r := SortTasksByOptimized(st, optimized).store.tasks;
    forall p, q | 0 <= p < q < |r|
      ensures OrderOf(optimized, r[p].address) <= OrderOf(optimized, r[q].address)
    {
      assert r[p].address == st.tasks[perm[p]].address;
      assert r[q].address == st.tasks[perm[q]].address;
    }
  }

  /** The tasks without their timing annotations. */
  function Stripped(ts: seq<Task>): (r: seq<Task>)
    ensures |r| == |ts| && forall p :: 0 <= p < |ts| ==> r[p] == Strip(ts[p])
  {
    seq(|ts|, p requires 0 <= p < |ts| => Strip(ts[p]))
  }

  /** After a successful sort the list holds the same tasks, each as often as before, with its entered fields intact. */
  lemma SortIsPermutation(st: Store, optimized: seq<Stop>)
    requires |optimized| >= |st.tasks|
    ensures var r := SortTasksByOptimized(st, optimized).store.tasks;
      multiset(Stripped(r)) == multiset(Stripped(st.tasks))
  {
    var key := SortKeys(st.tasks, optimized);
    var perm := StableSort.Sorted(key);
    var r := SortTasksByOptimized(st, optimized).store.tasks;
    forall a, b | 0 <= a < b < |perm|
      ensures perm[a] != perm[b]
    {
      assert StableSort.Before(key, perm[a], perm[b]);
    }
    var plain := Stripped(st.tasks);
    StableSort.GatherIsPermutation(plain, perm);
    assert Stripped(r) == StableSort.Gather(plain, perm);
  }

  /** Tasks whose addresses share a route order keep their relative order. */
  lemma SortIsStable(st: Store, optimized: seq<Stop>)
    requires |optimized| >= |st.tasks|
    ensures var key := SortKeys(st.tasks, optimized); var perm := StableSort.Sorted(key);
      forall p, q :: 0 <= p < q < |perm| && key[perm[p]] == key[perm[q]] ==> perm[p] < perm[q]
  {
    StableSort.SortedKeys(SortKeys(st.tasks, optimized));
  }

  /**
   * The route the back end returns starts with the start point (order 1),
   * followed by one stop per task (orders 2 .. n + 1).  When addresses are all
   * distinct, the task at position `p` of the sorted list is the stop at
   * position `p + 1`, but it receives the timing of the stop at position `p`:
   * the first task shows the start point's times and every other task shows
   * its predecessor's.
   */
  lemma AnnotationIsOneStopBehind(st: Store, optimized: seq<Stop>)
    requires |optimized| == |st.tasks| + 1
    requires forall q :: 0 <= q < |optimized| ==> optimized[q].order == q + 1
    requires forall q, q' :: 0 <= q < q' < |optimized| ==> optimized[q].address != optimized[q'].address
    requires forall i, j :: 0 <= i < j < |st.tasks| ==> st.tasks[i].address != st.tasks[j].address
    requires forall i :: 0 <= i < |st.tasks| ==> exists q :: 1 <= q < |optimized| && optimized[q].address == st.tasks[i].address
    ensures var r := SortTasksByOptimized(st, optimized).store.tasks;
      forall p :: 0 <= p < |r| ==>
        r[p].address == optimized[p + 1].address
        && r[p].estimatedArrival == Some(optimized[p].estimatedArrival)
        && r[p].departureTime == Some(optimized[p].departureTime)
  {
    var key := SortKeys(st.tasks, optimized);
    var perm := StableSort.Sorted(key);
    RouteKeys(st.tasks, optimized);
    StableSort.DistinctRangeKeys(key, 2);
    var r := SortTasksByOptimized(st, optimized).store.tasks;
    forall p | 0 <= p < |r|
      ensures r[p].address == optimized[p + 1].address
    {
      assert key[perm[p]] == p + 2;
      assert r[p].address == st.tasks[perm[p]].address;
    }
  }

  /** Under the hypotheses above, the tasks' sort keys are the distinct orders `2 .. n + 1`, each naming the stop at the task's address. */
  lemma RouteKeys(tasks: seq<Task>, optimized: seq<Stop>)
    requires |optimized| == |tasks| + 1
    requires forall q :: 0 <= q < |optimized| ==> optimized[q].order == q + 1
    requires forall q, q' :: 0 <= q < q' < |optimized| ==> optimized[q].address != optimized[q'].address
    requires forall i, j :: 0 <= i < j < |tasks| ==> tasks[i].address != tasks[j].address
    requires forall i :: 0 <= i < |tasks| ==> exists q :: 1 <= q < |optimized| && optimized[q].address == tasks[i].address
    ensures var key := SortKeys(tasks, optimized);
      (forall i :: 0 <= i < |tasks| ==> 2 <= key[i] < 2 + |tasks| && optimized[key[i] - 1].address == tasks[i].address)
      && (forall i, j :: 0 <= i < j < |tasks| ==> key[i] != key[j])
  {
    var key := SortKeys(tasks, optimized);
    forall i | 0 <= i < |tasks|
      ensures 2 <= key[i] < 2 + |tasks| && optimized[key[i] - 1].address == tasks[i].address
    {
      var q :| 1 <= q < |optimized| && optimized[q].address == tasks[i].address;
      var last := LastStopAt(optimized, tasks[i].address);
      assert last.value == q;
    }
  }

  // ------------------------------------------------------- start and totals

  /** `setStartTime`: written through. */
  function SetStartTime(st: Store, time: string): (r: Store)
    ensures r.startTime == Some(time) && r.disk.startTime == Some(time)
    ensures r.tasks == st.tasks && r.disk.tasks == st.disk.tasks && r.startDay == st.startDay
    ensures r.disk.startDay == st.disk.startDay && r.totalDistance == st.totalDistance && r.totalDuration == st.totalDuration
    ensures Synced(st) ==> Synced(r)
  {
    st.(startTime := Some(time), disk := st.disk.(startTime := Some(time)))
  }

  /** `setStartDay`: written through. */
  function SetStartDay(st: Store, day: string): (r: Store)
    ensures r.startDay == Some(day) && r.disk.startDay == Some(day)
    ensures r.tasks == st.tasks && r.disk.tasks == st.disk.tasks && r.startTime == st.startTime
    ensures r.disk.startTime == st.disk.startTime && r.totalDistance == st.totalDistance && r.totalDuration == st.totalDuration
    ensures Synced(st) ==> Synced(r)
  {
    st.(startDay := Some(day), disk := st.disk.(startDay := Some(day)))
  }

  /** `setTotalProperties`: both totals overwritten in memory; storage is not touched. */
  function SetTotalProperties(st: Store, distance: Option<real>, duration: Option<real>): (r: Store)
    ensures r.totalDistance == distance && r.totalDuration == duration
    ensures r.disk == st.disk && r.tasks == st.tasks && r.startTime == st.startTime && r.startDay == st.startDay
  {
    st.(totalDistance := distance, totalDuration := duration)
  }

  /** Resetting the totals twice is the same as resetting them once. */
  lemma ResetTotalsIdempotent(st: Store)
    ensures SetTotalProperties(SetTotalProperties(st, None, None), None, None) == SetTotalProperties(st, None, None)
  {
  }

  /** A reload after any write-through operation shows the same list, start time and day. */
  lemma ReloadShowsStoredState(st: Store)
    requires Synced(st)
    ensures var r := Init(st.disk); r.tasks == st.tasks && r.startTime == st.startTime && r.startDay == st.startDay
  {
  }
}

=== FILE: text.dfy ===
/**
 * String helpers shared by the front end (JavaScript) and the back end (Python):
 * decimal digits, ASCII case mapping, whitespace trimming and splitting on one
 * separator character.  Case mapping is ASCII only; every comparison the system
 * makes after lower-casing is against an ASCII word, for which this is exact.
 */
module Text {
  import opened Wrappers

  predicate IsDigit(c: char) {
    '0' <= c <= '9'
  }

  function DigitValue(c: char): nat
    requires IsDigit(c)
  {
    c as int - '0' as int
  }

  function DigitChar(d: nat): char
    requires d < 10
  {
    (d + '0' as int) as char
  }

  predicate AllDigits(s: string) {
    forall i :: 0 <= i < |s| ==> IsDigit(s[i])
  }

  /** Value of a string of decimal digits, most significant first (leading zeros allowed). */
  function DigitsValue(s: string): nat
    requires AllDigits(s)
    decreases |s|
  {
    if |s| == 0 then 0 else DigitsValue(s[..|s| - 1]) * 10 + DigitValue(s[|s| - 1])
  }

  /** Decimal rendering of a natural number without leading zeros (`String(n)`, `str(n)`). */
  function NatToString(n: nat): (r: string)
    ensures 1 <= |r| && AllDigits(r)
    ensures r[|r| - 1] == DigitChar(n % 10)
    ensures n > 0 ==> r[0] != '0'
    decreases n
  {
    if n < 10 then [DigitChar(n)] else NatToString(n / 10) + [DigitChar(n % 10)]
  }

  /** Decimal rendering of an integer, with a leading '-' when negative. */
  function IntToString(i: int): string {
    if i < 0 then "-" + NatToString(-i) else NatToString(i)
  }

  /** `k` copies of the digit zero. */
  function Zeros(k: nat): (r: string)
    ensures |r| == k && AllDigits(r)
    ensures forall i :: 0 <= i < k ==> r[i] == '0'
  {
    seq(k, _ => '0')
  }

  /** `s` left-padded with zeros to at least `width` characters. */
  function PadZeros(s: string, width: nat): (r: string)
  {
    if |s| >= width then s else Zeros(width - |s|) + s
  }

  lemma DigitsValueSnoc(s: string, d: char)
    requires AllDigits(s) && IsDigit(d)
    ensures AllDigits(s + [d])
    ensures DigitsValue(s + [d]) == DigitsValue(s) * 10 + DigitValue(d)
  {
    assert (s + [d])[..|s|] == s;
  }

  /** The value of two digits. */
  lemma TwoDigitsValue(s: string)
    requires |s| == 2 && AllDigits(s)
    ensures DigitsValue(s) == DigitValue(s[0]) * 10 + DigitValue(s[1])
  {
    assert s[..1] == [s[0]];
    assert [s[0]][..0] == [];
    DigitsValueSnoc([s[0]], s[1]);
    assert [s[0]] + [s[1]] == s;
  }

  /** Reading back the decimal rendering of `n` gives `n`. */
  lemma {:induction false} NatToStringValue(n: nat)
    ensures DigitsValue(NatToString(n)) == n
    decreases n
  {
    if n < 10 {
      assert NatToString(n)[..0] == [];
    } else {
      NatToStringValue(n / 10);
      DigitsValueSnoc(NatToString(n / 10), DigitChar(n % 10));
    }
  }

  lemma {:induction false} ZerosValue(k: nat)
    ensures DigitsValue(Zeros(k)) == 0
  {
    if k > 0 {
      assert Zeros(k)[..k - 1] == Zeros(k - 1);
      ZerosValue(k - 1);
    }
  }

  /** Leading zeros do not change the value of a digit string. */
  lemma {:induction false} LeadingZerosValue(k: nat, s: string)
    requires AllDigits(s)
    ensures AllDigits(Zeros(k) + s)
    ensures DigitsValue(Zeros(k) + s) == DigitsValue(s)
    decreases |s|
  {
    if |s| == 0 {
      assert Zeros(k) + s == Zeros(k);
      ZerosValue(k);
    } else {
      var init := s[..|s| - 1];
      LeadingZerosValue(k, init);
      assert Zeros(k) + s == (Zeros(k) + init) + [s[|s| - 1]];
      DigitsValueSnoc(Zeros(k) + init, s[|s| - 1]);
      DigitsValueSnoc(init, s[|s| - 1]);
      assert init + [s[|s| - 1]] == s;
    }
  }

  function LowerChar(c: char): char {
    if 'A' <= c <= 'Z' then (c as int + 32) as char else c
  }

  function UpperChar(c: char): char {
    if 'a' <= c <= 'z' then (c as int - 32) as char else c
  }

  /** `toLocaleLowerCase()` / `str.lower()`, ASCII letters only. */
  function ToLower(s: string): (r: string)
    ensures |r| == |s|
  {
    seq(|s|, i requires 0 <= i < |s| => LowerChar(s[i]))
  }

  /** `toUpperCase()`, ASCII letters only. */
  function ToUpper(s: string): (r: string)
    ensures |r| == |s|
  {
    seq(|s|, i requires 0 <= i < |s| => UpperChar(s[i]))
  }

  /** Python's `str.capitalize()`: first character upper case, the rest lower case. */
  function Capitalize(s: string): (r: string)
    ensures |r| == |s|
  {
    if |s| == 0 then s else [UpperChar(s[0])] + ToLower(s[1..])
  }

  /** Capitalizing ignores the case the text came in. */
  lemma CapitalizeIgnoresCase(s: string)
    ensures Capitalize(ToLower(s)) == Capitalize(s)
  {
    if |s| > 0 {
      var l := ToLower(s);
      assert UpperChar(l[0]) == UpperChar(s[0]);
      LowerTail(s);
      LowerTwice(s[1..]);
      assert Capitalize(l) == [UpperChar(l[0])] + ToLower(l[1..]);
    }
  }

  /** Lower-casing commutes with dropping the first character. */
  lemma LowerTail(s: string)
    requires |s| > 0
    ensures ToLower(s)[1..] == ToLower(s[1..])
  {
    var l := ToLower(s);
    forall i | 0 <= i < |s| - 1
      ensures l[1..][i] == ToLower(s[1..])[i]
    {
      assert l[1..][i] == l[i + 1];
    }
  }

  /** Lower-casing twice is lower-casing once. */
  lemma LowerTwice(s: string)
    ensures ToLower(ToLower(s)) == ToLower(s)
  {
  }

  /** The characters JavaScript's `String.prototype.trim` removes (white space and line terminators). */
  predicate IsJsSpace(c: char) {
    var k := c as int;
    k == 0x09 || k == 0x0A || k == 0x0B || k == 0x0C || k == 0x0D || k == 0x20 || k == 0xA0
    || k == 0x1680 || (0x2000 <= k <= 0x200A) || k == 0x2028 || k == 0x2029 || k == 0x202F
    || k == 0x205F || k == 0x3000 || k == 0xFEFF
  }

  function TrimStart(s: string): (r: string)
    ensures |r| <= |s|
    ensures |r| > 0 ==> !IsJsSpace(r[0])
    ensures r == s[|s| - |r|..]
  {
    if |s| > 0 && IsJsSpace(s[0]) then TrimStart(s[1..]) else s
  }

  function TrimEnd(s: string): (r: string)
    ensures |r| <= |s|
    ensures |r| > 0 ==> !IsJsSpace(r[|r| - 1])
    ensures r == s[..|r|]
  {
    if |s| > 0 && IsJsSpace(s[|s| - 1]) then TrimEnd(s[..|s| - 1]) else s
  }

  /** JavaScript's `trim()`. */
  function Trim(s: string): string {
    TrimEnd(TrimStart(s))
  }

  /** A string that neither starts nor ends with white space is its own trim. */
  lemma TrimNoop(s: string)
    requires |s| > 0 ==> !IsJsSpace(s[0]) && !IsJsSpace(s[|s| - 1])
    ensures Trim(s) == s
  {
  }

  /** Position of the first occurrence of `c` in `s`. */
  function FindChar(s: string, c: char): (r: Option<nat>)
    ensures r.None? ==> c !in s
    ensures r.Some? ==> r.value < |s| && s[r.value] == c && c !in s[..r.value]
  {
    if |s| == 0 then None
    else if s[0] == c then Some(0)
    else match FindChar(s[1..], c)
      case None => None
      case Some(i) => Some(i + 1)
  }

  /** The pieces of `parts` glued back together with `c` between neighbours. */
  function Join(parts: seq<string>, c: char): string
    requires |parts| >= 1
  {
    if |parts| == 1 then parts[0] else parts[0] + [c] + Join(parts[1..], c)
  }

  /** `s.split(c)` in both languages: the maximal pieces between occurrences of `c`, empty ones kept. */
  function Split(s: string, c: char): (r: seq<string>)
    ensures |r| >= 1
    ensures forall k :: 0 <= k < |r| ==> c !in r[k]
    ensures Join(r, c) == s
    decreases |s|
  {
    match FindChar(s, c)
    case None => [s]
    case Some(i) =>
      var rest := Split(s[i + 1..], c);
      assert s == s[..i] + [c] + s[i + 1..];
      [s[..i]] + rest
  }

  /** Splitting text that contains the separator exactly once between two separator-free pieces. */
  lemma SplitTwo(a: string, b: string, c: char)
    requires c !in a && c !in b
    ensures Split(a + [c] + b, c) == [a, b]
  {
    var s := a + [c] + b;
    assert s[..|a|] == a;
    assert s[|a| + 1..] == b;
    assert s[|a|] == c;
  }
}

=== FILE: traffic.dfy ===
/**
 * The traffic table: per weekday ("Monday" … "Sunday") an object whose
 * "hours" object maps an hour ("0" … "23") to an object whose "average" is
 * the multiplier for travel times in that hour.  Every lookup that finds
 * nothing gives the neutral multiplier 1.0.
 */
module Traffic {
  import opened Wrappers
  import opened Text

  /** The JSON values the table is made of. */
  datatype Json = Num(value: real) | Obj(fields: map<string, Json>)

  /** Python truthiness: a non-zero number, a non-empty object. */
  predicate Truthy(j: Json) {
    match j
    case Num(x) => x != 0.0
    case Obj(f) => |f| > 0
  }

  /** `.get` on something that is not an object, or `float` of an object. */
  datatype TypeError = TypeError

  /** `d.get(key, {})` */
  function GetOrEmpty(f: map<string, Json>, key: string): (r: Json)
    ensures key in f ==> r == f[key]
    ensures key !in f ==> r == Obj(map[])
  {
    if key in f then f[key] else Obj(map[])
  }

  /** What loading the file gives. */
  datatype Loaded = Table(data: map<string, Json>) | FileNotFound | InvalidJson

  /** `_load_traffic_data`: the file's table, or the empty table when it is missing or unreadable. */
  function Load(l: Loaded): (r: map<string, Json>)
    ensures l.Table? ==> r == l.data
    ensures !l.Table? ==> r == map[]
  {
    match l
    case Table(d) => d
    case _ => map[]
  }

  /** `get_traffic_multiplier(hour, day)` */
  function Multiplier(data: map<string, Json>, hour: nat, day: string): (r: Result<real, TypeError>)
    ensures !Truthy(GetOrEmpty(data, Capitalize(day))) ==> r == Ok(1.0)
  {
    var dayData := GetOrEmpty(data, Capitalize(day));
    if !Truthy(dayData) then Ok(1.0)
    else
      match dayData
      case Num(_) => Err(TypeError)
      case Obj(df) =>
        match GetOrEmpty(df, "hours")
        case Num(_) => Err(TypeError)
        case Obj(hf) =>
          match GetOrEmpty(hf, NatToString(hour))
          case Num(_) => Err(TypeError)
          case Obj(af) =>
            if "average" !in af then Ok(1.0)
            else
              match af["average"]
              case Num(x) => Ok(x)
              case Obj(_) => Err(TypeError)
  }

  /**
   * The day's entry is an object `df` whose "hours" entry is the object `hf`;
   * both may hold any other fields as well.
   */
  predicate HoursOf(data: map<string, Json>, day: string, df: map<string, Json>, hf: map<string, Json>) {
    var key := Capitalize(day);
    key in data && data[key] == Obj(df) && "hours" in df && df["hours"] == Obj(hf)
  }

  /** A day entry without "hours" gives 1.0. */
  lemma NoHoursIsNeutral(data: map<string, Json>, hour: nat, day: string, df: map<string, Json>)
    requires Capitalize(day) in data && data[Capitalize(day)] == Obj(df)
    requires "hours" !in df
    ensures Multiplier(data, hour, day) == Ok(1.0)
  {
  }

  /** A day whose hours lack this hour gives 1.0. */
  lemma MissingHourIsNeutral(data: map<string, Json>, hour: nat, day: string, df: map<string, Json>, hf: map<string, Json>)
    requires HoursOf(data, day, df, hf)
    requires NatToString(hour) !in hf
    ensures Multiplier(data, hour, day) == Ok(1.0)
  {
  }

  /** An hour object without "average" gives 1.0. */
  lemma MissingAverageIsNeutral(data: map<string, Json>, hour: nat, day: string, df: map<string, Json>,
                                hf: map<string, Json>, av: map<string, Json>)
    requires HoursOf(data, day, df, hf)
    requires NatToString(hour) in hf && hf[NatToString(hour)] == Obj(av)
    requires "average" !in av
    ensures Multiplier(data, hour, day) == Ok(1.0)
  {
  }

  /** A stored average is the multiplier, whatever else the day and hour objects hold. */
  lemma StoredAverageIsUsed(data: map<string, Json>, hour: nat, day: string, df: map<string, Json>,
                            hf: map<string, Json>, av: map<string, Json>, x: real)
    requires HoursOf(data, day, df, hf)
    requires NatToString(hour) in hf && hf[NatToString(hour)] == Obj(av)
    requires "average" in av && av["average"] == Num(x)
    ensures Multiplier(data, hour, day) == Ok(x)
  {
  }

  /** Without a loaded table every multiplier is 1.0. */
  lemma FailedLoadIsNeutral(l: Loaded, hour: nat, day: string)
    requires !l.Table?
    ensures Multiplier(Load(l), hour, day) == Ok(1.0)
  {
  }

  /** The day is looked up capitalized, so its case does not matter. */
  lemma DayCaseIgnored(data: map<string, Json>, hour: nat, day: string)
    ensures Multiplier(data, hour, ToLower(day)) == Multiplier(data, hour, day)
  {
    CapitalizeIgnoresCase(day);
  }

  /** `get_day_data(day)`: the day's entry, or an empty object. */
  function DayData(data: map<string, Json>, day: string): (r: Json)
    ensures Capitalize(day) !in data ==> r == Obj(map[])
    ensures Capitalize(day) in data ==> r == data[Capitalize(day)]
  {
    GetOrEmpty(data, Capitalize(day))
  }

  /** The multiplier only depends on the day's entry. */
  lemma MultiplierReadsDayData(data: map<string, Json>, other: map<string, Json>, hour: nat, day: string)
    requires DayData(data, day) == DayData(other, day)
    ensures Multiplier(data, hour, day) == Multiplier(other, hour, day)
  {
  }
}

=== FILE: wrappers.dfy ===
/** Optional values and error-or-value results shared by every module. */
module Wrappers {

  /** A value that may be absent: JavaScript's `null`/`undefined`, Python's `None`. */
  datatype Option<+T> = None | Some(value: T) {

    /** The value when present, `default` otherwise (JavaScript's `??`). */
    function GetOr(default: T): T {
      match this
      case Some(v) => v
      case None => default
    }
  }

  /** Either a value or the error the modelled code raises or returns instead. */
  datatype Result<+T, +E> = Ok(value: T) | Err(error: E)
}
